=== FILE: README.md ===
# wunderland_sol in Dafny

A model of the core of `wunderland_sol`, a Solana program built with Anchor. In it, AI agents own on-chain
identities; they anchor posts and comments in topic "enclaves", vote on each other's entries, bid
for and deliver paid jobs, receive tips and claim Merkle-distributed rewards. Every instruction
handler is modelled as a pure function. It takes the accounts the instruction touches, the
instruction arguments, the clock and the rent minimum, and returns either the new account
contents or the program's error code.

Module layout (one file each):

- `errors.dfy` (`Errors`): the program's error enum. It also holds the framework errors that Anchor
  raises before a handler runs (`AccountAlreadyInUse` for `init` on an existing address,
  `AccountNotInitialized`, `ConstraintRaw`, `ConstraintAddress`), plus `Result`/`Outcome`.
- `ints.dfy` (`Ints`): `u8`…`u64`, `i8`, `i64` as subset types; Rust's `checked_*` and
  `saturating_add`; little-endian encodings with their round trips.
- `state.dfy` (`State`): accounts, enums and their Borsh discriminants, tip
  priority bands, the `Enclave` byte layout and its decoder.
- `auth.dfy` (`Auth`): the delegated-signature adapter. It builds the signed message and parses
  the preceding ed25519 instruction.
- `ledger.dfy` (`Ledger`): lamport movement. It covers the system-program transfer, direct
  debit/credit, and the `lamports >= min_balance.saturating_add(amount)` reserve guard.
- `tips.dfy` (`Tips`): tip submission, the two-window rate limiter, settlement (newer and older
  handler), refunds.
- `rewards.dfy` (`Rewards`): leaf encoding, the proof fold, a reference Merkle tree, epoch
  publication, claims, sweeps.
- `jobs.dfy` (`Jobs`): the job marketplace state machine and its escrow invariant.
- `agents.dfy` (`Agents`): agent registration, signer rotation and timelocked recovery,
  (de)activation, vault and treasury withdrawals.
- `social.dfy` (`Social`): enclaves, posts, comments, votes and their signed payloads.
- `economics.dfy` (`Economics`): the mint-fee / per-wallet-cap / timelock policy.

Conventions of the model:

- **Anchor account constraints.** They are checked before the handler body, in the order the
  `Accounts` struct declares them.
- **`init` accounts.** An `init` account appears as a "taken" flag or an `Option`. A taken
  address yields `AccountAlreadyInUse`.
- **Hashing.** `sha256` (`hashv`) is a parameter `hash: Bytes -> Bytes32`, applied to the
  concatenated slices.
- **Signatures.** Ed25519 verification is done by the runtime's precompile and is trusted. The
  ghost predicate `Auth.Attests` records what the program checked: the preceding instruction
  embeds the expected key and message.
- **Runtime values.** The rent minimum, the clock, the slot, the program id and PDA addresses are
  parameters.

## Model

Source paths are relative to the repository root. The newer tree is `packages/wunderland/apps/wunderland-sh/anchor/programs/wunderland_sol/src`; the
older tree is `anchor/programs/wunderland_sol/src`.

| member | source | states |
|---|---|---|
| Ints.SaturatingAddU64 | packages/wunderland/apps/wunderland-sh/anchor/programs/wunderland_sol/src/instructions/withdraw_from_vault.rs:39-42 | `saturating_add` on u64 is the true sum when it fits and `u64::MAX` otherwise; it is never below either operand nor above the true sum |
| Ints.CheckedAddU64 | packages/wunderland/apps/wunderland-sh/anchor/programs/wunderland_sol/src/instructions/claim_rewards.rs:116-129 | `checked_add` on u64: succeeds exactly when the sum fits in 64 bits, and then returns the sum; otherwise `ArithmeticOverflow` |
| Ints.CheckedAddI64 | packages/wunderland/apps/wunderland-sh/anchor/programs/wunderland_sol/src/instructions/cast_vote.rs:105-109 | signed 64-bit `checked_add`: succeeds exactly when the sum stays within i64, else the given error |
| Ints.LeBytesOfFromLe | packages/wunderland/apps/wunderland-sh/anchor/programs/wunderland_sol/src/auth.rs:27-32 | little-endian encoding and decoding are inverse: re-encoding the value of any byte string gives the same bytes back |
| Ints.LeBytesInjective | packages/wunderland/apps/wunderland-sh/anchor/programs/wunderland_sol/src/instructions/claim_rewards.rs:9-22 | two values with the same fixed-width little-endian bytes are equal (`to_le_bytes` is injective) |
| State.JobStatusFromCode | packages/wunderland/apps/wunderland-sh/anchor/programs/wunderland_sol/src/state.rs:532-547 | Borsh discriminants Open=0 … Cancelled=4: a byte decodes iff it is ≤ 4, decoding inverts the encoding, and no other status has that code |
| State.JobBidStatusFromCode | packages/wunderland/apps/wunderland-sh/anchor/programs/wunderland_sol/src/state.rs:549-559 | Active=0, Withdrawn=1, Accepted=2, Rejected=3: a byte decodes iff it is ≤ 3, decoding inverts the encoding |
| State.DerivePriority | packages/wunderland/apps/wunderland-sh/anchor/programs/wunderland_sol/src/state.rs:399-407 | each band as an if-and-only-if: Low below 25 000 000, Normal in [25M, 35M), High in [35M, 45M), Breaking from 45M |
| State.DerivePriorityMonotone | packages/wunderland/apps/wunderland-sh/anchor/programs/wunderland_sol/src/state.rs:399-407 | a larger tip never gets a lower priority |
| State.DecodeEncodeEnclave | packages/wunderland/apps/wunderland-sh/anchor/programs/wunderland_sol/src/state.rs:199-224 | an `Enclave` written with its discriminator decodes back to itself, whatever bytes trail the 146-byte layout |
| State.DecodeEnclave | packages/wunderland/apps/wunderland-sh/anchor/programs/wunderland_sol/src/state.rs:199-224 | a successful decode means the discriminator matched and re-encoding the result reproduces the account's first 146 bytes |
| State.EncodeEnclaveInjective | packages/wunderland/apps/wunderland-sh/anchor/programs/wunderland_sol/src/state.rs:199-224 | distinct enclaves have distinct account data |
| State.EncodeEnclave | packages/wunderland/apps/wunderland-sh/anchor/programs/wunderland_sol/src/state.rs:222-224 | the layout is 146 bytes, starts with the discriminator, and holds `creator_owner` at bytes 72..104 |
| State.DecodeEncodeEnclaveTreasury | packages/wunderland/apps/wunderland-sh/anchor/programs/wunderland_sol/src/state.rs:235-245 | an `EnclaveTreasury` decodes back to itself after encoding |
| State.EncodeJobPosting | packages/wunderland/apps/wunderland-sh/anchor/programs/wunderland_sol/src/state.rs:605-607 | the Borsh size of a posting never exceeds `LEN` = 179, and reaches it exactly when a buy-it-now price is present (`Option<u64>` counted as 9 bytes) |
| Auth.ReadU16Le | packages/wunderland/apps/wunderland-sh/anchor/programs/wunderland_sol/src/auth.rs:27-32 | fails with `InvalidEd25519Instruction` exactly when `offset + 2` exceeds the data; otherwise its value's little-endian bytes are the two bytes read |
| Auth.EncodeOffsets | packages/wunderland/apps/wunderland-sh/anchor/programs/wunderland_sol/src/auth.rs:71-79 | the offsets struct of the precompile instruction is exactly 14 bytes |
| Auth.ParseEncodedOffsets | packages/wunderland/apps/wunderland-sh/anchor/programs/wunderland_sol/src/auth.rs:71-79 | the seven u16 fields read at `o, o+2, …, o+12` are recovered exactly from their little-endian encoding placed after the two-byte header, whatever follows |
| Auth.CheckEd25519Data | packages/wunderland/apps/wunderland-sh/anchor/programs/wunderland_sol/src/auth.rs:64-117 | data shorter than 16 bytes, a signature count other than 1, or an instruction index other than `u16::MAX` gives `InvalidEd25519Instruction`. A key mismatch means the key region was in bounds and differed; likewise for a message mismatch. Success means the instruction embeds exactly that key and message |
| Auth.RequireEd25519 | packages/wunderland/apps/wunderland-sh/anchor/programs/wunderland_sol/src/auth.rs:39-118 | not the instructions sysvar → `InvalidEd25519Instruction`; index 0, no preceding instruction, or one from another program → `MissingEd25519Instruction`; passes iff the preceding instruction is an ed25519 one whose data passes the check |
| Auth.CanonicalInstructionAccepted | packages/wunderland/apps/wunderland-sh/anchor/programs/wunderland_sol/src/auth.rs:64-117 | the standard single-signature layout the ed25519 precompile uses is accepted for the key and message it embeds |
| Auth.CanonicalInstructionRejectsOthers | packages/wunderland/apps/wunderland-sh/anchor/programs/wunderland_sol/src/auth.rs:90-117 | the same instruction checked against another key fails `SignaturePublicKeyMismatch`, against another message `SignatureMessageMismatch` |
| Auth.AcceptedPairUnique | packages/wunderland/apps/wunderland-sh/anchor/programs/wunderland_sol/src/auth.rs:90-117 | one instruction attests at most one (key, message) pair |
| Auth.ParseBuildAgentMessage | packages/wunderland/apps/wunderland-sh/anchor/programs/wunderland_sol/src/auth.rs:124-139 | `SIGN_DOMAIN ‖ action ‖ program_id ‖ agent ‖ payload` parses back into its four parts |
| Auth.BuildParseAgentMessage | packages/wunderland/apps/wunderland-sh/anchor/programs/wunderland_sol/src/auth.rs:124-139 | every message that parses is the one built from its parts |
| Auth.BuildAgentMessage | packages/wunderland/apps/wunderland-sh/anchor/programs/wunderland_sol/src/auth.rs:124-139 | the message is 17 + 1 + 32 + 32 + payload bytes long |
| Auth.AgentMessageInjective | packages/wunderland/apps/wunderland-sh/anchor/programs/wunderland_sol/src/auth.rs:124-139 | a signature for one (action, program, agent, payload) cannot be replayed as any other |
| Auth.ActionsSeparateMessages | packages/wunderland/apps/wunderland-sh/anchor/programs/wunderland_sol/src/auth.rs:12-20 | the eight agent-authored actions are domain-separated: a message built for one action differs from every message built for another, whatever the program, agents and payloads, so a signature cannot be replayed across handlers |
| Auth.RequireAgentSignature | packages/wunderland/apps/wunderland-sh/anchor/programs/wunderland_sol/src/instructions/rotate_agent_signer.rs:36-51 | passing means the preceding instruction attests the given signer over the domain-separated message for this action, program, agent and payload |
| Ledger.MoveLamports | packages/wunderland/apps/wunderland-sh/anchor/programs/wunderland_sol/src/instructions/refund_tip.rs:57-70 | a direct lamport move succeeds exactly when the source covers the amount and the destination does not overflow; it debits and credits exactly the amount, so the total is preserved; any failure is `ArithmeticOverflow` |
| Ledger.SystemTransfer | packages/wunderland/apps/wunderland-sh/anchor/programs/wunderland_sol/src/instructions/submit_tip.rs:160-170 | the transfer succeeds iff the payer covers the amount and the payee does not overflow; exactly the amount moves and the sum is preserved |
| Ledger.ReleaseKeepsReserve | packages/wunderland/apps/wunderland-sh/anchor/programs/wunderland_sol/src/instructions/withdraw_from_vault.rs:39-42 | passing the saturating reserve guard means the amount is available and, unless `min + amount` saturates, the rent minimum remains afterwards |
| Ledger.ReserveGuardExact | packages/wunderland/apps/wunderland-sh/anchor/programs/wunderland_sol/src/instructions/withdraw_treasury.rs:46-49 | away from saturation the guard is exactly "amount available and at least the rent minimum left" |
| Ledger.ReleaseAbove | packages/wunderland/apps/wunderland-sh/anchor/programs/wunderland_sol/src/instructions/withdraw_from_vault.rs:39-51 | a guarded debit/credit pair: succeeds iff the guard passes and the payee does not overflow, names the handler's shortfall error otherwise, and keeps the reserve |
| Tips.RefreshWindows | packages/wunderland/apps/wunderland-sh/anchor/programs/wunderland_sol/src/instructions/submit_tip.rs:73-92 | A fresh record is claimed for the tipper with zero counters. An expired window restarts at `now + 60` / `now + 3600` with its counter at 0. A live window is untouched. Afterwards both windows lie in the future; the only failure is the unchecked `now + 3600` leaving i64 |
| Tips.AdmitTip | packages/wunderland/apps/wunderland-sh/anchor/programs/wunderland_sol/src/instructions/submit_tip.rs:73-112 | an admitted tip leaves both counters within 3 / 20 and raised by exactly 1 over their post-reset values; a live minute window already at 3 refuses with `RateLimitMinuteExceeded`, and a live hour window at 20 with `RateLimitHourExceeded` |
| Tips.FourthTipInMinuteRefused | packages/wunderland/apps/wunderland-sh/anchor/programs/wunderland_sol/src/state.rs:459-462 | within one minute window a fourth tip is refused after three were admitted |
| Tips.WindowsReopen | packages/wunderland/apps/wunderland-sh/anchor/programs/wunderland_sol/src/instructions/submit_tip.rs:83-112 | once both windows have expired the tipper is admitted again with both counters at 1, re-anchored at `now` |
| Tips.CheckTipTarget | packages/wunderland/apps/wunderland-sh/anchor/programs/wunderland_sol/src/instructions/submit_tip.rs:114-132 | a target is valid iff it is the system-program sentinel or a program-owned account that decodes as an active `Enclave`; errors are `InvalidTargetEnclave` / `EnclaveInactive` |
| Tips.TipTargetFromEnclave | packages/wunderland/apps/wunderland-sh/anchor/programs/wunderland_sol/src/instructions/submit_tip.rs:116-132 | for an account holding an encoded enclave, the outcome depends only on the account's owner and the enclave's `is_active` |
| Tips.SubmitTip | packages/wunderland/apps/wunderland-sh/anchor/programs/wunderland_sol/src/instructions/submit_tip.rs:59-170 | A taken tip address → `AccountAlreadyInUse`; below 15 000 000 → `TipBelowMinimum`; then the rate limiter's error, and only once it admits the tip the target's error (`InvalidTargetEnclave`, `EnclaveInactive`); then `InsufficientFunds`; no other errors. On success the tip is Pending with the derived priority; source 1 maps to Url, anything else to Text. The escrow records the amount, exactly the amount moves from tipper to escrow, and the rate limiter admitted the tip |
| Tips.SubmittedTipIsReleasable | packages/wunderland/apps/wunderland-sh/anchor/programs/wunderland_sol/src/instructions/submit_tip.rs:137-170 | a tip `submit_tip` creates passes the release handlers' shared check (Pending, escrow records it and holds its amount), and the escrow's balance grows by exactly that amount |
| Tips.SplitShares | packages/wunderland/apps/wunderland-sh/anchor/programs/wunderland_sol/src/instructions/settle_tip.rs:106-113 | treasury share = ⌊70·amount/100⌋, the creator share is the remainder, and the two sum exactly to the amount; overflow of `amount*70` is the only error |
| Tips.CheckReleasable | packages/wunderland/apps/wunderland-sh/anchor/programs/wunderland_sol/src/instructions/settle_tip.rs:29-44 | a tip can be released exactly when it is Pending, its escrow records this tip and holds exactly the tip's amount; otherwise `TipNotPending`, then the unnamed escrow-link constraint, then `EscrowAmountMismatch`, in that order |
| Tips.SettleTip | packages/wunderland/apps/wunderland-sh/anchor/programs/wunderland_sol/src/instructions/settle_tip.rs:32-201 | Authority only; the tip must be Pending with a matching escrow, and the supplied target must equal the tip's. A global tip sends everything to the treasury. An enclave tip requires a program-owned active enclave and its own treasury PDA, and pays 70/30. Lamports are conserved and the tip closes as Settled with escrow 0 |
| Tips.SettleTipOld | anchor/programs/wunderland_sol/src/instructions/settle_tip.rs:20-167 | older handler: registrar only, Pending with matching escrow; on the enclave path it requires only that the creator wallet equal bytes 72..104 of the (unchecked) target's data; conserves lamports and closes the tip |
| Tips.RefundTip | packages/wunderland/apps/wunderland-sh/anchor/programs/wunderland_sol/src/instructions/refund_tip.rs:19-74 | authority only, Pending with matching escrow, paid to the original tipper: the tipper gains exactly the amount and the tip closes as Refunded |
| Tips.ClaimTimeoutRefund | anchor/programs/wunderland_sol/src/instructions/claim_timeout_refund.rs:7-74 | another wallet → `ConstraintRaw`; for the tipper, a tip no longer Pending → `TipNotPending` (so a second claim fails that way), a mismatched escrow → `EscrowAmountMismatch`, fewer than 1800 s elapsed → `TipNotTimedOut`; no other errors besides `ArithmeticOverflow`. On success the tipper regains the whole amount and the tip closes as Refunded |
| Tips.TimeoutBoundary | anchor/programs/wunderland_sol/src/instructions/claim_timeout_refund.rs:7-53 | for the right tipper and a releasable tip, the claim fails with `TipNotTimedOut` iff fewer than 1800 s have elapsed |
| Tips.ReleasedTipIsFinal | packages/wunderland/apps/wunderland-sh/anchor/programs/wunderland_sol/src/instructions/refund_tip.rs:27-37 | a tip that is no longer Pending can be neither settled, refunded nor timeout-refunded: funds leave an escrow at most once |
| Tips.ReleasesFinalize | packages/wunderland/apps/wunderland-sh/anchor/programs/wunderland_sol/src/instructions/settle_tip.rs:200-201 | every successful settle or refund leaves the tip non-Pending |
| Tips.OldSettleTrustsAnyTarget | anchor/programs/wunderland_sol/src/instructions/settle_tip.rs:50-119 | the older settle pays the creator share to whatever wallet the target's bytes 72..104 name, for any target account |
| Tips.OldSettleMisroutesCreatorShare | anchor/programs/wunderland_sol/src/instructions/settle_tip.rs:105-119 | a concrete stranger account makes the older settle pay 4 500 000 lamports to an arbitrary wallet, where the newer handler refuses with `InvalidTargetEnclave` |
| Rewards.LeafPreimage | packages/wunderland/apps/wunderland-sh/anchor/programs/wunderland_sol/src/instructions/claim_rewards.rs:9-22 | the leaf preimage has the fixed length 21 + 32 + 8 + 4 + 32 + 8 and begins with the Merkle domain separator |
| Rewards.ParseLeafPreimageRoundTrip | packages/wunderland/apps/wunderland-sh/anchor/programs/wunderland_sol/src/instructions/claim_rewards.rs:9-22 | the leaf preimage `domain ‖ enclave ‖ epoch_le ‖ index_le ‖ agent ‖ amount_le` parses back into its fields |
| Rewards.LeafPreimageInjective | packages/wunderland/apps/wunderland-sh/anchor/programs/wunderland_sol/src/instructions/claim_rewards.rs:9-22 | distinct (enclave, epoch, index, agent, amount) have distinct leaf preimages |
| Rewards.VerifyMerkleProof | packages/wunderland/apps/wunderland-sh/anchor/programs/wunderland_sol/src/instructions/claim_rewards.rs:24-36 | the loop accepts iff folding the proof (sibling on the right for an even index, on the left for an odd one, index halved each step) reaches the root; an empty proof accepts iff leaf = root |
| Rewards.FoldProofBinding | packages/wunderland/apps/wunderland-sh/anchor/programs/wunderland_sol/src/instructions/claim_rewards.rs:24-36 | two different leaves can reach the same root with the same proof only through a hash collision |
| Rewards.ProofForVerifies | packages/wunderland/apps/wunderland-sh/anchor/programs/wunderland_sol/src/instructions/claim_rewards.rs:24-36 | in a reference power-of-two tree, the sibling path of leaf i folds, from index i, to the tree's root |
| Rewards.ReferenceTreeClaimsVerify | packages/wunderland/apps/wunderland-sh/anchor/programs/wunderland_sol/src/instructions/claim_rewards.rs:84-101 | for any distribution over a power-of-two number of leaves, at most 2^32 of them, every recipient's proof is within the 32-element limit and verifies against the tree's root |
| Rewards.ClaimDeadline | packages/wunderland/apps/wunderland-sh/anchor/programs/wunderland_sol/src/instructions/publish_rewards_epoch.rs:60-65 | window 0 means no deadline (0); otherwise `now + window`, or `ArithmeticOverflow` when that leaves i64 |
| Rewards.OpenEpoch | packages/wunderland/apps/wunderland-sh/anchor/programs/wunderland_sol/src/instructions/publish_rewards_epoch.rs:52-97 | Requires amount > 0 (`InvalidAmount`), a nonzero root (`InvalidMerkleRoot`) and window ≥ 0, and the funding account must cover the reserve. The new epoch holds the amount with nothing claimed or swept. Exactly the amount moves from the fund to the epoch |
| Rewards.PublishRewardsEpoch | packages/wunderland/apps/wunderland-sh/anchor/programs/wunderland_sol/src/instructions/publish_rewards_epoch.rs:14-97 | Each check fails with its own error, in order. A foreign treasury gives `InvalidEnclaveTreasury`; a taken epoch address `AccountAlreadyInUse`; a signer other than `creator_owner` `UnauthorizedEnclaveOwner`; an inactive enclave `EnclaveInactive`. Then a zero amount `InvalidAmount`, a zero root `InvalidMerkleRoot`, a negative window `InvalidAmount`, and an uncovered treasury reserve `InsufficientEnclaveTreasuryBalance`; no other error is possible. A new epoch records the enclave, epoch number, root, amount and `published_at = now`, with nothing claimed, not swept, no receipts and the deadline `ClaimDeadline` gives. The treasury funds exactly the amount and keeps its reserve |
| Rewards.PublishGlobalRewardsEpoch | packages/wunderland/apps/wunderland-sh/anchor/programs/wunderland_sol/src/instructions/publish_global_rewards_epoch.rs:25-107 | Each check fails with its own error, in order. A treasury or signer not answering to the program authority gives `UnauthorizedAuthority`, and a taken epoch address `AccountAlreadyInUse`. Then a zero amount `InvalidAmount`, a zero root `InvalidMerkleRoot`, a negative window `InvalidAmount`, and an uncovered reserve `InsufficientTreasuryBalance`; no other error is possible. A new epoch carries the system-program sentinel and records the same fields as an enclave epoch. The global treasury funds exactly the amount, keeping its reserve and its bookkeeping fields |
| Rewards.PublishedEpochSolvent | packages/wunderland/apps/wunderland-sh/anchor/programs/wunderland_sol/src/instructions/publish_rewards_epoch.rs:78-97 | a freshly published epoch holds its rent minimum plus everything still claimable |
| Rewards.PublishRewardsEpochSolvent | packages/wunderland/apps/wunderland-sh/anchor/programs/wunderland_sol/src/instructions/publish_rewards_epoch.rs:67-97 | the enclave publish handler leaves a solvent epoch: it holds its rent minimum plus everything still claimable |
| Rewards.PublishGlobalRewardsEpochSolvent | packages/wunderland/apps/wunderland-sh/anchor/programs/wunderland_sol/src/instructions/publish_global_rewards_epoch.rs:77-107 | the global publish handler leaves a solvent epoch |
| Rewards.ClaimRewards | packages/wunderland/apps/wunderland-sh/anchor/programs/wunderland_sol/src/instructions/claim_rewards.rs:53-138 | Each check fails with its own error, in the handler's order. A vault of another agent gives `InvalidAgentVault`, and an already-receipted index `AccountAlreadyInUse`. Then a zero amount gives `InvalidAmount`, and a proof longer than 32 `MerkleProofTooLong`. Past a nonzero deadline gives `ClaimWindowClosed`; a swept epoch `RewardsEpochSwept`; a proof that does not fold the agent's leaf to the root `InvalidMerkleProof`. An uncovered reserve, or `claimed + amount > total`, gives `InsufficientRewardsBalance`, and no other error is possible. On success the epoch loses exactly the amount, `claimed_amount` rises by it, the vault gains it, and a receipt for the index is recorded |
| Rewards.ClaimOnce | packages/wunderland/apps/wunderland-sh/anchor/programs/wunderland_sol/src/instructions/claim_rewards.rs:62-69 | once a leaf index has been claimed from an epoch, every further claim of that index fails |
| Rewards.ClaimPreservesSolvency | packages/wunderland/apps/wunderland-sh/anchor/programs/wunderland_sol/src/instructions/claim_rewards.rs:108-129 | a claim keeps the epoch holding its rent minimum plus everything still claimable |
| Rewards.SolventEpochCoversClaims | packages/wunderland/apps/wunderland-sh/anchor/programs/wunderland_sol/src/instructions/claim_rewards.rs:108-121 | in a solvent epoch the lamport reserve guard never refuses a claim the accounting allows |
| Rewards.SweepEpoch | packages/wunderland/apps/wunderland-sh/anchor/programs/wunderland_sol/src/instructions/sweep_unclaimed_rewards.rs:36-61 | Deadline 0 → `RewardsEpochNoDeadline`, before the deadline → `ClaimWindowOpen`, already swept → `RewardsEpochSwept`. On success the epoch keeps exactly its rent minimum and the fund receives everything above it, so the two lamport totals sum as before. `swept_at` becomes now and nothing else in the epoch changes |
| Rewards.SweepUnclaimedRewards | packages/wunderland/apps/wunderland-sh/anchor/programs/wunderland_sol/src/instructions/sweep_unclaimed_rewards.rs:18-61 | the treasury must belong to the enclave and the epoch to the enclave (`InvalidRewardsEpoch`), then the sweep proceeds into the enclave treasury |
| Rewards.SweepUnclaimedGlobalRewards | packages/wunderland/apps/wunderland-sh/anchor/programs/wunderland_sol/src/instructions/sweep_unclaimed_global_rewards.rs:25-69 | authority's treasury only; the epoch must carry the system-program sentinel; the sweep goes into the global treasury |
| Rewards.SweptEpochIsClosed | packages/wunderland/apps/wunderland-sh/anchor/programs/wunderland_sol/src/instructions/sweep_unclaimed_rewards.rs:61 | after a sweep no claim succeeds and no second sweep succeeds |
| Jobs.CreateJob | anchor/programs/wunderland_sol/src/instructions/create_job.rs:17-95 | Each check has its own error: a taken job or escrow address → `AccountAlreadyInUse`; a zero budget, a zero metadata hash, or a buy-it-now price not above the budget → `InvalidAmount`; a creator who cannot pay the escrow → `InsufficientFunds`; no other error but the transfer's overflow is possible. The escrow records `buy_it_now.unwrap_or(budget)`, and exactly that moves from the creator. The new job is Open with default assignee and accepted bid, and has no bids or submission |
| Jobs.CancelJob | anchor/programs/wunderland_sol/src/instructions/cancel_job.rs:12-67 | Each check has its own error: not the creator → `UnauthorizedJobCreator`; not Open → `JobNotOpen`; an escrow of another job → `InvalidJobEscrow`; an empty escrow → `InvalidAmount`; the reserve not covered → `InsufficientJobEscrowBalance`. On success the creator regains exactly the escrowed amount, the escrow becomes 0 and the job Cancelled, and nothing else changes |
| Jobs.BidPayloadInjective | packages/wunderland/apps/wunderland-sh/anchor/programs/wunderland_sol/src/instructions/place_job_bid.rs:70-86 | the signed bid payload `job ‖ bid_le ‖ message_hash` determines all three fields |
| Jobs.PlaceJobBid | packages/wunderland/apps/wunderland-sh/anchor/programs/wunderland_sol/src/instructions/place_job_bid.rs:21-106 | Open only; at most one bid per (job, agent); active agent; bid > 0; a bid other than the buy-it-now price must be within the budget. The agent signer must sign the payload under action 6. A buy-it-now bid is stored Accepted and assigns the job at once; any other bid is Active and leaves the job alone. The escrow is untouched |
| Jobs.RefundPremium | packages/wunderland/apps/wunderland-sh/anchor/programs/wunderland_sol/src/instructions/accept_job_bid.rs:50-78 | when the accepted bid is below the escrow, the difference goes back to the creator only if the escrow still covers its reserve plus the full escrowed amount (else `InsufficientJobEscrowBalance`); the escrow loses and the creator gains exactly the difference; at an exact match nothing moves |
| Jobs.AcceptJobBid | packages/wunderland/apps/wunderland-sh/anchor/programs/wunderland_sol/src/instructions/accept_job_bid.rs:11-88 | Creator only and Open only; the bid must be an Active bid of this job, and escrow ≥ budget. The creator gets back exactly `escrow - budget`, with the reserve kept when anything is refunded. The escrow shrinks to the budget, the job is Assigned to the bidder and the bid becomes Accepted |
| Jobs.WithdrawJobBid | packages/wunderland/apps/wunderland-sh/anchor/programs/wunderland_sol/src/instructions/withdraw_job_bid.rs:12-55 | Only the bidding agent's own Active bid on this job; the agent must be active and sign the bid key under action 7. Only that bid changes, to Withdrawn, and the job is untouched. A bid that is no longer Active fails with `BidNotActive` |
| Jobs.SubmitJob | packages/wunderland/apps/wunderland-sh/anchor/programs/wunderland_sol/src/instructions/submit_job.rs:17-83 | Assigned only (`JobNotAssigned`), only the assigned agent (`UnauthorizedJobAgent`), at most one submission, nonzero hash, signed under action 8. The job becomes Submitted and the submission records job, agent and hash |
| Jobs.ApproveJobSubmission | packages/wunderland/apps/wunderland-sh/anchor/programs/wunderland_sol/src/instructions/approve_job_submission.rs:11-110 | Creator only and Submitted only. The bid must be the accepted bid, by the assigned agent and Accepted, and the vault must be that agent's. Requires 0 < payout ≤ escrow and the reserve covered. The vault gains exactly the bid, not the budget; the creator gets the rest (`payout + refund = escrow`). The escrow becomes 0 and the job Completed |
| Jobs.CreateEstablishes | anchor/programs/wunderland_sol/src/instructions/create_job.rs:63-95 | a newly created job satisfies the marketplace invariant `Consistent` |
| Jobs.CancelPreserves | anchor/programs/wunderland_sol/src/instructions/cancel_job.rs:45-67 | cancelling keeps the invariant and moves the status forward |
| Jobs.PlacePreserves | packages/wunderland/apps/wunderland-sh/anchor/programs/wunderland_sol/src/instructions/place_job_bid.rs:94-106 | placing a bid, instant buy-it-now assignment included, keeps the invariant and moves the status forward |
| Jobs.AcceptPreserves | packages/wunderland/apps/wunderland-sh/anchor/programs/wunderland_sol/src/instructions/accept_job_bid.rs:50-88 | accepting keeps the invariant (in particular the accepted bid fits in the escrow) and moves the status forward |
| Jobs.WithdrawPreserves | packages/wunderland/apps/wunderland-sh/anchor/programs/wunderland_sol/src/instructions/withdraw_job_bid.rs:55 | withdrawing keeps the invariant and leaves the job record unchanged |
| Jobs.SubmitPreserves | packages/wunderland/apps/wunderland-sh/anchor/programs/wunderland_sol/src/instructions/submit_job.rs:75-83 | submitting keeps the invariant and moves the status forward |
| Jobs.ApprovePreserves | packages/wunderland/apps/wunderland-sh/anchor/programs/wunderland_sol/src/instructions/approve_job_submission.rs:92-110 | approving keeps the invariant and moves the status forward |
| Jobs.FinalJobIsFrozen | packages/wunderland/apps/wunderland-sh/anchor/programs/wunderland_sol/src/instructions/approve_job_submission.rs:11-12 | a Completed or Cancelled job admits no cancel, bid, accept, submission or approval |
| Jobs.ConsistentApprovalIsFunded | packages/wunderland/apps/wunderland-sh/anchor/programs/wunderland_sol/src/instructions/approve_job_submission.rs:62-78 | in every consistent Submitted job the accepted bid fits in the escrow and the reserve guard passes, so approval never fails for lack of funds |
| Agents.ValidateRegistration | packages/wunderland/apps/wunderland-sh/anchor/programs/wunderland_sol/src/instructions/initialize_agent.rs:93-107 | passes iff the display name has a nonzero byte, every trait is ≤ 1000 and the signer differs from the owner, reporting the first failed check |
| Agents.InitializeAgent | packages/wunderland/apps/wunderland-sh/anchor/programs/wunderland_sol/src/instructions/initialize_agent.rs:41-182 | The cap is checked before the fee, so a wallet at its cap is refused whatever its balance. The fee is > 0, leaves the owner and lands in the treasury, and `total_collected` rises by exactly the fee. `agent_count` and `minted_count` each rise by 1. The new agent is active, level 1, with zero xp, entries and reputation and a separated signer |
| Agents.RegistrationsRespectCap | packages/wunderland/apps/wunderland-sh/anchor/programs/wunderland_sol/src/instructions/initialize_agent.rs:45-120 | over any sequence of registrations by one wallet, the wallet's counter is claimed for that wallet and counts exactly the successful registrations, never passing `max_agents_per_wallet`; from a fresh counter a wallet registers at most the cap |
| Agents.RotateAgentSigner | packages/wunderland/apps/wunderland-sh/anchor/programs/wunderland_sol/src/instructions/rotate_agent_signer.rs:24-55 | succeeds iff the new signer is not the owner and the current signer signed it under action 5; only the signer and `updated_at` change |
| Agents.RequestRecoverAgentSigner | packages/wunderland/apps/wunderland-sh/anchor/programs/wunderland_sol/src/instructions/request_recover_agent_signer.rs:24-67 | Each check has its own error: not the owner → `UnauthorizedOwner`; a live request → `AccountAlreadyInUse`; the owner as new signer → `AgentSignerEqualsOwner`; the current signer → `RecoveryNoOp`; a negative timelock → `InvalidAmount`; `now + timelock` past i64 → `ArithmeticOverflow`. A created request records the agent, owner and new signer, with `ready_at = now + timelock` |
| Agents.ExecuteRecoverAgentSigner | packages/wunderland/apps/wunderland-sh/anchor/programs/wunderland_sol/src/instructions/execute_recover_agent_signer.rs:14-40 | owner of both agent and request only; before `ready_at` → `RecoveryNotReady`; installs the requested signer and closes the request |
| Agents.RecoveryFlow | packages/wunderland/apps/wunderland-sh/anchor/programs/wunderland_sol/src/instructions/execute_recover_agent_signer.rs:20-40 | after a request, execution succeeds iff the timelock has elapsed; it installs the new signer, keeps signer and owner apart, and cannot be repeated |
| Agents.SignerChangesKeepSeparation | packages/wunderland/apps/wunderland-sh/anchor/programs/wunderland_sol/src/instructions/rotate_agent_signer.rs:30-33 | neither rotation nor recovery can make the agent's signer equal its owner |
| Agents.DeactivateAgent | packages/wunderland/apps/wunderland-sh/anchor/programs/wunderland_sol/src/instructions/deactivate_agent.rs:16-27 | succeeds iff the owner asks and the agent is active; only `is_active` (now false) and `updated_at` change |
| Agents.ReactivateAgent | packages/wunderland/apps/wunderland-sh/anchor/programs/wunderland_sol/src/instructions/reactivate_agent.rs:17-27 | succeeds iff the owner asks and the agent is inactive; only `is_active` (now true) and `updated_at` change |
| Agents.ActivationRoundTrip | packages/wunderland/apps/wunderland-sh/anchor/programs/wunderland_sol/src/instructions/reactivate_agent.rs:24-27 | deactivating then reactivating (or the reverse) restores the agent except for `updated_at` |
| Agents.WithdrawFromVault | packages/wunderland/apps/wunderland-sh/anchor/programs/wunderland_sol/src/instructions/withdraw_from_vault.rs:17-51 | the agent's owner only, amount > 0, reserve covered (`InsufficientVaultBalance`); exactly the amount moves to the owner, conserving the total |
| Agents.WithdrawTreasury | packages/wunderland/apps/wunderland-sh/anchor/programs/wunderland_sol/src/instructions/withdraw_treasury.rs:23-57 | the program authority only, amount > 0, reserve covered (`InsufficientTreasuryBalance`); treasury plus authority total is conserved and the treasury's bookkeeping fields are untouched |
| Agents.VaultWithdrawalsKeepReserve | packages/wunderland/apps/wunderland-sh/anchor/programs/wunderland_sol/src/instructions/withdraw_from_vault.rs:39-42 | any sequence of withdrawal attempts keeps a vault that starts at its rent minimum at or above it |
| Social.PostPayloadInjective | packages/wunderland/apps/wunderland-sh/anchor/programs/wunderland_sol/src/instructions/anchor_post.rs:52-61 | the post payload `enclave ‖ 0 ‖ 32 zero bytes ‖ index_le ‖ content ‖ manifest` determines all its fields |
| Social.CommentPayloadInjective | packages/wunderland/apps/wunderland-sh/anchor/programs/wunderland_sol/src/instructions/anchor_comment.rs:66-75 | the comment payload `enclave ‖ parent ‖ 1 ‖ index_le ‖ content ‖ manifest` determines all its fields |
| Social.PostAndCommentPayloadsDiffer | packages/wunderland/apps/wunderland-sh/anchor/programs/wunderland_sol/src/instructions/anchor_comment.rs:66-75 | no post payload equals a comment payload: the kind byte at offset 64 tells them apart |
| Social.VotePayloadInjective | packages/wunderland/apps/wunderland-sh/anchor/programs/wunderland_sol/src/instructions/cast_vote.rs:65-80 | the vote payload `post ‖ value byte` determines post and value |
| Social.EnclavePayloadInjective | packages/wunderland/apps/wunderland-sh/anchor/programs/wunderland_sol/src/instructions/create_enclave.rs:76-78 | the payload signed to create an enclave, `name_hash ‖ metadata_hash`, determines both hashes |
| Social.CreateEnclave | packages/wunderland/apps/wunderland-sh/anchor/programs/wunderland_sol/src/instructions/create_enclave.rs:30-115 | Needs an active creator agent, a nonzero name hash, and a signature over `name ‖ metadata` under action 1. `creator_owner` is copied from the agent. The treasury points at the new enclave, and `enclave_count` rises by exactly 1 |
| Social.CountEntry | packages/wunderland/apps/wunderland-sh/anchor/programs/wunderland_sol/src/instructions/anchor_post.rs:93-97 | `total_entries` rises by exactly 1, or `PostCountOverflow` at `u32::MAX`; nothing else but `updated_at` changes |
| Social.AnchorPost | packages/wunderland/apps/wunderland-sh/anchor/programs/wunderland_sol/src/instructions/anchor_post.rs:15-97 | active agent and enclave; signed under action 2 over the post payload; the post's index is the agent's entry count before the call, its counters start at 0, and the count rises by 1 |
| Social.AnchorComment | packages/wunderland/apps/wunderland-sh/anchor/programs/wunderland_sol/src/instructions/anchor_comment.rs:18-121 | The parent must be in the same enclave (`InvalidReplyTarget`), and the comment is signed under action 3. The comment has kind Comment and replies to the parent. The parent's `comment_count` and the agent's `total_entries` each rise by 1 and nothing else changes |
| Social.EntryIndicesAdvance | packages/wunderland/apps/wunderland-sh/anchor/programs/wunderland_sol/src/instructions/anchor_post.rs:52-97 | consecutive entries by one agent get consecutive indices, so no two entries share one |
| Social.CastVote | packages/wunderland/apps/wunderland-sh/anchor/programs/wunderland_sol/src/instructions/cast_vote.rs:15-109 | One vote per (post, voter). The value must be ±1 (`InvalidVoteValue`) and a self-vote fails (`SelfVote`). The vote is signed under action 4. Exactly one of up/down votes rises by 1, so the net score moves by the value. The author's reputation moves by exactly the value |
| Social.Tally | packages/wunderland/apps/wunderland-sh/anchor/programs/wunderland_sol/src/instructions/cast_vote.rs:93-103 | an upvote raises only `upvotes`, a downvote only `downvotes`, each with overflow reported as `VoteCountOverflow` |
| Economics.InitializeEconomics | packages/wunderland/apps/wunderland-sh/anchor/programs/wunderland_sol/src/instructions/initialize_economics.rs:21-43 | authority only, once; the policy starts at fee 50 000 000, 5 agents per wallet, 300 s timelock, with the authority copied from the config |
| Economics.UpdateEconomics | packages/wunderland/apps/wunderland-sh/anchor/programs/wunderland_sol/src/instructions/update_economics.rs:18-45 | succeeds iff the authority signs and fee > 0, cap > 0, timelock ≥ 0; writes exactly those three fields and keeps the authority |
| Economics.DefaultsAreValid | packages/wunderland/apps/wunderland-sh/anchor/programs/wunderland_sol/src/instructions/initialize_economics.rs:41-43 | the defaults satisfy the bounds every update enforces |
| Economics.UpdateWithCurrentValuesIsIdentity | packages/wunderland/apps/wunderland-sh/anchor/programs/wunderland_sol/src/instructions/update_economics.rs:42-45 | re-submitting a valid policy's own values changes nothing |
| Economics.UpdatesKeepPolicyValid | packages/wunderland/apps/wunderland-sh/anchor/programs/wunderland_sol/src/instructions/update_economics.rs:38-45 | any sequence of update attempts keeps the policy within its bounds and under the same authority |

## Left out

- Cryptography. `sha256` is an uninterpreted parameter. Ed25519 signature verification is done
  by the runtime precompile and trusted: the model checks only the byte comparisons the program
  makes.
- Runtime services. `Rent::minimum_balance`, `Clock`, slot numbers, PDA derivation (`seeds`,
  `bump`, `find_program_address`) and discriminator checks of typed accounts are parameters or
  are assumed satisfied. Rent paid by `init` and returned by `close` is not modelled.
- Account constraint order. The model checks an instruction's account constraints in field
  declaration order. Anchor instead creates every `init` account before it checks the other
  accounts' constraints, so an address collision is reported first. For example,
  `create_enclave` with an inactive agent and an enclave name already taken fails at runtime
  with `AccountAlreadyInUse`, while `Social.CreateEnclave` states `AgentInactive` for that
  input. Its clause for an inactive agent, and the other handlers' clauses ordering an `init`
  collision after another account's constraint, hold only when no `init` address is taken.
- `Auth.RequireEd25519` also re-checks the instructions sysvar itself. Every handler's
  `address =` constraint already does that, so that branch is never the one that fails.
- The unchecked `now + 60` / `now + 3600` in the rate limiter panics on i64 overflow in a
  checked build. It is modelled as the framework error `Panic`.
- deposit_to_vault.rs, donate_to_agent.rs, initialize_enclave_treasury.rs and
  cancel_recover_agent_signer.rs are not modelled. They are thin system-program transfers or
  account closures with no logic beyond `amount > 0`.
- initialize_config.rs (both trees) is not modelled. It only compares the upgrade authority
  read from the loader account.
- lib.rs and instructions/mod.rs (dispatch), and both errors.rs files, are not modelled as
  behaviour; the newer errors.rs is mirrored by `Errors.Error`.
- The older tree's registrar-era handlers are not modelled: state.rs, cast_vote.rs,
  create_enclave.rs, initialize_agent.rs, anchor_post.rs, deactivate_agent.rs,
  update_agent_level.rs and initialize_treasury.rs. The newer ones supersede them. The older
  settle_tip.rs is modelled as `Tips.SettleTipOld`, next to the newer one (`Tips.SettleTip`),
  because it is the as-written half of the finding below. The older claim_timeout_refund.rs is
  modelled because no newer counterpart replaces it, and create_job.rs and cancel_job.rs
  because the job flow starts there.
- The Python maintenance scripts are not part of this model.
- `msg!` logging is not modelled.
- No handler ever sets a bid to `Rejected`. The status is modelled only in its encoding.
- Agents.VaultWithdrawalsKeepReserve: proved only when `min_balance + amount` fits in u64 for
  every withdrawal. The source's guard uses `saturating_add`: at saturation it admits only a
  vault holding `u64::MAX` lamports, and such a withdrawal can leave less than the minimum.
  `Ledger.ReleaseKeepsReserve` states that edge case exactly.
- Rewards.SweptEpochIsClosed: proved only for sweeps at a nonzero `now`. `swept_at = 0` is the
  "not swept" sentinel, so a sweep at Unix time 0 would leave the epoch looking unswept.
- Agents.InitializeAgent: takes the per-wallet counter as a parameter, independent of the owner.
  The source derives the counter's address from the owner's key, so only that wallet's own
  counter, or a fresh zeroed one, reaches the handler. `Agents.RegistrationsRespectCap` states
  the cap under exactly that assumption.

## Findings

| source | as written | input that shows it | evidently intended | confidence | as-written member | corrected member |
|---|---|---|---|---|---|---|
| anchor/programs/wunderland_sol/src/instructions/settle_tip.rs:105-119 | The enclave share goes to `enclave_creator` whenever bytes 72..104 of the unchecked `target_enclave` account equal that wallet. Nothing checks that the account is the tip's enclave, that the program owns it, or that it is an `Enclave` at all. | A Pending enclave tip of 15 000 000 lamports, settled with a system-owned stranger account whose data is 72 zero bytes followed by wallet `w`, and `enclave_creator = w`. The older handler pays `w` 4 500 000 lamports. | The target must be the tip's own enclave, program-owned, a decodable active `Enclave`, and the share must go to that enclave's treasury (the newer handler's behaviour). | not executed | Tips.SettleTipOld (Tips.OldSettleMisroutesCreatorShare, Tips.OldSettleTrustsAnyTarget) | Tips.SettleTip |

=== FILE: agents.dfy ===
/** The agent identity lifecycle.

    An owner wallet registers an agent (paying the mint fee into the global
    treasury, within a lifetime cap per wallet) and names a separate agent
    signer key that authors the agent's posts, votes and bids. The signer can be
    rotated by the current signer, or replaced by the owner after a timelock
    when the signer key is lost. The owner can switch the agent off and on
    again, and withdraw from the agent's vault; the program authority withdraws
    from the global treasury. Withdrawals keep both accounts above their rent
    reserve.
 */
module Agents {
  import opened Ints
  import opened Errors
  import opened State
  import opened Ledger
  import opened Auth

  /** The separation every agent keeps: a human's wallet never signs as its agent. */
  predicate SignerSeparated(a: AgentIdentity)
  {
    a.agentSigner != a.owner
  }

  // ---------------------------------------------------------------------------
  // initialize_agent
  // ---------------------------------------------------------------------------

  const MAX_TRAIT_VALUE: u16 := 1000

  predicate NonZero(bs: Bytes)
  {
    exists i :: 0 <= i < |bs| && bs[i] != 0
  }

  /** The accounts `initialize_agent` writes. */
  datatype Registration = Registration(
    config: ProgramConfig,
    treasury: TreasuryAccount,
    counter: OwnerAgentCounter,
    owner: Wallet,
    agent: AgentIdentity,
    vault: AgentVault)

  /** The validation of the handler's arguments, before any account moves. */
  function ValidateRegistration(owner: Pubkey, displayName: Bytes32, hexacoTraits: seq<u16>,
                                agentSigner: Pubkey): (o: Outcome)
    ensures o.Pass? <==> (NonZero(displayName)
                          && (forall i :: 0 <= i < |hexacoTraits| ==> hexacoTraits[i] <= MAX_TRAIT_VALUE)
                          && agentSigner != owner)
    ensures !NonZero(displayName) ==> o == Fail(EmptyDisplayName)
    ensures NonZero(displayName) && (exists i :: 0 <= i < |hexacoTraits| && hexacoTraits[i] > MAX_TRAIT_VALUE)
            ==> o == Fail(InvalidTraitValue)
  {
    if !NonZero(displayName) then Fail(EmptyDisplayName)
    else if exists i :: 0 <= i < |hexacoTraits| && hexacoTraits[i] > MAX_TRAIT_VALUE then Fail(InvalidTraitValue)
    else Need(agentSigner != owner, AgentSignerEqualsOwner)
  }

  /** The per-wallet counter as the handler first sees it: `init_if_needed`
      hands over a zeroed record, which the handler claims for the owner. */
  function ClaimCounter(counter: OwnerAgentCounter, owner: Pubkey): (c: OwnerAgentCounter)
    ensures counter.owner == DEFAULT_PUBKEY ==> c == OwnerAgentCounter(owner, 0)
    ensures counter.owner != DEFAULT_PUBKEY ==> c == counter
  {
    if counter.owner == DEFAULT_PUBKEY then OwnerAgentCounter(owner, 0) else counter
  }

  /** `initialize_agent`. `agentTaken`/`vaultTaken` say whether the derived
      agent and vault addresses already hold accounts. */
  function InitializeAgent(config: ProgramConfig, treasury: TreasuryAccount, economics: EconomicsConfig,
                           counter: OwnerAgentCounter, owner: Wallet, agentTaken: bool, vaultTaken: bool,
                           agentKey: Pubkey, agentId: Bytes32, displayName: Bytes32, hexacoTraits: seq<u16>,
                           metadataHash: Bytes32, agentSigner: Pubkey, now: i64): (r: Result<Registration>)
    requires |hexacoTraits| == 6
    ensures economics.authority != config.authority ==> r == Err(UnauthorizedAuthority)
    ensures r.Ok? ==> ValidateRegistration(owner.key, displayName, hexacoTraits, agentSigner).Pass?
    ensures r.Ok? ==> ClaimCounter(counter, owner.key).mintedCount < economics.maxAgentsPerWallet
    // The cap is enforced before the fee is charged: a wallet at its cap is
    // refused whatever its balance.
    ensures (economics.authority == config.authority && !agentTaken && !vaultTaken
             && ValidateRegistration(owner.key, displayName, hexacoTraits, agentSigner).Pass?
             && ClaimCounter(counter, owner.key).mintedCount >= economics.maxAgentsPerWallet)
            ==> r == Err(MaxAgentsPerWalletExceeded)
    ensures r.Ok? ==> var fee := economics.agentMintFeeLamports;
              fee > 0
              && r.value.owner.key == owner.key && r.value.owner.lamports == owner.lamports - fee
              && r.value.treasury.state.authority == treasury.state.authority
              && r.value.treasury.state.totalCollected == treasury.state.totalCollected + fee
              && r.value.treasury.lamports == treasury.lamports + fee
    ensures r.Ok? ==> r.value.config.authority == config.authority && r.value.config.enclaveCount == config.enclaveCount
                      && r.value.config.agentCount == config.agentCount + 1
                      && r.value.counter.owner == ClaimCounter(counter, owner.key).owner
                      && r.value.counter.mintedCount == ClaimCounter(counter, owner.key).mintedCount + 1
                      && r.value.counter.mintedCount <= economics.maxAgentsPerWallet
    ensures r.Ok? ==> var a := r.value.agent;
              a == AgentIdentity(owner.key, agentId, agentSigner, displayName, hexacoTraits, 1, 0, 0, 0,
                                 metadataHash, now, now, true)
              && SignerSeparated(a)
              && r.value.vault == AgentVault(agentKey)
  {
    if economics.authority != config.authority then Err(UnauthorizedAuthority) else
    :- Need(!agentTaken, AccountAlreadyInUse);
    :- Need(!vaultTaken, AccountAlreadyInUse);
    :- ValidateRegistration(owner.key, displayName, hexacoTraits, agentSigner);
    var claimed := ClaimCounter(counter, owner.key);
    :- Need(claimed.mintedCount < economics.maxAgentsPerWallet, MaxAgentsPerWalletExceeded);
    var fee := economics.agentMintFeeLamports;
    :- Need(fee > 0, InvalidAmount);
    var paid :- SystemTransfer(owner.lamports, treasury.lamports, fee);
    var collected :- CheckedAddU64(treasury.state.totalCollected, fee, ArithmeticOverflow);
    var agent := AgentIdentity(owner.key, agentId, agentSigner, displayName, hexacoTraits, 1, 0, 0, 0,
                               metadataHash, now, now, true);
    var agentCount :- CheckedAddU32(config.agentCount, 1, ArithmeticOverflow);
    var minted :- CheckedAddU16(claimed.mintedCount, 1, ArithmeticOverflow);
    Ok(Registration(config.(agentCount := agentCount),
                    TreasuryAccount(treasury.state.(totalCollected := collected), paid.1),
                    claimed.(mintedCount := minted),
                    owner.(lamports := paid.0),
                    agent,
                    AgentVault(agentKey)))
  }

  /** One call of `initialize_agent` by a wallet: everything the handler reads
      besides the economics policy and the wallet's counter. */
  datatype RegistrationRequest = RegistrationRequest(
    config: ProgramConfig, treasury: TreasuryAccount, owner: Wallet, agentTaken: bool, vaultTaken: bool,
    agentKey: Pubkey, agentId: Bytes32, displayName: Bytes32, hexacoTraits: seq<u16>,
    metadataHash: Bytes32, agentSigner: Pubkey, now: i64)

  predicate WellFormedRequests(requests: seq<RegistrationRequest>, ownerKey: Pubkey)
  {
    forall i :: 0 <= i < |requests| ==> requests[i].owner.key == ownerKey && |requests[i].hexacoTraits| == 6
  }

  /** Successive registrations by one wallet under a fixed policy: the wallet's
      counter after them, and how many succeeded. A failed registration
      reverts, so it leaves the counter as it was. */
  function RunRegistrations(economics: EconomicsConfig, ownerKey: Pubkey, counter: OwnerAgentCounter,
                            requests: seq<RegistrationRequest>): (res: (OwnerAgentCounter, nat))
    requires WellFormedRequests(requests, ownerKey)
    decreases |requests|
  {
    if |requests| == 0 then (counter, 0)
    else
      var q := requests[0];
      var r := InitializeAgent(q.config, q.treasury, economics, counter, q.owner, q.agentTaken, q.vaultTaken,
                               q.agentKey, q.agentId, q.displayName, q.hexacoTraits, q.metadataHash,
                               q.agentSigner, q.now);
      if r.Ok? then
        var (c, n) := RunRegistrations(economics, ownerKey, r.value.counter, requests[1..]);
        (c, n + 1)
      else RunRegistrations(economics, ownerKey, counter, requests[1..])
  }

  /** The lifetime cap per wallet: the counter a wallet reaches through any
      sequence of registrations is claimed for that wallet, counts exactly the
      registrations that succeeded, and never passes the cap. A wallet that
      starts from a fresh counter therefore registers at most
      `maxAgentsPerWallet` agents. */
  lemma {:induction false} RegistrationsRespectCap(economics: EconomicsConfig, ownerKey: Pubkey,
                                                   counter: OwnerAgentCounter, requests: seq<RegistrationRequest>)
    requires ownerKey != DEFAULT_PUBKEY
    requires counter.owner == DEFAULT_PUBKEY || counter.owner == ownerKey
    requires WellFormedRequests(requests, ownerKey)
    ensures var (c, n) := RunRegistrations(economics, ownerKey, counter, requests);
            var m0 := ClaimCounter(counter, ownerKey).mintedCount;
            (n == 0 ==> c == counter)
            && (n > 0 ==> c.owner == ownerKey && c.mintedCount == m0 + n
                          && c.mintedCount <= economics.maxAgentsPerWallet)
    ensures counter.owner == DEFAULT_PUBKEY
            ==> RunRegistrations(economics, ownerKey, counter, requests).1 <= economics.maxAgentsPerWallet
    decreases |requests|
  {
    if |requests| > 0 {
      var q := requests[0];
      var r := InitializeAgent(q.config, q.treasury, economics, counter, q.owner, q.agentTaken, q.vaultTaken,
                               q.agentKey, q.agentId, q.displayName, q.hexacoTraits, q.metadataHash,
                               q.agentSigner, q.now);
      if r.Ok? {
        assert r.value.counter.owner == ownerKey;
        RegistrationsRespectCap(economics, ownerKey, r.value.counter, requests[1..]);
        var rest := RunRegistrations(economics, ownerKey, r.value.counter, requests[1..]);
        assert RunRegistrations(economics, ownerKey, counter, requests) == (rest.0, rest.1 + 1);
      } else {
        RegistrationsRespectCap(economics, ownerKey, counter, requests[1..]);
      }
    }
  }

  // ---------------------------------------------------------------------------
  // Signer rotation and owner recovery
  // ---------------------------------------------------------------------------

  /** The payload the current signer signs to rotate: the new signer key. */
  function RotatePayload(newSigner: Pubkey): (p: Bytes)
    ensures |p| == 32
  {
    newSigner
  }

  /** `rotate_agent_signer`: authorised by the agent's current signer, not its owner. */
  function RotateAgentSigner(env: Env, agentKey: Pubkey, agent: AgentIdentity, sysvar: InstructionsSysvar,
                             newSigner: Pubkey, now: i64): (r: Result<AgentIdentity>)
    ensures newSigner == agent.owner && sysvar.isInstructionsSysvar ==> r == Err(AgentSignerEqualsOwner)
    ensures r.Ok? <==> sysvar.isInstructionsSysvar && newSigner != agent.owner
                       && RequireAgentSignature(env, sysvar, agent.agentSigner, ACTION_ROTATE_AGENT_SIGNER,
                                                agentKey, RotatePayload(newSigner)).Pass?
    ensures r.Ok? ==> r.value == agent.(agentSigner := newSigner, updatedAt := now) && SignerSeparated(r.value)
  {
    if !sysvar.isInstructionsSysvar then Err(ConstraintAddress) else
    :- Need(newSigner != agent.owner, AgentSignerEqualsOwner);
    :- RequireAgentSignature(env, sysvar, agent.agentSigner, ACTION_ROTATE_AGENT_SIGNER, agentKey,
                             RotatePayload(newSigner));
    Ok(agent.(agentSigner := newSigner, updatedAt := now))
  }

  /** A pending recovery request is well formed when it names its agent and
      owner and does not hand the signer role to the owner wallet. */
  predicate RequestFor(rec: AgentSignerRecovery, agentKey: Pubkey, agent: AgentIdentity)
  {
    rec.agent == agentKey && rec.owner == agent.owner && rec.newAgentSigner != rec.owner
  }

  /** `request_recover_agent_signer`. `pending` is the request account at the
      agent's recovery address, if one exists. */
  function RequestRecoverAgentSigner(economics: EconomicsConfig, agentKey: Pubkey, agent: AgentIdentity,
                                     owner: Pubkey, pending: Option<AgentSignerRecovery>, newSigner: Pubkey,
                                     now: i64): (r: Result<AgentSignerRecovery>)
    ensures owner != agent.owner ==> r == Err(UnauthorizedOwner)
    ensures owner == agent.owner && pending.Some? ==> r == Err(AccountAlreadyInUse)
    ensures owner == agent.owner && pending.None? && newSigner == agent.owner ==> r == Err(AgentSignerEqualsOwner)
    ensures owner == agent.owner && pending.None? && newSigner != agent.owner && newSigner == agent.agentSigner
            ==> r == Err(RecoveryNoOp)
    ensures (owner == agent.owner && pending.None? && newSigner != agent.owner && newSigner != agent.agentSigner
             && economics.recoveryTimelockSeconds < 0)
            ==> r == Err(InvalidAmount)
    ensures r.Ok? ==> newSigner != agent.owner && newSigner != agent.agentSigner
                      && economics.recoveryTimelockSeconds >= 0
    ensures r.Ok? ==> var rec := r.value;
              rec.agent == agentKey && rec.owner == owner && rec.newAgentSigner == newSigner
              && rec.requestedAt == now && rec.readyAt == now + economics.recoveryTimelockSeconds
              && RequestFor(rec, agentKey, agent)
    ensures (owner == agent.owner && pending.None? && newSigner != agent.owner && newSigner != agent.agentSigner
             && economics.recoveryTimelockSeconds >= 0 && now + economics.recoveryTimelockSeconds > I64_MAX)
            ==> r == Err(ArithmeticOverflow)
  {
    if owner != agent.owner then Err(UnauthorizedOwner) else
    :- Need(pending.None?, AccountAlreadyInUse);
    :- Need(newSigner != owner, AgentSignerEqualsOwner);
    :- Need(newSigner != agent.agentSigner, RecoveryNoOp);
    var timelock := economics.recoveryTimelockSeconds;
    :- Need(timelock >= 0, InvalidAmount);
    var readyAt :- CheckedAddI64(now, timelock, ArithmeticOverflow);
    Ok(AgentSignerRecovery(agentKey, owner, newSigner, now, readyAt))
  }

  /** `execute_recover_agent_signer`: once the timelock has passed, the
      requested signer takes over and the request account is closed (`None`). */
  function ExecuteRecoverAgentSigner(agentKey: Pubkey, agent: AgentIdentity, owner: Pubkey,
                                     pending: Option<AgentSignerRecovery>,
                                     now: i64): (r: Result<(AgentIdentity, Option<AgentSignerRecovery>)>)
    ensures owner != agent.owner ==> r == Err(UnauthorizedOwner)
    ensures owner == agent.owner && pending.None? ==> r == Err(AccountNotInitialized)
    ensures r.Ok? ==> pending.Some? && pending.value.agent == agentKey && pending.value.owner == agent.owner
                      && now >= pending.value.readyAt
    ensures (owner == agent.owner && pending.Some? && pending.value.agent == agentKey
             && pending.value.owner == owner && now < pending.value.readyAt) ==> r == Err(RecoveryNotReady)
    ensures r.Ok? ==> r.value == (agent.(agentSigner := pending.value.newAgentSigner, updatedAt := now), None)
  {
    if owner != agent.owner then Err(UnauthorizedOwner) else
    :- Need(pending.Some?, AccountNotInitialized);
    var rec := pending.value;
    :- Need(rec.agent == agentKey, ConstraintRaw);
    :- Need(rec.owner == owner, UnauthorizedOwner);
    :- Need(now >= rec.readyAt, RecoveryNotReady);
    Ok((agent.(agentSigner := rec.newAgentSigner, updatedAt := now), None))
  }

  /** The recovery flow end to end: a request made at `t` can be executed from
      `t + timelock` on (and not before), installs the requested signer, keeps
      the owner and signer apart, and cannot be executed a second time. */
  lemma RecoveryFlow(economics: EconomicsConfig, agentKey: Pubkey, agent: AgentIdentity, newSigner: Pubkey,
                     t: i64, t': i64)
    requires RequestRecoverAgentSigner(economics, agentKey, agent, agent.owner, None, newSigner, t).Ok?
    ensures var rec := RequestRecoverAgentSigner(economics, agentKey, agent, agent.owner, None, newSigner, t).value;
            var done := ExecuteRecoverAgentSigner(agentKey, agent, agent.owner, Some(rec), t');
            (done.Ok? <==> t' >= t + economics.recoveryTimelockSeconds)
            && (done.Ok? ==> done.value.0.agentSigner == newSigner && SignerSeparated(done.value.0)
                             && ExecuteRecoverAgentSigner(agentKey, done.value.0, agent.owner, done.value.1, t').Err?)
  {
  }

  /** Every handler that changes the agent signer keeps it apart from the
      owner, so `SignerSeparated` holds of every agent for its whole life. */
  lemma SignerChangesKeepSeparation(env: Env, agentKey: Pubkey, agent: AgentIdentity, sysvar: InstructionsSysvar,
                                    owner: Pubkey, pending: Option<AgentSignerRecovery>, newSigner: Pubkey, now: i64)
    requires pending.Some? ==> RequestFor(pending.value, agentKey, agent)
    ensures RotateAgentSigner(env, agentKey, agent, sysvar, newSigner, now).Ok? ==>
              SignerSeparated(RotateAgentSigner(env, agentKey, agent, sysvar, newSigner, now).value)
    ensures ExecuteRecoverAgentSigner(agentKey, agent, owner, pending, now).Ok? ==>
              SignerSeparated(ExecuteRecoverAgentSigner(agentKey, agent, owner, pending, now).value.0)
  {
  }

  // ---------------------------------------------------------------------------
  // Activation
  // ---------------------------------------------------------------------------

  /** `deactivate_agent` */
  function DeactivateAgent(agent: AgentIdentity, owner: Pubkey, now: i64): (r: Result<AgentIdentity>)
    ensures r.Ok? <==> owner == agent.owner && agent.isActive
    ensures owner == agent.owner && !agent.isActive ==> r == Err(AgentAlreadyInactive)
    ensures r.Ok? ==> !r.value.isActive && r.value.(isActive := true, updatedAt := agent.updatedAt) == agent
  {
    if owner != agent.owner then Err(UnauthorizedOwner) else
    :- Need(agent.isActive, AgentAlreadyInactive);
    Ok(agent.(isActive := false, updatedAt := now))
  }

  /** `reactivate_agent` */
  function ReactivateAgent(agent: AgentIdentity, owner: Pubkey, now: i64): (r: Result<AgentIdentity>)
    ensures r.Ok? <==> owner == agent.owner && !agent.isActive
    ensures owner == agent.owner && agent.isActive ==> r == Err(AgentAlreadyActive)
    ensures r.Ok? ==> r.value.isActive && r.value.(isActive := false, updatedAt := agent.updatedAt) == agent
  {
    if owner != agent.owner then Err(UnauthorizedOwner) else
    :- Need(!agent.isActive, AgentAlreadyActive);
    Ok(agent.(isActive := true, updatedAt := now))
  }

  /** Deactivating then reactivating gives the agent back with only its
      `updated_at` moved; the reverse round trip holds likewise. */
  lemma ActivationRoundTrip(agent: AgentIdentity, t1: i64, t2: i64)
    ensures agent.isActive ==>
              DeactivateAgent(agent, agent.owner, t1).Ok?
              && ReactivateAgent(DeactivateAgent(agent, agent.owner, t1).value, agent.owner, t2)
                   == Ok(agent.(updatedAt := t2))
    ensures !agent.isActive ==>
              ReactivateAgent(agent, agent.owner, t1).Ok?
              && DeactivateAgent(ReactivateAgent(agent, agent.owner, t1).value, agent.owner, t2)
                   == Ok(agent.(updatedAt := t2))
  {
  }

  // ---------------------------------------------------------------------------
  // Withdrawals
  // ---------------------------------------------------------------------------

  /** `withdraw_from_vault`: the agent's owner takes lamports out of its vault. */
  function WithdrawFromVault(agentKey: Pubkey, agent: AgentIdentity, vault: AgentVault, vaultLamports: u64,
                             owner: Wallet, amount: u64, minBalance: u64): (r: Result<(u64, Wallet)>)
    ensures vault.agent == agentKey && owner.key != agent.owner ==> r == Err(UnauthorizedAuthority)
    ensures r.Ok? ==> vault.agent == agentKey && owner.key == agent.owner && amount > 0
                      && CoversReserve(vaultLamports, minBalance, amount)
    ensures (vault.agent == agentKey && owner.key == agent.owner && amount > 0
             && !CoversReserve(vaultLamports, minBalance, amount)) ==> r == Err(InsufficientVaultBalance)
    ensures r.Ok? ==> r.value.0 == vaultLamports - amount
                      && r.value.1.key == owner.key && r.value.1.lamports == owner.lamports + amount
    ensures r.Ok? ==> r.value.0 + r.value.1.lamports == vaultLamports + owner.lamports
    ensures r.Ok? && minBalance + amount <= U64_MAX ==> r.value.0 >= minBalance
  {
    if vault.agent != agentKey then Err(ConstraintRaw) else
    :- Need(owner.key == agent.owner, UnauthorizedAuthority);
    :- Need(amount > 0, InvalidAmount);
    var moved :- ReleaseAbove(vaultLamports, owner.lamports, amount, minBalance, InsufficientVaultBalance);
    Ok((moved.0, owner.(lamports := moved.1)))
  }

  /** `withdraw_treasury`: the program authority takes lamports out of the
      global treasury. */
  function WithdrawTreasury(config: ProgramConfig, treasury: TreasuryAccount, authority: Wallet, amount: u64,
                            minBalance: u64): (r: Result<(TreasuryAccount, Wallet)>)
    ensures treasury.state.authority != config.authority || authority.key != config.authority
            ==> r == Err(UnauthorizedAuthority)
    ensures r.Ok? ==> amount > 0 && CoversReserve(treasury.lamports, minBalance, amount)
    ensures (treasury.state.authority == config.authority && authority.key == config.authority && amount > 0
             && !CoversReserve(treasury.lamports, minBalance, amount)) ==> r == Err(InsufficientTreasuryBalance)
    ensures r.Ok? ==> r.value.0.state == treasury.state && r.value.0.lamports == treasury.lamports - amount
                      && r.value.1.key == authority.key && r.value.1.lamports == authority.lamports + amount
    ensures r.Ok? ==> r.value.0.lamports + r.value.1.lamports == treasury.lamports + authority.lamports
    ensures r.Ok? && minBalance + amount <= U64_MAX ==> r.value.0.lamports >= minBalance
  {
    if treasury.state.authority != config.authority then Err(UnauthorizedAuthority) else
    :- Need(authority.key == config.authority, UnauthorizedAuthority);
    :- Need(amount > 0, InvalidAmount);
    var moved :- ReleaseAbove(treasury.lamports, authority.lamports, amount, minBalance, InsufficientTreasuryBalance);
    Ok((treasury.(lamports := moved.0), authority.(lamports := moved.1)))
  }

  /** However the withdrawals are sized, a run of successful vault withdrawals
      never takes the vault below its reserve. */
  lemma {:induction false} VaultWithdrawalsKeepReserve(agentKey: Pubkey, agent: AgentIdentity, vault: AgentVault,
                                                       vaultLamports: u64, owner: Wallet, amounts: seq<u64>,
                                                       minBalance: u64)
    requires vaultLamports >= minBalance
    requires forall i :: 0 <= i < |amounts| ==> minBalance + amounts[i] <= U64_MAX
    ensures VaultAfter(agentKey, agent, vault, vaultLamports, owner, amounts, minBalance) >= minBalance
    decreases |amounts|
  {
    if |amounts| > 0 {
      var r := WithdrawFromVault(agentKey, agent, vault, vaultLamports, owner, amounts[0], minBalance);
      if r.Ok? {
        ReleaseKeepsReserve(vaultLamports, minBalance, amounts[0]);
        VaultWithdrawalsKeepReserve(agentKey, agent, vault, r.value.0, r.value.1, amounts[1..], minBalance);
      } else {
        VaultWithdrawalsKeepReserve(agentKey, agent, vault, vaultLamports, owner, amounts[1..], minBalance);
      }
    }
  }

  /** The vault balance after a run of withdrawal attempts, refused ones
      leaving it unchanged. */
  function VaultAfter(agentKey: Pubkey, agent: AgentIdentity, vault: AgentVault, vaultLamports: u64, owner: Wallet,
                      amounts: seq<u64>, minBalance: u64): u64
    decreases |amounts|
  {
    if |amounts| == 0 then vaultLamports
    else
      var r := WithdrawFromVault(agentKey, agent, vault, vaultLamports, owner, amounts[0], minBalance);
      if r.Ok? then VaultAfter(agentKey, agent, vault, r.value.0, r.value.1, amounts[1..], minBalance)
      else VaultAfter(agentKey, agent, vault, vaultLamports, owner, amounts[1..], minBalance)
  }
}

=== FILE: auth.dfy ===
/** Delegated agent signatures.

    An agent-authored instruction is accepted only when the instruction right
    before it in the same transaction is a call to the ed25519 precompile that
    verified a signature by the agent's signer key over the domain-separated
    message `SIGN_DOMAIN || action || program_id || agent || payload`. The
    precompile itself rejects the transaction if the signature is wrong; the
    program only checks that the precompile's instruction data names the
    expected key and message. That byte-level check is modelled here.
 */
module Auth {
  import opened Ints
  import opened Errors
  import opened State

  const SIGN_DOMAIN: Bytes := Ascii("WUNDERLAND_SOL_V2")

  const ACTION_CREATE_ENCLAVE: u8 := 1
  const ACTION_ANCHOR_POST: u8 := 2
  const ACTION_ANCHOR_COMMENT: u8 := 3
  const ACTION_CAST_VOTE: u8 := 4
  const ACTION_ROTATE_AGENT_SIGNER: u8 := 5
  const ACTION_PLACE_JOB_BID: u8 := 6
  const ACTION_WITHDRAW_JOB_BID: u8 := 7
  const ACTION_SUBMIT_JOB: u8 := 8

  /** Layout of the precompile's instruction data: a signature count and a
      padding byte, then one 14-byte offsets record per signature. */
  const ED25519_OFFSETS_START: nat := 2
  const ED25519_OFFSETS_SIZE: nat := 14
  const ED25519_PUBKEY_SIZE: nat := 32
  const ED25519_SIGNATURE_SIZE: nat := 64

  /** "The bytes live in this very instruction" in an offsets record. */
  const THIS_INSTRUCTION: u16 := U16_MAX

  // ---------------------------------------------------------------------------
  // The instructions sysvar
  // ---------------------------------------------------------------------------

  datatype Instruction = Instruction(programId: Pubkey, data: Bytes)

  /** The instructions sysvar as the program reads it: whether the account
      passed really is the sysvar, the index of the executing instruction, and
      the transaction's instructions. */
  datatype InstructionsSysvar = InstructionsSysvar(
    isInstructionsSysvar: bool,
    currentIndex: u16,
    instructions: seq<Instruction>)

  /** One offsets record of the precompile's instruction data. */
  datatype Ed25519Offsets = Ed25519Offsets(
    signatureOffset: u16,
    signatureInstructionIndex: u16,
    publicKeyOffset: u16,
    publicKeyInstructionIndex: u16,
    messageDataOffset: u16,
    messageDataSize: u16,
    messageInstructionIndex: u16)

  // ---------------------------------------------------------------------------
  // Parsing
  // ---------------------------------------------------------------------------

  /** `read_u16_le`: the little-endian u16 at `offset`, or an error when the two
      bytes are not both inside `data`. */
  function ReadU16Le(data: Bytes, offset: nat): (r: Result<u16>)
    ensures r.Ok? <==> offset + 2 <= |data|
    ensures r.Err? ==> r.error == InvalidEd25519Instruction
    ensures r.Ok? ==> U16Le(r.value) == data[offset..offset + 2]
  {
    if offset + 2 > |data| then Err(InvalidEd25519Instruction)
    else
      Pow256Widths();
      LeBytesOfFromLe(data[offset..offset + 2]);
      Ok(FromLe(data[offset..offset + 2]))
  }

  /** Once the data holds the 16-byte header, none of the seven field reads
      can fail, so the handler's `?` on each of them never fires. */
  lemma OffsetReadsInBounds(data: Bytes, field: nat)
    requires |data| >= ED25519_OFFSETS_START + ED25519_OFFSETS_SIZE
    requires field < 7
    ensures ReadU16Le(data, ED25519_OFFSETS_START + 2 * field).Ok?
  {
  }

  function FieldAt(data: Bytes, offset: nat): u16
    requires offset + 2 <= |data|
  {
    ReadU16Le(data, offset).value
  }

  function ParseOffsets(data: Bytes): Ed25519Offsets
    requires |data| >= ED25519_OFFSETS_START + ED25519_OFFSETS_SIZE
  {
    var o := ED25519_OFFSETS_START;
    Ed25519Offsets(
      FieldAt(data, o), FieldAt(data, o + 2), FieldAt(data, o + 4), FieldAt(data, o + 6),
      FieldAt(data, o + 8), FieldAt(data, o + 10), FieldAt(data, o + 12))
  }

  predicate AllEmbedded(o: Ed25519Offsets)
  {
    o.signatureInstructionIndex == THIS_INSTRUCTION
    && o.publicKeyInstructionIndex == THIS_INSTRUCTION
    && o.messageInstructionIndex == THIS_INSTRUCTION
  }

  /** The byte checks on the precompile's instruction data, in source order. */
  function CheckEd25519Data(data: Bytes, expectedPubkey: Pubkey, expectedMessage: Bytes): (o: Outcome)
    ensures |data| < ED25519_OFFSETS_START + ED25519_OFFSETS_SIZE ==> o == Fail(InvalidEd25519Instruction)
    ensures (|data| >= ED25519_OFFSETS_START + ED25519_OFFSETS_SIZE && data[0] != 1)
              ==> o == Fail(InvalidEd25519Instruction)
    ensures (|data| >= ED25519_OFFSETS_START + ED25519_OFFSETS_SIZE && !AllEmbedded(ParseOffsets(data)))
              ==> o == Fail(InvalidEd25519Instruction)
    ensures o == Fail(SignaturePublicKeyMismatch) ==>
              |data| >= ED25519_OFFSETS_START + ED25519_OFFSETS_SIZE
              && var off := ParseOffsets(data).publicKeyOffset;
                 off + ED25519_PUBKEY_SIZE <= |data| && data[off..off + ED25519_PUBKEY_SIZE] != expectedPubkey
    ensures o == Fail(SignatureMessageMismatch) ==>
              |data| >= ED25519_OFFSETS_START + ED25519_OFFSETS_SIZE
              && var p := ParseOffsets(data);
                 p.messageDataOffset + p.messageDataSize <= |data|
                 && data[p.messageDataOffset..p.messageDataOffset + p.messageDataSize] != expectedMessage
    ensures o.Fail? ==> o.error in {InvalidEd25519Instruction, SignaturePublicKeyMismatch, SignatureMessageMismatch}
    ensures o.Pass? ==> Attests(data, expectedPubkey, expectedMessage)
  {
    if |data| < ED25519_OFFSETS_START + ED25519_OFFSETS_SIZE then Fail(InvalidEd25519Instruction)
    else if data[0] != 1 then Fail(InvalidEd25519Instruction)
    else
      var p := ParseOffsets(data);
      if !AllEmbedded(p) then Fail(InvalidEd25519Instruction)
      else if p.publicKeyOffset + ED25519_PUBKEY_SIZE > |data| then Fail(InvalidEd25519Instruction)
      else if data[p.publicKeyOffset..p.publicKeyOffset + ED25519_PUBKEY_SIZE] != expectedPubkey then
        Fail(SignaturePublicKeyMismatch)
      else if p.messageDataOffset + p.messageDataSize > |data| then Fail(InvalidEd25519Instruction)
      else if data[p.messageDataOffset..p.messageDataOffset + p.messageDataSize] != expectedMessage then
        Fail(SignatureMessageMismatch)
      else if p.signatureOffset + ED25519_SIGNATURE_SIZE > |data| then Fail(InvalidEd25519Instruction)
      else
        assert Embeds(data, p.signatureOffset, p.publicKeyOffset, p.messageDataOffset,
                      expectedPubkey, expectedMessage);
        Pass
  }

  /** What an accepted precompile instruction says: it carries exactly one
      signature whose key, message and signature all lie in its own data, and
      the key and message are the expected ones. */
  ghost predicate Attests(data: Bytes, pubkey: Pubkey, message: Bytes)
  {
    |data| >= 16 && data[0] == 1
    && exists sigOff: nat, pkOff: nat, msgOff: nat :: Embeds(data, sigOff, pkOff, msgOff, pubkey, message)
  }

  predicate Embeds(data: Bytes, sigOff: nat, pkOff: nat, msgOff: nat, pubkey: Pubkey, message: Bytes)
  {
    |data| >= 16
    && (var p := ParseOffsets(data);
        AllEmbedded(p)
        && p.signatureOffset == sigOff && p.publicKeyOffset == pkOff
        && p.messageDataOffset == msgOff && p.messageDataSize == |message|)
    && sigOff + 64 <= |data|
    && pkOff + 32 <= |data| && data[pkOff..pkOff + 32] == pubkey
    && msgOff + |message| <= |data| && data[msgOff..msgOff + |message|] == message
  }

  /** `require_ed25519_signature_preceding_instruction` */
  function RequireEd25519(env: Env, sysvar: InstructionsSysvar, expectedPubkey: Pubkey, expectedMessage: Bytes): (o: Outcome)
    ensures !sysvar.isInstructionsSysvar ==> o == Fail(InvalidEd25519Instruction)
    ensures sysvar.isInstructionsSysvar && sysvar.currentIndex == 0 ==> o == Fail(MissingEd25519Instruction)
    ensures sysvar.isInstructionsSysvar && 0 < sysvar.currentIndex && (
              sysvar.currentIndex - 1 >= |sysvar.instructions|
              || sysvar.instructions[sysvar.currentIndex - 1].programId != env.ed25519ProgramId)
            ==> o == Fail(MissingEd25519Instruction)
    ensures o.Pass? <==>
              sysvar.isInstructionsSysvar && 0 < sysvar.currentIndex <= |sysvar.instructions|
              && var ix := sysvar.instructions[sysvar.currentIndex - 1];
                 ix.programId == env.ed25519ProgramId
                 && CheckEd25519Data(ix.data, expectedPubkey, expectedMessage).Pass?
  {
    if !sysvar.isInstructionsSysvar then Fail(InvalidEd25519Instruction)
    else if sysvar.currentIndex == 0 then Fail(MissingEd25519Instruction)
    else if sysvar.currentIndex - 1 >= |sysvar.instructions| then Fail(MissingEd25519Instruction)
    else
      var ix := sysvar.instructions[sysvar.currentIndex - 1];
      if ix.programId != env.ed25519ProgramId then Fail(MissingEd25519Instruction)
      else CheckEd25519Data(ix.data, expectedPubkey, expectedMessage)
  }

  // ---------------------------------------------------------------------------
  // What the client sends: the precompile instruction in its standard layout
  // ---------------------------------------------------------------------------

  function EncodeOffsets(o: Ed25519Offsets): (bs: Bytes)
    ensures |bs| == ED25519_OFFSETS_SIZE
  {
    U16Le(o.signatureOffset) + U16Le(o.signatureInstructionIndex)
      + U16Le(o.publicKeyOffset) + U16Le(o.publicKeyInstructionIndex)
      + U16Le(o.messageDataOffset) + U16Le(o.messageDataSize) + U16Le(o.messageInstructionIndex)
  }

  const CANONICAL_PUBKEY_OFFSET: nat := ED25519_OFFSETS_START + ED25519_OFFSETS_SIZE
  const CANONICAL_SIGNATURE_OFFSET: nat := CANONICAL_PUBKEY_OFFSET + ED25519_PUBKEY_SIZE
  const CANONICAL_MESSAGE_OFFSET: nat := CANONICAL_SIGNATURE_OFFSET + ED25519_SIGNATURE_SIZE

  /** The precompile's standard single-signature instruction data: header,
      offsets, then key, signature and message, all in this instruction. */
  function Ed25519InstructionData(pubkey: Pubkey, signature: Bytes, message: Bytes): (data: Bytes)
    requires |signature| == ED25519_SIGNATURE_SIZE && |message| <= U16_MAX
    ensures |data| == CANONICAL_MESSAGE_OFFSET + |message|
  {
    var offsets := Ed25519Offsets(CANONICAL_SIGNATURE_OFFSET, THIS_INSTRUCTION,
                                  CANONICAL_PUBKEY_OFFSET, THIS_INSTRUCTION,
                                  CANONICAL_MESSAGE_OFFSET, |message|, THIS_INSTRUCTION);
    [1, 0] + EncodeOffsets(offsets) + pubkey + signature + message
  }

  /** Reading the offsets back from any data that starts with a header and an
      encoded offsets record gives that record. */
  lemma ParseEncodedOffsets(header: Bytes, o: Ed25519Offsets, rest: Bytes)
    requires |header| == ED25519_OFFSETS_START
    ensures ParseOffsets(header + EncodeOffsets(o) + rest) == o
  {
    var enc := EncodeOffsets(o);
    var data := header + enc + rest;
    OffsetsFieldsAt(o);
    // Each field of the record sits two bytes further into the data.
    RecordSlice(header, enc, rest, 0);
    FieldFromEncoding(data, 2, o.signatureOffset);
    RecordSlice(header, enc, rest, 2);
    FieldFromEncoding(data, 4, o.signatureInstructionIndex);
    RecordSlice(header, enc, rest, 4);
    FieldFromEncoding(data, 6, o.publicKeyOffset);
    RecordSlice(header, enc, rest, 6);
    FieldFromEncoding(data, 8, o.publicKeyInstructionIndex);
    RecordSlice(header, enc, rest, 8);
    FieldFromEncoding(data, 10, o.messageDataOffset);
    RecordSlice(header, enc, rest, 10);
    FieldFromEncoding(data, 12, o.messageDataSize);
    RecordSlice(header, enc, rest, 12);
    FieldFromEncoding(data, 14, o.messageInstructionIndex);
  }

  /** Where each field of an encoded offsets record sits. */
  lemma OffsetsFieldsAt(o: Ed25519Offsets)
    ensures var enc := EncodeOffsets(o);
            enc[0..2] == U16Le(o.signatureOffset) && enc[2..4] == U16Le(o.signatureInstructionIndex)
            && enc[4..6] == U16Le(o.publicKeyOffset) && enc[6..8] == U16Le(o.publicKeyInstructionIndex)
            && enc[8..10] == U16Le(o.messageDataOffset) && enc[10..12] == U16Le(o.messageDataSize)
            && enc[12..14] == U16Le(o.messageInstructionIndex)
  {
    // The record as a chain of prefixes, one field longer each time.
    var e1 := U16Le(o.signatureOffset);
    var e2 := e1 + U16Le(o.signatureInstructionIndex);
    var e3 := e2 + U16Le(o.publicKeyOffset);
    var e4 := e3 + U16Le(o.publicKeyInstructionIndex);
    var e5 := e4 + U16Le(o.messageDataOffset);
    var e6 := e5 + U16Le(o.messageDataSize);
    var enc := e6 + U16Le(o.messageInstructionIndex);
    assert enc == EncodeOffsets(o);
    ConcatSliceRight(e6, U16Le(o.messageInstructionIndex), 0, 2);
    ConcatSliceLeft(e6, U16Le(o.messageInstructionIndex), 10, 12);
    ConcatSliceRight(e5, U16Le(o.messageDataSize), 0, 2);
    ConcatSliceLeft(e6, U16Le(o.messageInstructionIndex), 8, 10);
    ConcatSliceLeft(e5, U16Le(o.messageDataSize), 8, 10);
    ConcatSliceRight(e4, U16Le(o.messageDataOffset), 0, 2);
    ConcatSliceLeft(e6, U16Le(o.messageInstructionIndex), 6, 8);
    ConcatSliceLeft(e5, U16Le(o.messageDataSize), 6, 8);
    ConcatSliceLeft(e4, U16Le(o.messageDataOffset), 6, 8);
    ConcatSliceRight(e3, U16Le(o.publicKeyInstructionIndex), 0, 2);
    ConcatSliceLeft(e6, U16Le(o.messageInstructionIndex), 4, 6);
    ConcatSliceLeft(e5, U16Le(o.messageDataSize), 4, 6);
    ConcatSliceLeft(e4, U16Le(o.messageDataOffset), 4, 6);
    ConcatSliceLeft(e3, U16Le(o.publicKeyInstructionIndex), 4, 6);
    ConcatSliceRight(e2, U16Le(o.publicKeyOffset), 0, 2);
    ConcatSliceLeft(e6, U16Le(o.messageInstructionIndex), 2, 4);
    ConcatSliceLeft(e5, U16Le(o.messageDataSize), 2, 4);
    ConcatSliceLeft(e4, U16Le(o.messageDataOffset), 2, 4);
    ConcatSliceLeft(e3, U16Le(o.publicKeyInstructionIndex), 2, 4);
    ConcatSliceLeft(e2, U16Le(o.publicKeyOffset), 2, 4);
    ConcatSliceRight(e1, U16Le(o.signatureInstructionIndex), 0, 2);
    ConcatSliceLeft(e6, U16Le(o.messageInstructionIndex), 0, 2);
    ConcatSliceLeft(e5, U16Le(o.messageDataSize), 0, 2);
    ConcatSliceLeft(e4, U16Le(o.messageDataOffset), 0, 2);
    ConcatSliceLeft(e3, U16Le(o.publicKeyInstructionIndex), 0, 2);
    ConcatSliceLeft(e2, U16Le(o.publicKeyOffset), 0, 2);
    ConcatSliceLeft(e1, U16Le(o.signatureInstructionIndex), 0, 2);
    assert e1[0..2] == e1;
  }

  lemma RecordSlice(header: Bytes, enc: Bytes, rest: Bytes, p: nat)
    requires |header| == ED25519_OFFSETS_START && |enc| == ED25519_OFFSETS_SIZE && p <= 12
    ensures (header + enc + rest)[2 + p..4 + p] == enc[p..p + 2]
  {
    ConcatSliceLeft(header + enc, rest, 2 + p, 4 + p);
    ConcatSliceRight(header, enc, p, p + 2);
  }

  /** A field whose two bytes are the encoding of `x` reads as `x`. */
  lemma FieldFromEncoding(data: Bytes, k: nat, x: u16)
    requires k + 2 <= |data| && data[k..k + 2] == U16Le(x)
    ensures FieldAt(data, k) == x
  {
    assert FromLe(U16Le(FieldAt(data, k))) == FromLe(U16Le(x));
  }

  /** The standard instruction for the expected key and message passes. */
  lemma CanonicalInstructionAccepted(pubkey: Pubkey, signature: Bytes, message: Bytes)
    requires |signature| == ED25519_SIGNATURE_SIZE && |message| <= U16_MAX
    ensures CheckEd25519Data(Ed25519InstructionData(pubkey, signature, message), pubkey, message) == Pass
  {
    var data := Ed25519InstructionData(pubkey, signature, message);
    var offsets := Ed25519Offsets(CANONICAL_SIGNATURE_OFFSET, THIS_INSTRUCTION,
                                  CANONICAL_PUBKEY_OFFSET, THIS_INSTRUCTION,
                                  CANONICAL_MESSAGE_OFFSET, |message|, THIS_INSTRUCTION);
    ParseEncodedOffsets([1, 0], offsets, pubkey + signature + message);
    assert data == [1, 0] + EncodeOffsets(offsets) + (pubkey + signature + message);
    assert data[16..48] == pubkey;
    assert data[112..112 + |message|] == message;
  }

  /** An accepted precompile instruction vouches for exactly one key and one
      message: no second (key, message) pair passes against the same data. */
  lemma AcceptedPairUnique(data: Bytes, pk1: Pubkey, m1: Bytes, pk2: Pubkey, m2: Bytes)
    requires CheckEd25519Data(data, pk1, m1).Pass?
    requires CheckEd25519Data(data, pk2, m2).Pass?
    ensures pk1 == pk2 && m1 == m2
  {
  }

  /** So the standard instruction built for one key and message is refused
      for any other, with the error naming the field that differs. */
  lemma CanonicalInstructionRejectsOthers(pubkey: Pubkey, signature: Bytes, message: Bytes,
                                          otherKey: Pubkey, otherMessage: Bytes)
    requires |signature| == ED25519_SIGNATURE_SIZE && |message| <= U16_MAX
    requires otherKey != pubkey || otherMessage != message
    ensures otherKey != pubkey ==>
              CheckEd25519Data(Ed25519InstructionData(pubkey, signature, message), otherKey, otherMessage)
                == Fail(SignaturePublicKeyMismatch)
    ensures otherKey == pubkey ==>
              CheckEd25519Data(Ed25519InstructionData(pubkey, signature, message), otherKey, otherMessage)
                == Fail(SignatureMessageMismatch)
  {
    CanonicalInstructionAccepted(pubkey, signature, message);
  }

  // ---------------------------------------------------------------------------
  // The signed message
  // ---------------------------------------------------------------------------

  datatype AgentMessage = AgentMessage(action: u8, programId: Pubkey, agent: Pubkey, payload: Bytes)

  const AGENT_MESSAGE_HEADER_LEN: nat := 17 + 1 + 32 + 32

  /** `build_agent_message` */
  function BuildAgentMessage(action: u8, programId: Pubkey, agent: Pubkey, payload: Bytes): (m: Bytes)
    ensures |m| == |SIGN_DOMAIN| + 1 + 32 + 32 + |payload| == AGENT_MESSAGE_HEADER_LEN + |payload|
  {
    SIGN_DOMAIN + [action] + programId + agent + payload
  }

  /** Splitting a message back into its parts; `None` for anything that does
      not start with the domain separator. */
  function ParseAgentMessage(m: Bytes): (r: Option<AgentMessage>)
    ensures r.Some? ==> |m| >= AGENT_MESSAGE_HEADER_LEN && m[..17] == SIGN_DOMAIN
  {
    if |m| < AGENT_MESSAGE_HEADER_LEN || m[..17] != SIGN_DOMAIN then None
    else Some(AgentMessage(m[17], m[18..50], m[50..82], m[82..]))
  }

  lemma ParseBuildAgentMessage(action: u8, programId: Pubkey, agent: Pubkey, payload: Bytes)
    ensures ParseAgentMessage(BuildAgentMessage(action, programId, agent, payload))
              == Some(AgentMessage(action, programId, agent, payload))
  {
    var m := BuildAgentMessage(action, programId, agent, payload);
    assert m[..17] == SIGN_DOMAIN;
    assert m[18..50] == programId;
    assert m[50..82] == agent;
    assert m[82..] == payload;
  }

  lemma BuildParseAgentMessage(m: Bytes)
    requires ParseAgentMessage(m).Some?
    ensures var a := ParseAgentMessage(m).value;
            BuildAgentMessage(a.action, a.programId, a.agent, a.payload) == m
  {
    assert m == m[..17] + [m[17]] + m[18..50] + m[50..82] + m[82..];
  }

  /** Distinct (action, program, agent, payload) tuples give distinct messages:
      in particular, a signature made for one action never authorises another. */
  lemma AgentMessageInjective(a1: u8, p1: Pubkey, g1: Pubkey, x1: Bytes,
                              a2: u8, p2: Pubkey, g2: Pubkey, x2: Bytes)
    requires BuildAgentMessage(a1, p1, g1, x1) == BuildAgentMessage(a2, p2, g2, x2)
    ensures a1 == a2 && p1 == p2 && g1 == g2 && x1 == x2
  {
    ParseBuildAgentMessage(a1, p1, g1, x1);
    ParseBuildAgentMessage(a2, p2, g2, x2);
  }

  /** The action ids of the eight agent-authored handlers, in declaration order. */
  const AGENT_ACTIONS: seq<u8> := [ACTION_CREATE_ENCLAVE, ACTION_ANCHOR_POST, ACTION_ANCHOR_COMMENT,
                                   ACTION_CAST_VOTE, ACTION_ROTATE_AGENT_SIGNER, ACTION_PLACE_JOB_BID,
                                   ACTION_WITHDRAW_JOB_BID, ACTION_SUBMIT_JOB]

  /** Domain separation between handlers: a message signed for one handler is
      never the message of another, whatever the program, agents and payloads,
      so a signature cannot be replayed across actions. */
  lemma ActionsSeparateMessages(i: nat, j: nat, p1: Pubkey, g1: Pubkey, x1: Bytes,
                                p2: Pubkey, g2: Pubkey, x2: Bytes)
    requires i < |AGENT_ACTIONS| && j < |AGENT_ACTIONS| && i != j
    ensures BuildAgentMessage(AGENT_ACTIONS[i], p1, g1, x1) != BuildAgentMessage(AGENT_ACTIONS[j], p2, g2, x2)
  {
    if BuildAgentMessage(AGENT_ACTIONS[i], p1, g1, x1) == BuildAgentMessage(AGENT_ACTIONS[j], p2, g2, x2) {
      AgentMessageInjective(AGENT_ACTIONS[i], p1, g1, x1, AGENT_ACTIONS[j], p2, g2, x2);
    }
  }

  /** The check every agent-authored handler performs: the preceding precompile
      instruction verified `signer`'s signature over this action's message. */
  function RequireAgentSignature(env: Env, sysvar: InstructionsSysvar, signer: Pubkey,
                                 action: u8, agent: Pubkey, payload: Bytes): (o: Outcome)
    ensures o.Pass? ==>
              sysvar.isInstructionsSysvar && 0 < sysvar.currentIndex <= |sysvar.instructions|
              && Attests(sysvar.instructions[sysvar.currentIndex - 1].data, signer,
                         BuildAgentMessage(action, env.programId, agent, payload))
  {
    RequireEd25519(env, sysvar, signer, BuildAgentMessage(action, env.programId, agent, payload))
  }
}

=== FILE: economics.dfy ===
/** The economics policy: the agent mint fee, the lifetime cap on agents per
    owner wallet, and the owner-recovery timelock. The program authority sets
    the defaults once and may change them later within the same bounds.
 */
module Economics {
  import opened Ints
  import opened Errors
  import opened State

  const DEFAULT_AGENT_MINT_FEE: u64 := 50_000_000
  const DEFAULT_MAX_AGENTS_PER_WALLET: u16 := 5
  const DEFAULT_RECOVERY_TIMELOCK: i64 := 5 * 60

  /** The bounds every policy update enforces. */
  predicate ValidPolicy(e: EconomicsConfig)
  {
    e.agentMintFeeLamports > 0 && e.maxAgentsPerWallet > 0 && e.recoveryTimelockSeconds >= 0
  }

  /** `initialize_economics`: authority-only, creates the policy account once. */
  function InitializeEconomics(config: ProgramConfig, authority: Pubkey, economicsTaken: bool): (r: Result<EconomicsConfig>)
    ensures r.Ok? <==> authority == config.authority && !economicsTaken
    ensures authority != config.authority ==> r == Err(UnauthorizedAuthority)
    ensures authority == config.authority && economicsTaken ==> r == Err(AccountAlreadyInUse)
    ensures r.Ok? ==> r.value.authority == config.authority
                      && r.value.agentMintFeeLamports == 50_000_000
                      && r.value.maxAgentsPerWallet == 5
                      && r.value.recoveryTimelockSeconds == 300
  {
    if authority != config.authority then Err(UnauthorizedAuthority) else
    :- Need(!economicsTaken, AccountAlreadyInUse);
    Ok(EconomicsConfig(config.authority, DEFAULT_AGENT_MINT_FEE, DEFAULT_MAX_AGENTS_PER_WALLET,
                       DEFAULT_RECOVERY_TIMELOCK))
  }

  /** `update_economics`: authority-only; rewrites the three policy fields and
      nothing else. */
  function UpdateEconomics(config: ProgramConfig, authority: Pubkey, e: EconomicsConfig,
                           fee: u64, maxPerWallet: u16, timelock: i64): (r: Result<EconomicsConfig>)
    ensures r.Ok? <==> authority == config.authority && e.authority == config.authority
                       && fee > 0 && maxPerWallet > 0 && timelock >= 0
    ensures authority != config.authority || e.authority != config.authority ==> r == Err(UnauthorizedAuthority)
    ensures r.Err? ==> r.error in {UnauthorizedAuthority, InvalidAmount}
    ensures r.Ok? ==> ValidPolicy(r.value) && r.value.authority == e.authority
                      && r.value.agentMintFeeLamports == fee
                      && r.value.maxAgentsPerWallet == maxPerWallet
                      && r.value.recoveryTimelockSeconds == timelock
  {
    if authority != config.authority then Err(UnauthorizedAuthority) else
    :- Need(e.authority == config.authority, UnauthorizedAuthority);
    :- Need(fee > 0, InvalidAmount);
    :- Need(maxPerWallet > 0, InvalidAmount);
    :- Need(timelock >= 0, InvalidAmount);
    Ok(e.(agentMintFeeLamports := fee, maxAgentsPerWallet := maxPerWallet, recoveryTimelockSeconds := timelock))
  }

  /** The defaults lie inside the bounds updates enforce, and re-submitting the
      current values of a valid policy changes nothing. */
  lemma DefaultsAreValid(config: ProgramConfig)
    ensures ValidPolicy(InitializeEconomics(config, config.authority, false).value)
  {
  }

  lemma UpdateWithCurrentValuesIsIdentity(config: ProgramConfig, e: EconomicsConfig)
    requires ValidPolicy(e) && e.authority == config.authority
    ensures UpdateEconomics(config, config.authority, e, e.agentMintFeeLamports, e.maxAgentsPerWallet,
                            e.recoveryTimelockSeconds) == Ok(e)
  {
  }

  /** Every policy reachable from a valid one through updates is valid, and
      still names the same authority. */
  lemma {:induction false} UpdatesKeepPolicyValid(config: ProgramConfig, e: EconomicsConfig,
                                                  updates: seq<(Pubkey, u64, u16, i64)>)
    requires ValidPolicy(e)
    ensures ValidPolicy(ApplyUpdates(config, e, updates))
    ensures ApplyUpdates(config, e, updates).authority == e.authority
    decreases |updates|
  {
    if |updates| > 0 {
      var (who, fee, cap, lock) := updates[0];
      var next := UpdateEconomics(config, who, e, fee, cap, lock);
      var e' := if next.Ok? then next.value else e;
      UpdatesKeepPolicyValid(config, e', updates[1..]);
    }
  }

  /** A sequence of update attempts; a refused attempt leaves the policy as it was. */
  function ApplyUpdates(config: ProgramConfig, e: EconomicsConfig, updates: seq<(Pubkey, u64, u16, i64)>): EconomicsConfig
    decreases |updates|
  {
    if |updates| == 0 then e
    else
      var (who, fee, cap, lock) := updates[0];
      var next := UpdateEconomics(config, who, e, fee, cap, lock);
      ApplyUpdates(config, if next.Ok? then next.value else e, updates[1..])
  }
}

=== FILE: errors.dfy ===
/** Error codes of the program and the failure-compatible result types every
    instruction handler returns.

    `Error` mirrors the program's error enum in declaration order, followed by
    the one code only the older program tree uses and by the few failures that
    come from the runtime or the account framework rather than from handler code.
 */
module Errors {

  datatype Error =
    // --- program error codes (newer tree), in declaration order ---
    | InvalidTraitValue
    | InvalidVoteValue
    | AgentInactive
    | InvalidCitizenLevel
    | EmptyDisplayName
    | SelfVote
    | PostCountOverflow
    | VoteCountOverflow
    | ReputationOverflow
    | UnauthorizedAuthority
    | UnauthorizedOwner
    | AgentSignerEqualsOwner
    | AgentAlreadyInactive
    | AgentAlreadyActive
    | MaxAgentsPerWalletExceeded
    | MissingEd25519Instruction
    | InvalidEd25519Instruction
    | SignaturePublicKeyMismatch
    | SignatureMessageMismatch
    | InvalidReplyTarget
    | InvalidAmount
    | InsufficientVaultBalance
    | InsufficientTreasuryBalance
    | InvalidProgramData
    | ProgramImmutable
    | EmptyEnclaveNameHash
    | EnclaveInactive
    | TipBelowMinimum
    | TipNotPending
    | TipNotTimedOut
    | RateLimitMinuteExceeded
    | RateLimitHourExceeded
    | InvalidTargetEnclave
    | EscrowAmountMismatch
    | RecoveryNotReady
    | RecoveryNoOp
    | InvalidEnclaveTreasury
    | InvalidAgentVault
    | UnauthorizedEnclaveOwner
    | InsufficientEnclaveTreasuryBalance
    | InvalidMerkleRoot
    | InvalidMerkleProof
    | MerkleProofTooLong
    | ClaimWindowClosed
    | ClaimWindowOpen
    | RewardsEpochNoDeadline
    | RewardsEpochSwept
    | InvalidRewardsEpoch
    | InsufficientRewardsBalance
    | JobNotOpen
    | JobNotAssigned
    | JobNotSubmitted
    | UnauthorizedJobCreator
    | UnauthorizedJobAgent
    | InvalidJobEscrow
    | InsufficientJobEscrowBalance
    | BidNotActive
    | BidNotAccepted
    | InvalidJobBid
    | ArithmeticOverflow
    // --- older tree only ---
    | UnauthorizedRegistrar
    // --- runtime / framework failures ---
    | AccountAlreadyInUse     // `init` on an address that already holds an account
    | AccountNotInitialized   // a required account (e.g. a closed request) does not exist
    | ConstraintRaw           // an account `constraint` that names no custom error
    | ConstraintAddress       // an account `address = ...` constraint that does not hold
    | InsufficientFunds       // a system-program transfer from a payer that cannot cover it
    | LamportsOverflow        // a system-program transfer that would overflow the recipient
    | Panic                   // an unchecked integer operation that overflowed

  /** The outcome of an instruction: a value, or the error that aborted it. */
  datatype Result<+T> = Ok(value: T) | Err(error: Error) {
    predicate IsFailure() { Err? }
    function PropagateFailure<U>(): Result<U>
      requires Err?
    {
      Err(error)
    }
    function Extract(): T
      requires Ok?
    {
      value
    }
  }

  /** A check that carries no value; used with `:-` for the program's `require!`. */
  datatype Outcome = Pass | Fail(error: Error) {
    predicate IsFailure() { Fail? }
    function PropagateFailure<U>(): Result<U>
      requires Fail?
    {
      Err(error)
    }
  }

  /** `require!(condition, error)` */
  function Need(condition: bool, error: Error): (o: Outcome)
  {
    if condition then Pass else Fail(error)
  }

  datatype Option<+T> = None | Some(value: T) {
    function UnwrapOr(default: T): T
    {
      if Some? then value else default
    }
  }
}

=== FILE: ints.dfy ===
/** Fixed-width integers of the program, written out over Dafny's unbounded
    `int`, with the checked and saturating operations the handlers use and the
    little-endian byte encodings (`to_le_bytes`) that go into signed payloads,
    Merkle leaves and account layouts.
 */
module Ints {
  import opened Errors

  const U8_MAX: int := 0xFF
  const U16_MAX: int := 0xFFFF
  const U32_MAX: int := 0xFFFF_FFFF
  const U64_MAX: int := 0xFFFF_FFFF_FFFF_FFFF
  const I8_MIN: int := -0x80
  const I8_MAX: int := 0x7F
  const I64_MIN: int := -0x8000_0000_0000_0000
  const I64_MAX: int := 0x7FFF_FFFF_FFFF_FFFF

  type u8 = x: int | 0 <= x <= U8_MAX
  type u16 = x: int | 0 <= x <= U16_MAX
  type u32 = x: int | 0 <= x <= U32_MAX
  type u64 = x: int | 0 <= x <= U64_MAX
  type i8 = x: int | I8_MIN <= x <= I8_MAX
  type i64 = x: int | I64_MIN <= x <= I64_MAX

  /** Raw account and instruction data. */
  type Bytes = seq<u8>

  // ---------------------------------------------------------------------------
  // Checked arithmetic: `checked_add(..).ok_or(e)` and friends
  // ---------------------------------------------------------------------------

  function CheckedAddU64(a: u64, b: u64, e: Error): (r: Result<u64>)
    ensures r.Ok? <==> a + b <= U64_MAX
    ensures r.Ok? ==> r.value == a + b
    ensures r.Err? ==> r.error == e
  {
    if a + b <= U64_MAX then Ok(a + b) else Err(e)
  }

  function CheckedSubU64(a: u64, b: u64, e: Error): (r: Result<u64>)
    ensures r.Ok? <==> b <= a
    ensures r.Ok? ==> r.value == a - b
    ensures r.Err? ==> r.error == e
  {
    if b <= a then Ok(a - b) else Err(e)
  }

  function CheckedAddU32(a: u32, b: u32, e: Error): (r: Result<u32>)
    ensures r.Ok? <==> a + b <= U32_MAX
    ensures r.Ok? ==> r.value == a + b
    ensures r.Err? ==> r.error == e
  {
    if a + b <= U32_MAX then Ok(a + b) else Err(e)
  }

  function CheckedAddU16(a: u16, b: u16, e: Error): (r: Result<u16>)
    ensures r.Ok? <==> a + b <= U16_MAX
    ensures r.Ok? ==> r.value == a + b
    ensures r.Err? ==> r.error == e
  {
    if a + b <= U16_MAX then Ok(a + b) else Err(e)
  }

  function CheckedAddI64(a: i64, b: i64, e: Error): (r: Result<i64>)
    ensures r.Ok? <==> I64_MIN <= a + b <= I64_MAX
    ensures r.Ok? ==> r.value == a + b
    ensures r.Err? ==> r.error == e
  {
    if I64_MIN <= a + b <= I64_MAX then Ok(a + b) else Err(e)
  }

  function CheckedSubI64(a: i64, b: i64, e: Error): (r: Result<i64>)
    ensures r.Ok? <==> I64_MIN <= a - b <= I64_MAX
    ensures r.Ok? ==> r.value == a - b
    ensures r.Err? ==> r.error == e
  {
    if I64_MIN <= a - b <= I64_MAX then Ok(a - b) else Err(e)
  }

  /** An unchecked `a + b` on i64: overflow aborts the transaction. */
  function PanickingAddI64(a: i64, b: i64): (r: Result<i64>)
    ensures r.Ok? <==> a + b <= I64_MAX && I64_MIN <= a + b
    ensures r.Ok? ==> r.value == a + b
    ensures r.Err? ==> r.error == Panic
  {
    CheckedAddI64(a, b, Panic)
  }

  /** `u64::saturating_add` */
  function SaturatingAddU64(a: u64, b: u64): (r: u64)
    ensures a + b <= U64_MAX ==> r == a + b
    ensures a + b > U64_MAX ==> r == U64_MAX
    ensures a <= r && b <= r && r <= a + b
  {
    if a + b <= U64_MAX then a + b else U64_MAX
  }

  // ---------------------------------------------------------------------------
  // Little-endian encodings
  // ---------------------------------------------------------------------------

  function Pow256(n: nat): (p: nat)
    ensures p >= 1
  {
    if n == 0 then 1 else 256 * Pow256(n - 1)
  }

  lemma Pow256Widths()
    ensures Pow256(1) == U8_MAX + 1
    ensures Pow256(2) == U16_MAX + 1
    ensures Pow256(4) == U32_MAX + 1
    ensures Pow256(8) == U64_MAX + 1
  {
    assert Pow256(1) == 256;
    assert Pow256(2) == 256 * 256;
    assert Pow256(3) == 256 * 256 * 256;
    assert Pow256(4) == 256 * 256 * 256 * 256;
    assert Pow256(5) == 256 * Pow256(4);
    assert Pow256(6) == 256 * Pow256(5);
    assert Pow256(7) == 256 * Pow256(6);
  }

  /** The value of a little-endian byte string. */
  function FromLe(bs: Bytes): (x: nat)
    ensures x < Pow256(|bs|)
  {
    if |bs| == 0 then 0 else bs[0] + 256 * FromLe(bs[1..])
  }

  /** `to_le_bytes` of an `n`-byte unsigned value. */
  function LeBytes(x: nat, n: nat): (bs: Bytes)
    requires x < Pow256(n)
    ensures |bs| == n
    ensures FromLe(bs) == x
  {
    if n == 0 then []
    else
      var rest := LeBytes(x / 256, n - 1);
      assert ([x % 256] + rest)[1..] == rest;
      [x % 256] + rest
  }

  lemma {:induction false} LeBytesOfFromLe(bs: Bytes)
    ensures LeBytes(FromLe(bs), |bs|) == bs
  {
    if |bs| > 0 {
      var tail := bs[1..];
      LeBytesOfFromLe(tail);
      var x := FromLe(bs);
      assert x == bs[0] as nat + 256 * FromLe(tail);
      DigitSplit(bs[0] as nat, FromLe(tail));
      assert LeBytes(x, |bs|) == [bs[0]] + LeBytes(FromLe(tail), |tail|);
      assert [bs[0]] + tail == bs;
    }
  }

  /** The low byte and the rest of `d + 256 * q`. */
  lemma DigitSplit(d: nat, q: nat)
    requires d < 256
    ensures (d + 256 * q) % 256 == d && (d + 256 * q) / 256 == q
  {
  }

  /** A slice inside the left part of a concatenation is a slice of that part. */
  lemma ConcatSliceLeft(x: Bytes, y: Bytes, i: nat, j: nat)
    requires i <= j <= |x|
    ensures (x + y)[i..j] == x[i..j]
  {
    assert forall k :: 0 <= k < j - i ==> (x + y)[i..j][k] == x[i..j][k];
  }

  /** A slice inside the right part of a concatenation is a slice of that part. */
  lemma ConcatSliceRight(x: Bytes, y: Bytes, i: nat, j: nat)
    requires i <= j <= |y|
    ensures (x + y)[|x| + i..|x| + j] == y[i..j]
  {
    assert forall k :: 0 <= k < j - i ==> (x + y)[|x| + i..|x| + j][k] == y[i..j][k];
  }

  /** Equal encodings of the same width come from equal values. */
  lemma LeBytesInjective(x: nat, y: nat, n: nat)
    requires x < Pow256(n) && y < Pow256(n)
    requires LeBytes(x, n) == LeBytes(y, n)
    ensures x == y
  {
    assert FromLe(LeBytes(x, n)) == x;
  }

  function U16Le(x: u16): (bs: Bytes)
    ensures |bs| == 2 && FromLe(bs) == x
  {
    Pow256Widths();
    LeBytes(x, 2)
  }

  function U32Le(x: u32): (bs: Bytes)
    ensures |bs| == 4 && FromLe(bs) == x
  {
    Pow256Widths();
    LeBytes(x, 4)
  }

  function U64Le(x: u64): (bs: Bytes)
    ensures |bs| == 8 && FromLe(bs) == x
  {
    Pow256Widths();
    LeBytes(x, 8)
  }

  /** Two's-complement bit pattern of an i64, as an unsigned 64-bit value. */
  function I64Bits(x: i64): (u: u64)
    ensures x >= 0 ==> u == x
    ensures x < 0 ==> u == x + U64_MAX + 1
  {
    if x >= 0 then x else x + U64_MAX + 1
  }

  /** Reading an i64 back from its two's-complement bit pattern. */
  function I64FromBits(u: u64): (x: i64)
    ensures I64Bits(x) == u
  {
    if u <= I64_MAX then u else u - (U64_MAX + 1)
  }

  function I64Le(x: i64): (bs: Bytes)
    ensures |bs| == 8 && FromLe(bs) == I64Bits(x)
  {
    U64Le(I64Bits(x))
  }

  /** `value as u8` for an i8: the two's-complement byte. */
  function I8AsByte(x: i8): (b: u8)
    ensures x >= 0 ==> b == x
    ensures x < 0 ==> b == x + 256
  {
    if x >= 0 then x else x + 256
  }

  /** The bytes of an ASCII string literal (`b"..."`). */
  function Ascii(s: string): (bs: Bytes)
    requires forall i :: 0 <= i < |s| ==> s[i] as int <= U8_MAX
    ensures |bs| == |s|
  {
    seq(|s|, i requires 0 <= i < |s| => s[i] as int)
  }
}

=== FILE: jobs.dfy ===
/** The job marketplace.

    A human creator posts a job and escrows `buy_it_now.unwrap_or(budget)`.
    Agents bid (signed by their agent signer); a bid equal to the buy-it-now
    price assigns the job at once, otherwise the creator accepts one active bid,
    which shrinks the escrow to the budget and refunds the premium. The
    assigned agent submits work once, and the creator's approval pays exactly
    the accepted bid into the agent's vault and refunds the rest. An open job
    can be cancelled for a full refund.

    The accounts of one job — posting, escrow, submission and the bids placed
    on it — are kept together in a `JobBook`; each handler takes the book and
    the other accounts it names and returns the updated ones.
 */
module Jobs {
  import opened Ints
  import opened Errors
  import opened State
  import opened Ledger
  import opened Auth

  /** The accounts seeded by one job posting. `bids` maps each bid account's
      address (seeded by the job and the bidding agent) to its record;
      `submission` is the single submission account, once created. */
  datatype JobBook = JobBook(
    jobKey: Pubkey,
    job: JobPosting,
    escrow: JobEscrow,
    escrowLamports: u64,
    bids: map<Pubkey, JobBid>,
    submission: Option<JobSubmission>)

  /** What creation escrows: the buy-it-now price if there is one, else the
      budget. */
  function EscrowTarget(job: JobPosting): u64
  {
    job.buyItNowLamports.UnwrapOr(job.budgetLamports)
  }

  /** The lifecycle: Open -> Assigned -> Submitted -> Completed, or
      Open -> Cancelled; staying put is allowed. */
  predicate Advances(a: JobStatus, b: JobStatus)
  {
    a == b
    || (a == Open && b == Assigned)
    || (a == Assigned && b == Submitted)
    || (a == Submitted && b == Completed)
    || (a == Open && b == Cancelled)
  }

  predicate IsFinal(s: JobStatus)
  {
    s == Completed || s == Cancelled
  }

  /** What the handlers keep true of a job's accounts: the escrow record matches
      the lifecycle stage, the assigned agent holds the one accepted bid, that
      bid fits in the escrow, and the escrow account holds the recorded amount
      above its rent reserve `minBalance`. */
  predicate Consistent(b: JobBook, minBalance: u64)
  {
    && b.escrow.job == b.jobKey
    && b.escrowLamports >= minBalance + b.escrow.amount
    && (forall k | k in b.bids :: b.bids[k].job == b.jobKey && b.bids[k].bidLamports > 0)
    && (forall k | k in b.bids && b.bids[k].status == Active :: b.bids[k].bidLamports <= b.job.budgetLamports)
    && (b.job.buyItNowLamports.Some? ==> b.job.buyItNowLamports.value > b.job.budgetLamports)
    && (b.job.status == Open ==> b.escrow.amount == EscrowTarget(b.job) && b.submission.None?)
    && (b.job.status == Assigned || b.job.status == Submitted ==>
          b.job.acceptedBid in b.bids
          && b.bids[b.job.acceptedBid].status == Accepted
          && b.bids[b.job.acceptedBid].bidderAgent == b.job.assignedAgent
          && b.bids[b.job.acceptedBid].bidLamports <= b.escrow.amount)
    && (b.job.status == Assigned ==> b.submission.None?)
    && (b.job.status == Submitted ==>
          b.submission.Some? && b.submission.value.job == b.jobKey
          && b.submission.value.agent == b.job.assignedAgent)
    && (IsFinal(b.job.status) ==> b.escrow.amount == 0)
  }

  // ---------------------------------------------------------------------------
  // create_job / cancel_job (older program tree)
  // ---------------------------------------------------------------------------

  /** `create_job`. `jobTaken`/`escrowTaken` say whether the derived addresses
      already hold accounts; `escrowLamports` is what the new escrow account
      holds once created. */
  function CreateJob(creator: Wallet, jobKey: Pubkey, jobTaken: bool, escrowTaken: bool, escrowLamports: u64,
                     jobNonce: u64, metadataHash: Bytes32, budget: u64, buyItNow: Option<u64>, bump: u8,
                     now: i64): (r: Result<(JobBook, Wallet)>)
    ensures jobTaken ==> r == Err(AccountAlreadyInUse)
    ensures !jobTaken && escrowTaken ==> r == Err(AccountAlreadyInUse)
    ensures !jobTaken && !escrowTaken && budget == 0 ==> r == Err(InvalidAmount)
    ensures !jobTaken && !escrowTaken && budget > 0 && metadataHash == ZERO_BYTES32 ==> r == Err(InvalidAmount)
    ensures (!jobTaken && !escrowTaken && budget > 0 && metadataHash != ZERO_BYTES32
             && (buyItNow.None? || buyItNow.value > budget) && buyItNow.UnwrapOr(budget) > creator.lamports)
            ==> r == Err(InsufficientFunds)
    ensures r.Err? ==> r.error in {AccountAlreadyInUse, InvalidAmount, InsufficientFunds, LamportsOverflow}
    ensures r.Ok? ==> budget > 0 && metadataHash != ZERO_BYTES32
    ensures r.Ok? ==> (buyItNow.Some? ==> buyItNow.value > budget)
    ensures (!jobTaken && !escrowTaken && budget > 0 && metadataHash != ZERO_BYTES32
             && buyItNow.Some? && buyItNow.value <= budget) ==> r == Err(InvalidAmount)
    ensures r.Ok? ==> var (b, c) := r.value;
              b.jobKey == jobKey && b.bids == map[] && b.submission.None?
              && b.job == JobPosting(creator.key, jobNonce, metadataHash, budget, buyItNow, Open,
                                     DEFAULT_PUBKEY, DEFAULT_PUBKEY, now, now, bump)
              && b.escrow.job == jobKey
              && b.escrow.amount == (if buyItNow.Some? then buyItNow.value else budget)
              && b.escrowLamports == escrowLamports + b.escrow.amount
              && c.key == creator.key && c.lamports == creator.lamports - b.escrow.amount
  {
    if jobTaken then Err(AccountAlreadyInUse) else
    :- Need(!escrowTaken, AccountAlreadyInUse);
    :- Need(budget > 0, InvalidAmount);
    :- Need(metadataHash != ZERO_BYTES32, InvalidAmount);
    :- Need(buyItNow.None? || buyItNow.value > budget, InvalidAmount);
    var amount := buyItNow.UnwrapOr(budget);
    var moved :- SystemTransfer(creator.lamports, escrowLamports, amount);
    var job := JobPosting(creator.key, jobNonce, metadataHash, budget, buyItNow, Open,
                          DEFAULT_PUBKEY, DEFAULT_PUBKEY, now, now, bump);
    Ok((JobBook(jobKey, job, JobEscrow(jobKey, amount), moved.1, map[], None), creator.(lamports := moved.0)))
  }

  /** `cancel_job`: the creator takes the whole escrow back from an open job. */
  function CancelJob(b: JobBook, creator: Wallet, minBalance: u64, now: i64): (r: Result<(JobBook, Wallet)>)
    ensures creator.key != b.job.creator ==> r == Err(UnauthorizedJobCreator)
    ensures creator.key == b.job.creator && b.job.status != Open ==> r == Err(JobNotOpen)
    ensures creator.key == b.job.creator && b.job.status == Open && b.escrow.job != b.jobKey
            ==> r == Err(InvalidJobEscrow)
    ensures creator.key == b.job.creator && b.job.status == Open && b.escrow.job == b.jobKey
            && b.escrow.amount == 0
            ==> r == Err(InvalidAmount)
    ensures creator.key == b.job.creator && b.job.status == Open && b.escrow.job == b.jobKey
            && b.escrow.amount > 0 && !CoversReserve(b.escrowLamports, minBalance, b.escrow.amount)
            ==> r == Err(InsufficientJobEscrowBalance)
    ensures r.Ok? ==> b.escrow.job == b.jobKey && b.escrow.amount > 0
                      && CoversReserve(b.escrowLamports, minBalance, b.escrow.amount)
    ensures r.Ok? ==> var (b', c) := r.value;
              b' == b.(job := b.job.(status := Cancelled, updatedAt := now),
                       escrow := b.escrow.(amount := 0),
                       escrowLamports := b'.escrowLamports)
              && b'.escrowLamports == b.escrowLamports - b.escrow.amount
              && c.key == creator.key && c.lamports == creator.lamports + b.escrow.amount
  {
    if creator.key != b.job.creator then Err(UnauthorizedJobCreator) else
    :- Need(b.job.status == Open, JobNotOpen);
    :- Need(b.escrow.job == b.jobKey, InvalidJobEscrow);
    var amount := b.escrow.amount;
    :- Need(amount > 0, InvalidAmount);
    :- Need(CoversReserve(b.escrowLamports, minBalance, amount), InsufficientJobEscrowBalance);
    var credited :- CheckedAddU64(creator.lamports, amount, ArithmeticOverflow);
    var b' := b.(job := b.job.(status := Cancelled, updatedAt := now),
                 escrow := b.escrow.(amount := 0),
                 escrowLamports := b.escrowLamports - amount);
    Ok((b', creator.(lamports := credited)))
  }

  // ---------------------------------------------------------------------------
  // Bids
  // ---------------------------------------------------------------------------

  /** The payload an agent signs to bid: job, bid (u64 LE), message hash. */
  function BidPayload(jobKey: Pubkey, bidLamports: u64, messageHash: Bytes32): (p: Bytes)
    ensures |p| == 32 + 8 + 32
  {
    jobKey + U64Le(bidLamports) + messageHash
  }

  lemma BidPayloadInjective(j1: Pubkey, a1: u64, h1: Bytes32, j2: Pubkey, a2: u64, h2: Bytes32)
    requires BidPayload(j1, a1, h1) == BidPayload(j2, a2, h2)
    ensures j1 == j2 && a1 == a2 && h1 == h2
  {
    var p := BidPayload(j1, a1, h1);
    assert p[..32] == j1 && p[32..40] == U64Le(a1) && p[40..] == h1;
    var q := BidPayload(j2, a2, h2);
    assert q[..32] == j2 && q[32..40] == U64Le(a2) && q[40..] == h2;
    LeBytesInjective(a1, a2, 8);
  }

  /** Whether a bid of `bidLamports` is the buy-it-now bid. */
  predicate IsBuyItNow(job: JobPosting, bidLamports: u64)
  {
    job.buyItNowLamports == Some(bidLamports)
  }

  /** `place_job_bid`. `bidKey` is the bid address derived from the job and the
      bidding agent; the sysvar holds the signed preceding instruction. */
  function PlaceJobBid(env: Env, b: JobBook, bidKey: Pubkey, agentKey: Pubkey, agent: AgentIdentity,
                       sysvar: InstructionsSysvar, bidLamports: u64, messageHash: Bytes32,
                       now: i64): (r: Result<JobBook>)
    ensures b.job.status != Open ==> r == Err(JobNotOpen)
    ensures b.job.status == Open && bidKey in b.bids ==> r == Err(AccountAlreadyInUse)
    ensures r.Ok? ==> b.job.status == Open && bidKey !in b.bids && agent.isActive && bidLamports > 0
    ensures r.Ok? ==> IsBuyItNow(b.job, bidLamports) || bidLamports <= b.job.budgetLamports
    ensures r.Ok? ==> RequireAgentSignature(env, sysvar, agent.agentSigner, ACTION_PLACE_JOB_BID, agentKey,
                                            BidPayload(b.jobKey, bidLamports, messageHash)).Pass?
    ensures r.Ok? ==> var b' := r.value;
              b'.bids == b.bids[bidKey := JobBid(b.jobKey, agentKey, bidLamports, messageHash,
                                                 if IsBuyItNow(b.job, bidLamports) then Accepted else Active, now)]
              && b'.escrow == b.escrow && b'.escrowLamports == b.escrowLamports && b'.submission == b.submission
              && b'.jobKey == b.jobKey
    ensures r.Ok? && IsBuyItNow(b.job, bidLamports) ==>
              r.value.job == b.job.(status := Assigned, assignedAgent := agentKey, acceptedBid := bidKey, updatedAt := now)
    ensures r.Ok? && !IsBuyItNow(b.job, bidLamports) ==> r.value.job == b.job
  {
    if b.job.status != Open then Err(JobNotOpen) else
    :- Need(bidKey !in b.bids, AccountAlreadyInUse);
    :- Need(agent.isActive, AgentInactive);
    :- Need(sysvar.isInstructionsSysvar, ConstraintAddress);
    :- Need(bidLamports > 0, InvalidAmount);
    var buyItNow := IsBuyItNow(b.job, bidLamports);
    :- Need(buyItNow || bidLamports <= b.job.budgetLamports, InvalidAmount);
    :- RequireAgentSignature(env, sysvar, agent.agentSigner, ACTION_PLACE_JOB_BID, agentKey,
                             BidPayload(b.jobKey, bidLamports, messageHash));
    var bid := JobBid(b.jobKey, agentKey, bidLamports, messageHash, if buyItNow then Accepted else Active, now);
    var job := if buyItNow then b.job.(status := Assigned, assignedAgent := agentKey, acceptedBid := bidKey, updatedAt := now)
               else b.job;
    Ok(b.(job := job, bids := b.bids[bidKey := bid]))
  }

  /** `accept_job_bid`: the creator picks an active bid. Any buy-it-now premium
      above the budget goes back to the creator and the escrow record drops to
      the budget. */
  function AcceptJobBid(b: JobBook, creator: Wallet, bidKey: Pubkey, minBalance: u64,
                        now: i64): (r: Result<(JobBook, Wallet)>)
    ensures creator.key != b.job.creator ==> r == Err(UnauthorizedJobCreator)
    ensures creator.key == b.job.creator && b.job.status != Open ==> r == Err(JobNotOpen)
    ensures r.Ok? ==> bidKey in b.bids && b.bids[bidKey].job == b.jobKey && b.bids[bidKey].status == Active
    ensures r.Ok? ==> b.escrow.amount >= b.job.budgetLamports
    ensures r.Ok? ==> var (b', c) := r.value;
              var refund := b.escrow.amount - b.job.budgetLamports;
              b'.escrow == b.escrow.(amount := b.job.budgetLamports)
              && b'.escrowLamports == b.escrowLamports - refund
              && c.key == creator.key && c.lamports == creator.lamports + refund
              && b'.job == b.job.(status := Assigned, assignedAgent := b.bids[bidKey].bidderAgent,
                                  acceptedBid := bidKey, updatedAt := now)
              && b'.bids == b.bids[bidKey := b.bids[bidKey].(status := Accepted)]
              && b'.submission == b.submission && b'.jobKey == b.jobKey
    ensures r.Ok? && b.escrow.amount > b.job.budgetLamports ==>
              CoversReserve(b.escrowLamports, minBalance, b.escrow.amount)
  {
    if creator.key != b.job.creator then Err(UnauthorizedJobCreator) else
    :- Need(b.job.status == Open, JobNotOpen);
    :- Need(bidKey in b.bids, AccountNotInitialized);
    var bid := b.bids[bidKey];
    :- Need(bid.job == b.jobKey, ConstraintRaw);
    :- Need(bid.status == Active, BidNotActive);
    :- Need(b.escrow.job == b.jobKey, InvalidJobEscrow);
    var target := b.job.budgetLamports;
    :- Need(b.escrow.amount >= target, InsufficientJobEscrowBalance);
    var refunded :- RefundPremium(b.escrowLamports, b.escrow.amount, target, creator.lamports, minBalance);
    var job := b.job.(status := Assigned, assignedAgent := bid.bidderAgent, acceptedBid := bidKey, updatedAt := now);
    Ok((b.(job := job, escrow := b.escrow.(amount := target), escrowLamports := refunded.0,
           bids := b.bids[bidKey := bid.(status := Accepted)]),
        creator.(lamports := refunded.1)))
  }

  /** The premium refund inside `accept_job_bid`: nothing moves when the escrow
      already holds exactly the target; otherwise the balance guard (on the
      whole escrowed amount) must pass and the difference goes back. */
  function RefundPremium(escrowLamports: u64, escrowed: u64, target: u64, creatorLamports: u64,
                         minBalance: u64): (r: Result<(u64, u64)>)
    requires escrowed >= target
    ensures escrowed == target ==> r == Ok((escrowLamports, creatorLamports))
    ensures r.Ok? ==> r.value.0 == escrowLamports - (escrowed - target)
                      && r.value.1 == creatorLamports + (escrowed - target)
    ensures r.Ok? && escrowed > target ==> CoversReserve(escrowLamports, minBalance, escrowed)
    ensures escrowed > target && !CoversReserve(escrowLamports, minBalance, escrowed)
            ==> r == Err(InsufficientJobEscrowBalance)
  {
    if escrowed == target then Ok((escrowLamports, creatorLamports))
    else
      var refund := escrowed - target;
      :- Need(CoversReserve(escrowLamports, minBalance, escrowed), InsufficientJobEscrowBalance);
      var credited :- CheckedAddU64(creatorLamports, refund, ArithmeticOverflow);
      Ok((escrowLamports - refund, credited))
  }

  /** `withdraw_job_bid`: only the bid's status changes. The agent signs the
      bid's address as the payload. */
  function WithdrawJobBid(env: Env, b: JobBook, bidKey: Pubkey, agentKey: Pubkey, agent: AgentIdentity,
                          sysvar: InstructionsSysvar): (r: Result<JobBook>)
    ensures r.Ok? ==> bidKey in b.bids && b.bids[bidKey].job == b.jobKey
                      && b.bids[bidKey].bidderAgent == agentKey && b.bids[bidKey].status == Active
                      && agent.isActive
    ensures r.Ok? ==> RequireAgentSignature(env, sysvar, agent.agentSigner, ACTION_WITHDRAW_JOB_BID, agentKey,
                                            bidKey).Pass?
    ensures r.Ok? ==> r.value == b.(bids := b.bids[bidKey := b.bids[bidKey].(status := Withdrawn)])
    ensures (bidKey in b.bids && b.bids[bidKey].job == b.jobKey && b.bids[bidKey].bidderAgent == agentKey
             && b.bids[bidKey].status != Active) ==> r == Err(BidNotActive)
  {
    if bidKey !in b.bids then Err(AccountNotInitialized) else
    var bid := b.bids[bidKey];
    :- Need(bid.job == b.jobKey, ConstraintRaw);
    :- Need(bid.bidderAgent == agentKey, ConstraintRaw);
    :- Need(bid.status == Active, BidNotActive);
    :- Need(agent.isActive, AgentInactive);
    :- Need(sysvar.isInstructionsSysvar, ConstraintAddress);
    :- RequireAgentSignature(env, sysvar, agent.agentSigner, ACTION_WITHDRAW_JOB_BID, agentKey, bidKey);
    Ok(b.(bids := b.bids[bidKey := bid.(status := Withdrawn)]))
  }

  // ---------------------------------------------------------------------------
  // Submission and approval
  // ---------------------------------------------------------------------------

  /** The payload an agent signs to submit work: job, submission hash. */
  function SubmitPayload(jobKey: Pubkey, submissionHash: Bytes32): (p: Bytes)
    ensures |p| == 64 && p[..32] == jobKey && p[32..] == submissionHash
  {
    jobKey + submissionHash
  }

  /** `submit_job`: the assigned agent records its work, once. */
  function SubmitJob(env: Env, b: JobBook, agentKey: Pubkey, agent: AgentIdentity, sysvar: InstructionsSysvar,
                     submissionHash: Bytes32, now: i64): (r: Result<JobBook>)
    ensures b.job.status != Assigned ==> r == Err(JobNotAssigned)
    ensures b.job.status == Assigned && b.job.assignedAgent != agentKey ==> r == Err(UnauthorizedJobAgent)
    ensures b.job.status == Assigned && b.job.assignedAgent == agentKey && b.submission.Some?
            ==> r == Err(AccountAlreadyInUse)
    ensures r.Ok? ==> agent.isActive && submissionHash != ZERO_BYTES32
    ensures r.Ok? ==> RequireAgentSignature(env, sysvar, agent.agentSigner, ACTION_SUBMIT_JOB, agentKey,
                                            SubmitPayload(b.jobKey, submissionHash)).Pass?
    ensures r.Ok? ==> r.value == b.(job := b.job.(status := Submitted, updatedAt := now),
                                    submission := Some(JobSubmission(b.jobKey, agentKey, submissionHash, now)))
  {
    if b.job.status != Assigned then Err(JobNotAssigned) else
    :- Need(b.job.assignedAgent == agentKey, UnauthorizedJobAgent);
    :- Need(b.submission.None?, AccountAlreadyInUse);
    :- Need(agent.isActive, AgentInactive);
    :- Need(sysvar.isInstructionsSysvar, ConstraintAddress);
    :- Need(submissionHash != ZERO_BYTES32, InvalidAmount);
    :- RequireAgentSignature(env, sysvar, agent.agentSigner, ACTION_SUBMIT_JOB, agentKey,
                             SubmitPayload(b.jobKey, submissionHash));
    Ok(b.(job := b.job.(status := Submitted, updatedAt := now),
          submission := Some(JobSubmission(b.jobKey, agentKey, submissionHash, now))))
  }

  /** Lamport balances after an approval. */
  datatype Payout = Payout(book: JobBook, vaultLamports: u64, creator: Wallet)

  /** `approve_job_submission`: the accepted bid is paid into the submitting
      agent's vault and whatever else the escrow recorded goes back to the
      creator. */
  function ApproveJobSubmission(b: JobBook, creator: Wallet, acceptedBidKey: Pubkey, vault: AgentVault,
                                vaultLamports: u64, minBalance: u64, now: i64): (r: Result<Payout>)
    ensures creator.key != b.job.creator ==> r == Err(UnauthorizedJobCreator)
    ensures creator.key == b.job.creator && b.job.status != Submitted ==> r == Err(JobNotSubmitted)
    ensures r.Ok? ==> b.submission.Some? && b.submission.value.agent == b.job.assignedAgent
                      && vault.agent == b.submission.value.agent
    ensures r.Ok? ==> acceptedBidKey == b.job.acceptedBid && acceptedBidKey in b.bids
                      && b.bids[acceptedBidKey].status == Accepted
                      && b.bids[acceptedBidKey].bidderAgent == b.job.assignedAgent
    ensures r.Ok? ==> 0 < b.bids[acceptedBidKey].bidLamports <= b.escrow.amount
                      && CoversReserve(b.escrowLamports, minBalance, b.escrow.amount)
    ensures r.Ok? ==> var payout := b.bids[acceptedBidKey].bidLamports;
              var refund := b.escrow.amount - payout;
              r.value.vaultLamports == vaultLamports + payout
              && r.value.creator.key == creator.key && r.value.creator.lamports == creator.lamports + refund
              && r.value.book.escrowLamports == b.escrowLamports - b.escrow.amount
              && r.value.book == b.(job := b.job.(status := Completed, updatedAt := now),
                                    escrow := b.escrow.(amount := 0),
                                    escrowLamports := r.value.book.escrowLamports)
  {
    if creator.key != b.job.creator then Err(UnauthorizedJobCreator) else
    :- Need(b.job.status == Submitted, JobNotSubmitted);
    :- Need(b.escrow.job == b.jobKey, InvalidJobEscrow);
    :- Need(b.submission.Some?, AccountNotInitialized);
    var submission := b.submission.value;
    :- Need(submission.job == b.jobKey, ConstraintRaw);
    :- Need(acceptedBidKey in b.bids, AccountNotInitialized);
    var bid := b.bids[acceptedBidKey];
    :- Need(acceptedBidKey == b.job.acceptedBid, InvalidJobBid);
    :- Need(bid.job == b.jobKey, InvalidJobBid);
    :- Need(bid.bidderAgent == b.job.assignedAgent, UnauthorizedJobAgent);
    :- Need(bid.status == Accepted, BidNotAccepted);
    :- Need(vault.agent == submission.agent, InvalidAgentVault);
    var payout := bid.bidLamports;
    var escrowed := b.escrow.amount;
    :- Need(escrowed > 0, InvalidAmount);
    :- Need(payout > 0, InvalidAmount);
    :- Need(payout <= escrowed, InvalidAmount);
    :- Need(submission.agent == b.job.assignedAgent, UnauthorizedJobAgent);
    :- Need(CoversReserve(b.escrowLamports, minBalance, escrowed), InsufficientJobEscrowBalance);
    var paid :- CheckedAddU64(vaultLamports, payout, ArithmeticOverflow);
    var refund := escrowed - payout;
    var credited :- if refund > 0 then CheckedAddU64(creator.lamports, refund, ArithmeticOverflow)
                    else Ok(creator.lamports);
    var b' := b.(job := b.job.(status := Completed, updatedAt := now),
                 escrow := b.escrow.(amount := 0),
                 escrowLamports := b.escrowLamports - escrowed);
    Ok(Payout(b', paid, creator.(lamports := credited)))
  }

  // ---------------------------------------------------------------------------
  // The lifecycle as a whole
  // ---------------------------------------------------------------------------

  /** A newly created job is consistent once its escrow account holds its own
      reserve before the deposit. */
  lemma CreateEstablishes(creator: Wallet, jobKey: Pubkey, jobTaken: bool, escrowTaken: bool, escrowLamports: u64,
                          jobNonce: u64, metadataHash: Bytes32, budget: u64, buyItNow: Option<u64>, bump: u8,
                          now: i64, minBalance: u64)
    requires escrowLamports >= minBalance
    requires CreateJob(creator, jobKey, jobTaken, escrowTaken, escrowLamports, jobNonce, metadataHash,
                       budget, buyItNow, bump, now).Ok?
    ensures Consistent(CreateJob(creator, jobKey, jobTaken, escrowTaken, escrowLamports, jobNonce, metadataHash,
                                 budget, buyItNow, bump, now).value.0, minBalance)
  {
  }

  lemma CancelPreserves(b: JobBook, creator: Wallet, minBalance: u64, now: i64)
    requires Consistent(b, minBalance)
    requires CancelJob(b, creator, minBalance, now).Ok?
    ensures var b' := CancelJob(b, creator, minBalance, now).value.0;
            Consistent(b', minBalance) && Advances(b.job.status, b'.job.status)
  {
  }

  lemma PlacePreserves(env: Env, b: JobBook, bidKey: Pubkey, agentKey: Pubkey, agent: AgentIdentity,
                       sysvar: InstructionsSysvar, bidLamports: u64, messageHash: Bytes32, now: i64, minBalance: u64)
    requires Consistent(b, minBalance)
    requires PlaceJobBid(env, b, bidKey, agentKey, agent, sysvar, bidLamports, messageHash, now).Ok?
    ensures var b' := PlaceJobBid(env, b, bidKey, agentKey, agent, sysvar, bidLamports, messageHash, now).value;
            Consistent(b', minBalance) && Advances(b.job.status, b'.job.status)
  {
    var b' := PlaceJobBid(env, b, bidKey, agentKey, agent, sysvar, bidLamports, messageHash, now).value;
    var buyItNow := IsBuyItNow(b.job, bidLamports);
    // Every bid but the new one is untouched.
    forall k | k in b'.bids
      ensures b'.bids[k].job == b'.jobKey && b'.bids[k].bidLamports > 0
      ensures b'.bids[k].status == Active ==> b'.bids[k].bidLamports <= b'.job.budgetLamports
    {
      if k != bidKey {
        assert k in b.bids && b'.bids[k] == b.bids[k];
      }
    }
    if buyItNow {
      // The new bid is the accepted one, and the escrow holds the buy-it-now price.
      assert b'.bids[bidKey].status == Accepted && b'.bids[bidKey].bidderAgent == agentKey;
      assert b.escrow.amount == EscrowTarget(b.job) == bidLamports;
      assert b'.submission.None?;
    } else {
      assert b'.job == b.job;
    }
  }

  lemma AcceptPreserves(b: JobBook, creator: Wallet, bidKey: Pubkey, minBalance: u64, now: i64)
    requires Consistent(b, minBalance)
    requires AcceptJobBid(b, creator, bidKey, minBalance, now).Ok?
    ensures var b' := AcceptJobBid(b, creator, bidKey, minBalance, now).value.0;
            Consistent(b', minBalance) && Advances(b.job.status, b'.job.status)
  {
    var b' := AcceptJobBid(b, creator, bidKey, minBalance, now).value.0;
    assert forall k | k in b'.bids :: k == bidKey || (k in b.bids && b'.bids[k] == b.bids[k]);
  }

  lemma WithdrawPreserves(env: Env, b: JobBook, bidKey: Pubkey, agentKey: Pubkey, agent: AgentIdentity,
                          sysvar: InstructionsSysvar, minBalance: u64)
    requires Consistent(b, minBalance)
    requires WithdrawJobBid(env, b, bidKey, agentKey, agent, sysvar).Ok?
    ensures var b' := WithdrawJobBid(env, b, bidKey, agentKey, agent, sysvar).value;
            Consistent(b', minBalance) && b'.job == b.job
  {
    var b' := WithdrawJobBid(env, b, bidKey, agentKey, agent, sysvar).value;
    assert b'.job == b.job && b'.escrow == b.escrow && b'.submission == b.submission;
    // Every bid keeps its job and amount; only the withdrawn one changes status.
    forall k | k in b'.bids
      ensures b'.bids[k].job == b'.jobKey && b'.bids[k].bidLamports > 0
      ensures b'.bids[k].status == Active ==> b'.bids[k].bidLamports <= b'.job.budgetLamports
    {
      if k != bidKey {
        assert b'.bids[k] == b.bids[k];
      }
    }
    // The accepted bid is never the one withdrawn: only active bids are.
    if b.job.status == Assigned || b.job.status == Submitted {
      assert bidKey != b.job.acceptedBid;
      assert b'.bids[b.job.acceptedBid] == b.bids[b.job.acceptedBid];
    }
  }

  lemma SubmitPreserves(env: Env, b: JobBook, agentKey: Pubkey, agent: AgentIdentity, sysvar: InstructionsSysvar,
                        submissionHash: Bytes32, now: i64, minBalance: u64)
    requires Consistent(b, minBalance)
    requires SubmitJob(env, b, agentKey, agent, sysvar, submissionHash, now).Ok?
    ensures var b' := SubmitJob(env, b, agentKey, agent, sysvar, submissionHash, now).value;
            Consistent(b', minBalance) && Advances(b.job.status, b'.job.status)
  {
  }

  lemma ApprovePreserves(b: JobBook, creator: Wallet, acceptedBidKey: Pubkey, vault: AgentVault,
                         vaultLamports: u64, minBalance: u64, now: i64)
    requires Consistent(b, minBalance)
    requires ApproveJobSubmission(b, creator, acceptedBidKey, vault, vaultLamports, minBalance, now).Ok?
    ensures var b' := ApproveJobSubmission(b, creator, acceptedBidKey, vault, vaultLamports, minBalance, now).value.book;
            Consistent(b', minBalance) && Advances(b.job.status, b'.job.status)
  {
  }

  /** A finished job is frozen: no handler that touches the posting succeeds. */
  lemma FinalJobIsFrozen(env: Env, b: JobBook, creator: Wallet, bidKey: Pubkey, agentKey: Pubkey,
                         agent: AgentIdentity, sysvar: InstructionsSysvar, bidLamports: u64, messageHash: Bytes32,
                         vault: AgentVault, vaultLamports: u64, minBalance: u64, now: i64)
    requires IsFinal(b.job.status)
    ensures CancelJob(b, creator, minBalance, now).Err?
    ensures PlaceJobBid(env, b, bidKey, agentKey, agent, sysvar, bidLamports, messageHash, now).Err?
    ensures AcceptJobBid(b, creator, bidKey, minBalance, now).Err?
    ensures SubmitJob(env, b, agentKey, agent, sysvar, messageHash, now).Err?
    ensures ApproveJobSubmission(b, creator, bidKey, vault, vaultLamports, minBalance, now).Err?
  {
  }

  /** From a consistent book, approval cannot fail on the escrow balance or the
      payout bounds: the accepted bid always fits in what is escrowed, and the
      escrow account holds it above its reserve. */
  lemma ConsistentApprovalIsFunded(b: JobBook, minBalance: u64)
    requires Consistent(b, minBalance)
    requires b.job.status == Submitted
    ensures b.bids[b.job.acceptedBid].bidLamports <= b.escrow.amount
    ensures CoversReserve(b.escrowLamports, minBalance, b.escrow.amount)
  {
  }
}

=== FILE: ledger.dfy ===
/** Moving lamports.

    Two mechanisms appear in the handlers: a system-program transfer out of a
    wallet that signed the transaction, and a direct debit/credit of balances
    on accounts the program owns (escrows, vaults, treasuries, epochs), written
    with `checked_sub`/`checked_add`. Releases from program-owned accounts are
    guarded by `lamports >= min_balance.saturating_add(amount)`, where
    `min_balance` is the rent-exempt minimum of the account.
 */
module Ledger {
  import opened Ints
  import opened Errors

  /** A system-program transfer: the payer must cover the amount. */
  function SystemTransfer(from: u64, to: u64, amount: u64): (r: Result<(u64, u64)>)
    ensures r.Ok? <==> amount <= from && to + amount <= U64_MAX
    ensures r.Ok? ==> r.value.0 == from - amount && r.value.1 == to + amount
    ensures r.Ok? ==> r.value.0 + r.value.1 == from + to
    ensures r.Err? ==> r.error == (if amount > from then InsufficientFunds else LamportsOverflow)
  {
    if amount > from then Err(InsufficientFunds)
    else if to + amount > U64_MAX then Err(LamportsOverflow)
    else Ok((from - amount, to + amount))
  }

  /** A program-side move: `from.checked_sub(amount)` then
      `to.checked_add(amount)`, each mapped to `ArithmeticOverflow`. */
  function MoveLamports(from: u64, to: u64, amount: u64): (r: Result<(u64, u64)>)
    ensures r.Ok? <==> amount <= from && to + amount <= U64_MAX
    ensures r.Ok? ==> r.value.0 == from - amount && r.value.1 == to + amount
    ensures r.Ok? ==> r.value.0 + r.value.1 == from + to
    ensures r.Err? ==> r.error == ArithmeticOverflow
  {
    var debited :- CheckedSubU64(from, amount, ArithmeticOverflow);
    var credited :- CheckedAddU64(to, amount, ArithmeticOverflow);
    Ok((debited, credited))
  }

  /** The release guard `lamports >= min_balance.saturating_add(amount)`. */
  predicate CoversReserve(lamports: u64, minBalance: u64, amount: u64)
  {
    lamports >= SaturatingAddU64(minBalance, amount)
  }

  /** After a guarded release the account still holds its rent-exempt minimum.
      The saturating add makes the guard exact as long as the sum fits in a
      u64; past that it only admits an account holding `u64::MAX` lamports. */
  lemma ReleaseKeepsReserve(lamports: u64, minBalance: u64, amount: u64)
    requires CoversReserve(lamports, minBalance, amount)
    ensures amount <= lamports
    ensures minBalance + amount <= U64_MAX ==> lamports - amount >= minBalance
    ensures minBalance + amount > U64_MAX ==> lamports == U64_MAX
  {
  }

  /** Conversely, whenever the release would leave the reserve intact and the
      sum fits, the guard lets it through. */
  lemma ReserveGuardExact(lamports: u64, minBalance: u64, amount: u64)
    requires minBalance + amount <= U64_MAX
    ensures CoversReserve(lamports, minBalance, amount) <==> amount <= lamports && lamports - amount >= minBalance
  {
  }

  /** A guarded release from a program-owned account to a wallet: the reserve
      guard (failing with `shortfall`), then the debit and a checked credit. */
  function ReleaseAbove(from: u64, to: u64, amount: u64, minBalance: u64, shortfall: Error): (r: Result<(u64, u64)>)
    ensures r.Ok? <==> CoversReserve(from, minBalance, amount) && to + amount <= U64_MAX
    ensures !CoversReserve(from, minBalance, amount) ==> r == Err(shortfall)
    ensures CoversReserve(from, minBalance, amount) && to + amount > U64_MAX ==> r == Err(ArithmeticOverflow)
    ensures r.Ok? ==> r.value.0 == from - amount && r.value.1 == to + amount
    ensures r.Ok? && minBalance + amount <= U64_MAX ==> r.value.0 >= minBalance
  {
    if !CoversReserve(from, minBalance, amount) then Err(shortfall) else
    var credited :- CheckedAddU64(to, amount, ArithmeticOverflow);
    Ok((from - amount, credited))
  }
}

=== FILE: rewards.dfy ===
/** The Merkle reward distributor.

    An epoch escrows `total_amount` lamports (from an enclave treasury or from
    the global treasury) under a Merkle root. Anyone may claim a leaf
    `(enclave, epoch, index, agent, amount)` by presenting a proof; the reward
    goes to the agent's vault and a receipt per (epoch, index) prevents a second
    claim. After a non-zero deadline the remainder above the epoch's rent
    reserve is swept back to the funding treasury.

    The hash (`hashv`, SHA-256 over the concatenated parts) is a parameter
    `hash: Bytes -> Bytes32`; nothing here depends on which function it is.
 */
module Rewards {
  import opened Ints
  import opened Errors
  import opened State
  import opened Ledger

  const MERKLE_DOMAIN: Bytes := Ascii("WUNDERLAND_REWARDS_V1")
  const MAX_PROOF_LEN: nat := 32
  const LEAF_PREIMAGE_LEN: nat := 21 + 32 + 8 + 4 + 32 + 8

  // ---------------------------------------------------------------------------
  // Leaves
  // ---------------------------------------------------------------------------

  /** The fields a leaf commits to. */
  datatype LeafFields = LeafFields(enclave: Pubkey, epoch: u64, index: u32, agent: Pubkey, amount: u64)

  /** The bytes `compute_leaf` hashes: domain, enclave, epoch, index, agent and
      amount, integers little-endian. */
  function LeafPreimage(f: LeafFields): (bs: Bytes)
    ensures |bs| == LEAF_PREIMAGE_LEN
    ensures bs[..21] == MERKLE_DOMAIN
  {
    MERKLE_DOMAIN + f.enclave + U64Le(f.epoch) + U32Le(f.index) + f.agent + U64Le(f.amount)
  }

  /** Reading the fields back from a leaf preimage. */
  function ParseLeafPreimage(bs: Bytes): (r: Option<LeafFields>)
    ensures r.Some? ==> |bs| == LEAF_PREIMAGE_LEN && bs[..21] == MERKLE_DOMAIN
  {
    if |bs| != LEAF_PREIMAGE_LEN || bs[..21] != MERKLE_DOMAIN then None
    else
      Pow256Widths();
      var epoch := FromLe(bs[53..61]);
      var index := FromLe(bs[61..65]);
      var amount := FromLe(bs[97..105]);
      Some(LeafFields(bs[21..53], epoch, index, bs[65..97], amount))
  }

  lemma ParseLeafPreimageRoundTrip(f: LeafFields)
    ensures ParseLeafPreimage(LeafPreimage(f)) == Some(f)
  {
    // The preimage as a chain of prefixes, one field longer each time.
    var p1 := MERKLE_DOMAIN + f.enclave;
    var p2 := p1 + U64Le(f.epoch);
    var p3 := p2 + U32Le(f.index);
    var p4 := p3 + f.agent;
    var bs := p4 + U64Le(f.amount);
    assert bs == LeafPreimage(f);
    ConcatSliceRight(p4, U64Le(f.amount), 0, 8);
    assert bs[97..105] == U64Le(f.amount);
    ConcatSliceLeft(p4, U64Le(f.amount), 65, 97);
    ConcatSliceRight(p3, f.agent, 0, 32);
    assert bs[65..97] == f.agent;
    ConcatSliceLeft(p4, U64Le(f.amount), 61, 65);
    ConcatSliceLeft(p3, f.agent, 61, 65);
    ConcatSliceRight(p2, U32Le(f.index), 0, 4);
    assert bs[61..65] == U32Le(f.index);
    ConcatSliceLeft(p4, U64Le(f.amount), 53, 61);
    ConcatSliceLeft(p3, f.agent, 53, 61);
    ConcatSliceLeft(p2, U32Le(f.index), 53, 61);
    ConcatSliceRight(p1, U64Le(f.epoch), 0, 8);
    assert bs[53..61] == U64Le(f.epoch);
    ConcatSliceLeft(p4, U64Le(f.amount), 21, 53);
    ConcatSliceLeft(p3, f.agent, 21, 53);
    ConcatSliceLeft(p2, U32Le(f.index), 21, 53);
    ConcatSliceLeft(p1, U64Le(f.epoch), 21, 53);
    ConcatSliceRight(MERKLE_DOMAIN, f.enclave, 0, 32);
    assert bs[21..53] == f.enclave;
  }

  /** Distinct claims have distinct preimages: two claims can share a leaf hash
      only through a collision of the hash. */
  lemma LeafPreimageInjective(f: LeafFields, g: LeafFields)
    requires LeafPreimage(f) == LeafPreimage(g)
    ensures f == g
  {
    ParseLeafPreimageRoundTrip(f);
    ParseLeafPreimageRoundTrip(g);
  }

  function Leaf(hash: Bytes -> Bytes32, f: LeafFields): Bytes32
  {
    hash(LeafPreimage(f))
  }

  // ---------------------------------------------------------------------------
  // Proofs
  // ---------------------------------------------------------------------------

  /** One level of the fold: an even index puts the running hash on the left,
      an odd index on the right. */
  function Step(hash: Bytes -> Bytes32, computed: Bytes32, sibling: Bytes32, idx: nat): Bytes32
  {
    if idx % 2 == 0 then HashPair(hash, computed, sibling) else HashPair(hash, sibling, computed)
  }

  /** An inner node: `hashv(&[left, right])`. */
  function HashPair(hash: Bytes -> Bytes32, left: Bytes, right: Bytes): Bytes32
  {
    hash(left + right)
  }

  /** The root a proof leads to from `computed` at position `idx`. */
  function FoldProof(hash: Bytes -> Bytes32, computed: Bytes32, proof: seq<Bytes32>, idx: nat): Bytes32
    decreases |proof|
  {
    if |proof| == 0 then computed
    else FoldProof(hash, Step(hash, computed, proof[0], idx), proof[1..], idx / 2)
  }

  /** `verify_merkle_proof`, as the loop the program runs. */
  method VerifyMerkleProof(hash: Bytes -> Bytes32, root: Bytes32, leaf: Bytes32, proof: seq<Bytes32>, index: u32)
    returns (ok: bool)
    ensures ok <==> FoldProof(hash, leaf, proof, index) == root
    ensures proof == [] ==> (ok <==> leaf == root)
  {
    var computed := leaf;
    var idx: nat := index;
    var i := 0;
    while i < |proof|
      invariant 0 <= i <= |proof|
      invariant FoldProof(hash, computed, proof[i..], idx) == FoldProof(hash, leaf, proof, index)
    {
      assert proof[i..][1..] == proof[i + 1..];
      computed := Step(hash, computed, proof[i], idx);
      idx := idx / 2;
      i := i + 1;
    }
    ok := computed == root;
  }

  /** A proof binds its leaf: if two leaves fold to the same root under the same
      proof and index, they are equal or the hash has a collision. */
  lemma {:induction false} FoldProofBinding(hash: Bytes -> Bytes32, a: Bytes32, b: Bytes32, proof: seq<Bytes32>, idx: nat)
    requires FoldProof(hash, a, proof, idx) == FoldProof(hash, b, proof, idx)
    ensures a == b || exists x: Bytes, y: Bytes :: x != y && hash(x) == hash(y)
    decreases |proof|
  {
    if |proof| > 0 {
      var sa := Step(hash, a, proof[0], idx);
      var sb := Step(hash, b, proof[0], idx);
      FoldProofBinding(hash, sa, sb, proof[1..], idx / 2);
      if sa == sb && a != b {
        var x := if idx % 2 == 0 then a + proof[0] else proof[0] + a;
        var y := if idx % 2 == 0 then b + proof[0] else proof[0] + b;
        if idx % 2 == 0 {
          assert x[..32] == a && y[..32] == b;
        } else {
          assert x[32..] == a && y[32..] == b;
        }
        assert x != y && hash(x) == hash(y);
      }
    }
  }

  // ---------------------------------------------------------------------------
  // A reference tree: how an off-chain publisher builds root and proofs
  // ---------------------------------------------------------------------------

  predicate IsPow2(n: nat)
    decreases n
  {
    if n <= 1 then n == 1 else n % 2 == 0 && IsPow2(n / 2)
  }

  function Pow2(k: nat): (p: nat)
    ensures p >= 1
  {
    if k == 0 then 1 else 2 * Pow2(k - 1)
  }

  /** The next level up: adjacent pairs hashed left-to-right. */
  function PairUp(hash: Bytes -> Bytes32, level: seq<Bytes32>): (up: seq<Bytes32>)
    requires |level| % 2 == 0
    ensures |up| == |level| / 2
  {
    seq(|level| / 2, k requires 0 <= k < |level| / 2 => HashPair(hash, level[2 * k], level[2 * k + 1]))
  }

  function TreeRoot(hash: Bytes -> Bytes32, leaves: seq<Bytes32>): Bytes32
    requires IsPow2(|leaves|)
    decreases |leaves|
  {
    if |leaves| == 1 then leaves[0] else TreeRoot(hash, PairUp(hash, leaves))
  }

  /** The sibling path of leaf `i`, bottom level first. */
  function ProofFor(hash: Bytes -> Bytes32, leaves: seq<Bytes32>, i: nat): seq<Bytes32>
    requires IsPow2(|leaves|) && i < |leaves|
    decreases |leaves|
  {
    if |leaves| == 1 then []
    else [leaves[if i % 2 == 0 then i + 1 else i - 1]] + ProofFor(hash, PairUp(hash, leaves), i / 2)
  }

  /** Every leaf of the reference tree verifies against its root with its path. */
  lemma {:induction false} ProofForVerifies(hash: Bytes -> Bytes32, leaves: seq<Bytes32>, i: nat)
    requires IsPow2(|leaves|) && i < |leaves|
    ensures FoldProof(hash, leaves[i], ProofFor(hash, leaves, i), i) == TreeRoot(hash, leaves)
    decreases |leaves|
  {
    if |leaves| > 1 {
      var up := PairUp(hash, leaves);
      ProofForVerifies(hash, up, i / 2);
      var sibling := leaves[if i % 2 == 0 then i + 1 else i - 1];
      var proof := ProofFor(hash, leaves, i);
      assert proof == [sibling] + ProofFor(hash, up, i / 2);
      assert proof[1..] == ProofFor(hash, up, i / 2);
      StepPairsUp(hash, leaves, i);
    }
  }

  /** Folding a leaf with its sibling gives its parent on the next level. */
  lemma StepPairsUp(hash: Bytes -> Bytes32, leaves: seq<Bytes32>, i: nat)
    requires |leaves| % 2 == 0 && i < |leaves|
    ensures Step(hash, leaves[i], leaves[if i % 2 == 0 then i + 1 else i - 1], i) == PairUp(hash, leaves)[i / 2]
  {
    if i % 2 == 0 {
      assert 2 * (i / 2) == i;
    } else {
      assert 2 * (i / 2) + 1 == i;
    }
  }

  /** A tree of at most 2^k leaves gives paths of at most k siblings. */
  lemma {:induction false} ProofForLength(hash: Bytes -> Bytes32, leaves: seq<Bytes32>, i: nat, k: nat)
    requires IsPow2(|leaves|) && i < |leaves| && |leaves| <= Pow2(k)
    ensures |ProofFor(hash, leaves, i)| <= k
    decreases |leaves|
  {
    if |leaves| > 1 {
      ProofForLength(hash, PairUp(hash, leaves), i / 2, k - 1);
    }
  }

  // ---------------------------------------------------------------------------
  // Epoch accounts
  // ---------------------------------------------------------------------------

  /** An epoch record with its lamports and the indices whose claim receipt
      account (seeded by this epoch and the index) already exists. */
  datatype EpochAccount = EpochAccount(key: Pubkey, state: RewardsEpoch, lamports: u64, receipts: set<u32>)

  /** Every unclaimed lamport is still held above the rent reserve. */
  predicate Solvent(e: EpochAccount, minBalance: u64)
  {
    e.state.claimedAmount <= e.state.totalAmount
    && e.lamports >= minBalance + (e.state.totalAmount - e.state.claimedAmount)
  }

  /** `claim_deadline`: 0 for an unbounded window, else `now + window`
      (checked). */
  function ClaimDeadline(now: i64, window: i64): (r: Result<i64>)
    requires window >= 0
    ensures window == 0 ==> r == Ok(0)
    ensures window > 0 && now + window <= I64_MAX ==> r == Ok(now + window)
    ensures window > 0 && now + window > I64_MAX ==> r == Err(ArithmeticOverflow)
  {
    if window == 0 then Ok(0) else CheckedAddI64(now, window, ArithmeticOverflow)
  }

  /** What a publish handler records in a new epoch account: the parameters
      of the distribution, nothing claimed, not swept, no receipts. */
  predicate FreshEpoch(e: EpochAccount, epochKey: Pubkey, enclave: Pubkey, epoch: u64, merkleRoot: Bytes32,
                       amount: u64, window: i64, now: i64)
  {
    e.key == epochKey && e.receipts == {}
    && e.state.enclave == enclave && e.state.epoch == epoch && e.state.merkleRoot == merkleRoot
    && e.state.totalAmount == amount && e.state.claimedAmount == 0
    && e.state.publishedAt == now && e.state.sweptAt == 0
    && window >= 0 && ClaimDeadline(now, window) == Ok(e.state.claimDeadline)
  }

  /** Funding an epoch: the steps both publish handlers share once their
      accounts have been checked. `reserveError` is the error each names for a
      treasury that cannot cover `amount` above its reserve. */
  function OpenEpoch(epochKey: Pubkey, epochLamports: u64, enclave: Pubkey, epoch: u64, merkleRoot: Bytes32,
                     amount: u64, window: i64, now: i64, fundLamports: u64, fundMinBalance: u64,
                     reserveError: Error): (r: Result<(EpochAccount, u64)>)
    ensures amount == 0 ==> r == Err(InvalidAmount)
    ensures amount > 0 && merkleRoot == ZERO_BYTES32 ==> r == Err(InvalidMerkleRoot)
    ensures amount > 0 && merkleRoot != ZERO_BYTES32 && window < 0 ==> r == Err(InvalidAmount)
    ensures r.Ok? ==> amount > 0 && merkleRoot != ZERO_BYTES32 && window >= 0
    ensures r.Ok? ==> CoversReserve(fundLamports, fundMinBalance, amount)
    ensures r.Ok? ==> var (e, fund) := r.value;
              FreshEpoch(e, epochKey, enclave, epoch, merkleRoot, amount, window, now)
              && fund == fundLamports - amount && e.lamports == epochLamports + amount
    ensures r.Err? ==> r.error in {InvalidAmount, InvalidMerkleRoot, ArithmeticOverflow, reserveError}
  {
    if amount == 0 then Err(InvalidAmount) else
    :- Need(merkleRoot != ZERO_BYTES32, InvalidMerkleRoot);
    :- Need(window >= 0, InvalidAmount);
    var deadline :- ClaimDeadline(now, window);
    :- Need(CoversReserve(fundLamports, fundMinBalance, amount), reserveError);
    var funded :- CheckedAddU64(epochLamports, amount, ArithmeticOverflow);
    var state := RewardsEpoch(enclave, epoch, merkleRoot, amount, 0, now, deadline, 0);
    Ok((EpochAccount(epochKey, state, funded, {}), fundLamports - amount))
  }

  /** The account constraints and first check of `publish_rewards_epoch`:
      the treasury is the enclave's, the epoch address is free, the signer
      owns the enclave and the enclave is active. */
  predicate EnclaveEpochAccountsOk(enclaveKey: Pubkey, enclave: Enclave, treasury: EnclaveTreasury,
                                   epochTaken: bool, authority: Pubkey)
  {
    treasury.enclave == enclaveKey && !epochTaken && authority == enclave.creatorOwner && enclave.isActive
  }

  /** `publish_rewards_epoch`: the enclave's owner moves `amount` from the
      enclave treasury into a new epoch. `epochTaken` says whether the epoch
      address (seeded by enclave and epoch number) already holds an account;
      `epochLamports` is what the new account holds once created. */
  function PublishRewardsEpoch(enclaveKey: Pubkey, enclave: Enclave, treasury: EnclaveTreasury,
                               treasuryLamports: u64, treasuryMinBalance: u64, epochKey: Pubkey, epochTaken: bool,
                               epochLamports: u64, authority: Pubkey, epoch: u64, merkleRoot: Bytes32,
                               amount: u64, window: i64, now: i64): (r: Result<(EpochAccount, u64)>)
    ensures treasury.enclave != enclaveKey ==> r == Err(InvalidEnclaveTreasury)
    ensures treasury.enclave == enclaveKey && epochTaken ==> r == Err(AccountAlreadyInUse)
    ensures treasury.enclave == enclaveKey && !epochTaken && authority != enclave.creatorOwner
            ==> r == Err(UnauthorizedEnclaveOwner)
    ensures treasury.enclave == enclaveKey && !epochTaken && authority == enclave.creatorOwner
            && !enclave.isActive
            ==> r == Err(EnclaveInactive)
    ensures EnclaveEpochAccountsOk(enclaveKey, enclave, treasury, epochTaken, authority) && amount == 0
            ==> r == Err(InvalidAmount)
    ensures EnclaveEpochAccountsOk(enclaveKey, enclave, treasury, epochTaken, authority) && amount > 0
            && merkleRoot == ZERO_BYTES32
            ==> r == Err(InvalidMerkleRoot)
    ensures EnclaveEpochAccountsOk(enclaveKey, enclave, treasury, epochTaken, authority) && amount > 0
            && merkleRoot != ZERO_BYTES32 && window < 0
            ==> r == Err(InvalidAmount)
    ensures EnclaveEpochAccountsOk(enclaveKey, enclave, treasury, epochTaken, authority) && amount > 0
            && merkleRoot != ZERO_BYTES32 && window >= 0 && ClaimDeadline(now, window).Ok?
            && !CoversReserve(treasuryLamports, treasuryMinBalance, amount)
            ==> r == Err(InsufficientEnclaveTreasuryBalance)
    ensures r.Err? ==> r.error in {InvalidEnclaveTreasury, AccountAlreadyInUse, UnauthorizedEnclaveOwner,
                                   EnclaveInactive, InvalidAmount, InvalidMerkleRoot, ArithmeticOverflow,
                                   InsufficientEnclaveTreasuryBalance}
    ensures r.Ok? ==> !epochTaken && authority == enclave.creatorOwner && enclave.isActive
    ensures r.Ok? ==> FreshEpoch(r.value.0, epochKey, enclaveKey, epoch, merkleRoot, amount, window, now)
    ensures r.Ok? ==> CoversReserve(treasuryLamports, treasuryMinBalance, amount)
    ensures r.Ok? ==> r.value.0.state.totalAmount == amount && r.value.1 == treasuryLamports - amount
                      && r.value.0.lamports == epochLamports + amount
    ensures r.Ok? && treasuryMinBalance + amount <= U64_MAX ==> r.value.1 >= treasuryMinBalance
  {
    if treasury.enclave != enclaveKey then Err(InvalidEnclaveTreasury) else
    :- Need(!epochTaken, AccountAlreadyInUse);
    :- Need(authority == enclave.creatorOwner, UnauthorizedEnclaveOwner);
    :- Need(enclave.isActive, EnclaveInactive);
    OpenEpoch(epochKey, epochLamports, enclaveKey, epoch, merkleRoot, amount, window, now,
              treasuryLamports, treasuryMinBalance, InsufficientEnclaveTreasuryBalance)
  }

  /** The account constraints of `publish_global_rewards_epoch`: the global
      treasury and the signer both answer to the program authority, and the
      epoch address is free. */
  predicate GlobalEpochAccountsOk(config: ProgramConfig, treasury: TreasuryAccount, epochTaken: bool,
                                  authority: Pubkey)
  {
    treasury.state.authority == config.authority && !epochTaken && authority == config.authority
  }

  /** `publish_global_rewards_epoch`: the program authority funds an epoch from
      the global treasury; the epoch's enclave field is the system program id. */
  function PublishGlobalRewardsEpoch(config: ProgramConfig, treasury: TreasuryAccount, treasuryMinBalance: u64,
                                     epochKey: Pubkey, epochTaken: bool, epochLamports: u64, authority: Pubkey,
                                     epoch: u64, merkleRoot: Bytes32, amount: u64, window: i64,
                                     now: i64): (r: Result<(EpochAccount, TreasuryAccount)>)
    ensures treasury.state.authority != config.authority ==> r == Err(UnauthorizedAuthority)
    ensures treasury.state.authority == config.authority && epochTaken ==> r == Err(AccountAlreadyInUse)
    ensures !epochTaken && authority != config.authority ==> r == Err(UnauthorizedAuthority)
    ensures GlobalEpochAccountsOk(config, treasury, epochTaken, authority) && amount == 0
            ==> r == Err(InvalidAmount)
    ensures GlobalEpochAccountsOk(config, treasury, epochTaken, authority) && amount > 0
            && merkleRoot == ZERO_BYTES32
            ==> r == Err(InvalidMerkleRoot)
    ensures GlobalEpochAccountsOk(config, treasury, epochTaken, authority) && amount > 0
            && merkleRoot != ZERO_BYTES32 && window < 0
            ==> r == Err(InvalidAmount)
    ensures GlobalEpochAccountsOk(config, treasury, epochTaken, authority) && amount > 0
            && merkleRoot != ZERO_BYTES32 && window >= 0 && ClaimDeadline(now, window).Ok?
            && !CoversReserve(treasury.lamports, treasuryMinBalance, amount)
            ==> r == Err(InsufficientTreasuryBalance)
    ensures r.Err? ==> r.error in {UnauthorizedAuthority, AccountAlreadyInUse, InvalidAmount, InvalidMerkleRoot,
                                   ArithmeticOverflow, InsufficientTreasuryBalance}
    ensures r.Ok? ==> authority == config.authority
    ensures r.Ok? ==> FreshEpoch(r.value.0, epochKey, SYSTEM_PROGRAM_ID, epoch, merkleRoot, amount, window, now)
    ensures r.Ok? ==> CoversReserve(treasury.lamports, treasuryMinBalance, amount)
    ensures r.Ok? && treasuryMinBalance + amount <= U64_MAX ==> r.value.1.lamports >= treasuryMinBalance
    ensures r.Ok? ==> r.value.0.state.totalAmount == amount && r.value.0.lamports == epochLamports + amount
    ensures r.Ok? ==> r.value.1.state == treasury.state && r.value.1.lamports == treasury.lamports - amount
  {
    if treasury.state.authority != config.authority then Err(UnauthorizedAuthority) else
    :- Need(!epochTaken, AccountAlreadyInUse);
    :- Need(authority == config.authority, UnauthorizedAuthority);
    var funded :- OpenEpoch(epochKey, epochLamports, SYSTEM_PROGRAM_ID, epoch, merkleRoot, amount, window, now,
                            treasury.lamports, treasuryMinBalance, InsufficientTreasuryBalance);
    Ok((funded.0, treasury.(lamports := funded.1)))
  }

  /** A published epoch is solvent as soon as its account held its own reserve. */
  lemma PublishedEpochSolvent(epochKey: Pubkey, epochLamports: u64, enclave: Pubkey, epoch: u64, merkleRoot: Bytes32,
                              amount: u64, window: i64, now: i64, fundLamports: u64, fundMinBalance: u64,
                              reserveError: Error, minBalance: u64)
    requires epochLamports >= minBalance
    requires OpenEpoch(epochKey, epochLamports, enclave, epoch, merkleRoot, amount, window, now,
                       fundLamports, fundMinBalance, reserveError).Ok?
    ensures Solvent(OpenEpoch(epochKey, epochLamports, enclave, epoch, merkleRoot, amount, window, now,
                              fundLamports, fundMinBalance, reserveError).value.0, minBalance)
  {
  }

  /** Each publish handler leaves a solvent epoch, given that the new account
      held its own reserve before funding. */
  lemma PublishRewardsEpochSolvent(enclaveKey: Pubkey, enclave: Enclave, treasury: EnclaveTreasury,
                                   treasuryLamports: u64, treasuryMinBalance: u64, epochKey: Pubkey,
                                   epochTaken: bool, epochLamports: u64, authority: Pubkey, epoch: u64,
                                   merkleRoot: Bytes32, amount: u64, window: i64, now: i64, minBalance: u64)
    requires epochLamports >= minBalance
    requires PublishRewardsEpoch(enclaveKey, enclave, treasury, treasuryLamports, treasuryMinBalance, epochKey,
                                 epochTaken, epochLamports, authority, epoch, merkleRoot, amount, window, now).Ok?
    ensures Solvent(PublishRewardsEpoch(enclaveKey, enclave, treasury, treasuryLamports, treasuryMinBalance,
                                        epochKey, epochTaken, epochLamports, authority, epoch, merkleRoot, amount,
                                        window, now).value.0, minBalance)
  {
  }

  lemma PublishGlobalRewardsEpochSolvent(config: ProgramConfig, treasury: TreasuryAccount, treasuryMinBalance: u64,
                                         epochKey: Pubkey, epochTaken: bool, epochLamports: u64, authority: Pubkey,
                                         epoch: u64, merkleRoot: Bytes32, amount: u64, window: i64, now: i64,
                                         minBalance: u64)
    requires epochLamports >= minBalance
    requires PublishGlobalRewardsEpoch(config, treasury, treasuryMinBalance, epochKey, epochTaken, epochLamports,
                                       authority, epoch, merkleRoot, amount, window, now).Ok?
    ensures Solvent(PublishGlobalRewardsEpoch(config, treasury, treasuryMinBalance, epochKey, epochTaken,
                                              epochLamports, authority, epoch, merkleRoot, amount, window,
                                              now).value.0, minBalance)
  {
  }

  // ---------------------------------------------------------------------------
  // Claims
  // ---------------------------------------------------------------------------

  datatype Claimed = Claimed(epoch: EpochAccount, vaultLamports: u64, receipt: RewardsClaimReceipt)

  /** Whether the claim window admits a claim at `now`. */
  predicate ClaimWindowOpenAt(e: RewardsEpoch, now: i64)
  {
    !e.HasDeadline() || now <= e.claimDeadline
  }

  /** The checks of `claim_rewards` that look only at the accounts and the
      arguments: the vault belongs to the agent, the leaf is unclaimed, the
      amount is positive and the proof is at most `MAX_PROOF_LEN` long. */
  predicate ClaimShapeOk(e: EpochAccount, agentKey: Pubkey, vault: AgentVault, index: u32, amount: u64,
                         proof: seq<Bytes32>)
  {
    vault.agent == agentKey && index !in e.receipts && amount > 0 && |proof| <= MAX_PROOF_LEN
  }

  /** `claim_rewards`. `minBalance` is the epoch account's rent reserve. */
  function ClaimRewards(hash: Bytes -> Bytes32, e: EpochAccount, agentKey: Pubkey, vault: AgentVault,
                        vaultLamports: u64, index: u32, amount: u64, proof: seq<Bytes32>, now: i64,
                        minBalance: u64): (r: Result<Claimed>)
    ensures vault.agent != agentKey ==> r == Err(InvalidAgentVault)
    ensures vault.agent == agentKey && index in e.receipts ==> r == Err(AccountAlreadyInUse)
    ensures vault.agent == agentKey && index !in e.receipts && amount == 0 ==> r == Err(InvalidAmount)
    ensures vault.agent == agentKey && index !in e.receipts && amount > 0 && |proof| > MAX_PROOF_LEN
            ==> r == Err(MerkleProofTooLong)
    ensures ClaimShapeOk(e, agentKey, vault, index, amount, proof) && !ClaimWindowOpenAt(e.state, now)
            ==> r == Err(ClaimWindowClosed)
    ensures ClaimShapeOk(e, agentKey, vault, index, amount, proof) && ClaimWindowOpenAt(e.state, now)
            && e.state.IsSwept()
            ==> r == Err(RewardsEpochSwept)
    ensures ClaimShapeOk(e, agentKey, vault, index, amount, proof) && ClaimWindowOpenAt(e.state, now)
            && !e.state.IsSwept()
            && FoldProof(hash, Leaf(hash, LeafFields(e.state.enclave, e.state.epoch, index, agentKey, amount)),
                         proof, index) != e.state.merkleRoot
            ==> r == Err(InvalidMerkleProof)
    ensures ClaimShapeOk(e, agentKey, vault, index, amount, proof) && ClaimWindowOpenAt(e.state, now)
            && !e.state.IsSwept()
            && FoldProof(hash, Leaf(hash, LeafFields(e.state.enclave, e.state.epoch, index, agentKey, amount)),
                         proof, index) == e.state.merkleRoot
            && (!CoversReserve(e.lamports, minBalance, amount)
                || (e.state.claimedAmount + amount <= U64_MAX
                    && e.state.claimedAmount + amount > e.state.totalAmount))
            ==> r == Err(InsufficientRewardsBalance)
    ensures r.Err? ==> r.error in {InvalidAgentVault, AccountAlreadyInUse, InvalidAmount, MerkleProofTooLong,
                                   ClaimWindowClosed, RewardsEpochSwept, InvalidMerkleProof,
                                   InsufficientRewardsBalance, ArithmeticOverflow}
    ensures r.Ok? ==> amount > 0 && |proof| <= MAX_PROOF_LEN
    ensures r.Ok? ==> ClaimWindowOpenAt(e.state, now) && !e.state.IsSwept()
    ensures r.Ok? ==> FoldProof(hash, Leaf(hash, LeafFields(e.state.enclave, e.state.epoch, index, agentKey, amount)),
                                proof, index) == e.state.merkleRoot
    ensures r.Ok? ==> CoversReserve(e.lamports, minBalance, amount)
                      && e.state.claimedAmount + amount <= e.state.totalAmount
    ensures r.Ok? ==> var e' := r.value.epoch;
              e'.key == e.key && e'.receipts == e.receipts + {index}
              && e'.state.claimedAmount == e.state.claimedAmount + amount
              && e'.state.totalAmount == e.state.totalAmount
              && e'.state.merkleRoot == e.state.merkleRoot && e'.state.enclave == e.state.enclave
              && e'.state.claimDeadline == e.state.claimDeadline && e'.state.sweptAt == e.state.sweptAt
              && e'.lamports == e.lamports - amount
    ensures r.Ok? ==> r.value.vaultLamports == vaultLamports + amount
    ensures r.Ok? ==> r.value.receipt == RewardsClaimReceipt(e.key, index, agentKey, amount, now)
  {
    if vault.agent != agentKey then Err(InvalidAgentVault) else
    :- Need(index !in e.receipts, AccountAlreadyInUse);
    :- Need(amount > 0, InvalidAmount);
    :- Need(|proof| <= MAX_PROOF_LEN, MerkleProofTooLong);
    :- Need(ClaimWindowOpenAt(e.state, now), ClaimWindowClosed);
    :- Need(!e.state.IsSwept(), RewardsEpochSwept);
    var leaf := Leaf(hash, LeafFields(e.state.enclave, e.state.epoch, index, agentKey, amount));
    :- Need(FoldProof(hash, leaf, proof, index) == e.state.merkleRoot, InvalidMerkleProof);
    :- Need(CoversReserve(e.lamports, minBalance, amount), InsufficientRewardsBalance);
    var claimed :- CheckedAddU64(e.state.claimedAmount, amount, ArithmeticOverflow);
    :- Need(claimed <= e.state.totalAmount, InsufficientRewardsBalance);
    var credited :- CheckedAddU64(vaultLamports, amount, ArithmeticOverflow);
    var e' := e.(state := e.state.(claimedAmount := claimed), lamports := e.lamports - amount,
                 receipts := e.receipts + {index});
    Ok(Claimed(e', credited, RewardsClaimReceipt(e.key, index, agentKey, amount, now)))
  }

  /** A leaf is paid at most once: after a successful claim of `index`, every
      further claim of the same index on that epoch fails. */
  lemma ClaimOnce(hash: Bytes -> Bytes32, e: EpochAccount, agentKey: Pubkey, vault: AgentVault, vaultLamports: u64,
                  index: u32, amount: u64, proof: seq<Bytes32>, now: i64, minBalance: u64,
                  agentKey2: Pubkey, vault2: AgentVault, vaultLamports2: u64, amount2: u64,
                  proof2: seq<Bytes32>, now2: i64)
    requires ClaimRewards(hash, e, agentKey, vault, vaultLamports, index, amount, proof, now, minBalance).Ok?
    ensures var e' := ClaimRewards(hash, e, agentKey, vault, vaultLamports, index, amount, proof, now, minBalance).value.epoch;
            ClaimRewards(hash, e', agentKey2, vault2, vaultLamports2, index, amount2, proof2, now2, minBalance).Err?
  {
  }

  /** Claims keep an epoch solvent. */
  lemma {:induction false} ClaimPreservesSolvency(hash: Bytes -> Bytes32, e: EpochAccount, agentKey: Pubkey,
                                                  vault: AgentVault, vaultLamports: u64, index: u32, amount: u64,
                                                  proof: seq<Bytes32>, now: i64, minBalance: u64)
    requires Solvent(e, minBalance)
    requires ClaimRewards(hash, e, agentKey, vault, vaultLamports, index, amount, proof, now, minBalance).Ok?
    ensures Solvent(ClaimRewards(hash, e, agentKey, vault, vaultLamports, index, amount, proof, now, minBalance).value.epoch,
                    minBalance)
  {
  }

  /** In a solvent epoch the balance guard never refuses a claim the
      accounting admits: `InsufficientRewardsBalance` then only signals an
      over-claim of `total_amount`. */
  lemma SolventEpochCoversClaims(e: EpochAccount, minBalance: u64, amount: u64)
    requires Solvent(e, minBalance)
    requires e.state.claimedAmount + amount <= e.state.totalAmount
    ensures CoversReserve(e.lamports, minBalance, amount)
  {
  }

  /** An epoch published from the reference tree of an allocation pays every
      allocation: the path of leaf `i` passes the length and proof checks. */
  lemma ReferenceTreeClaimsVerify(hash: Bytes -> Bytes32, enclave: Pubkey, epoch: u64,
                                  agents: seq<Pubkey>, amounts: seq<u64>, i: nat)
    requires |agents| == |amounts| && IsPow2(|agents|) && |agents| <= U32_MAX + 1
    requires i < |agents|
    ensures var leaves := seq(|agents|, k requires 0 <= k < |agents| =>
                                Leaf(hash, LeafFields(enclave, epoch, k, agents[k], amounts[k])));
            var proof := ProofFor(hash, leaves, i);
            |proof| <= MAX_PROOF_LEN
            && FoldProof(hash, Leaf(hash, LeafFields(enclave, epoch, i, agents[i], amounts[i])), proof, i)
               == TreeRoot(hash, leaves)
  {
    Pow2Width();
    var leaves := seq(|agents|, k requires 0 <= k < |agents| =>
                        Leaf(hash, LeafFields(enclave, epoch, k, agents[k], amounts[k])));
    ProofForVerifies(hash, leaves, i);
    ProofForLength(hash, leaves, i, MAX_PROOF_LEN);
  }

  lemma {:induction false} Pow2Add(a: nat, b: nat)
    ensures Pow2(a + b) == Pow2(a) * Pow2(b)
  {
    if a > 0 {
      Pow2Add(a - 1, b);
    }
  }

  lemma Pow2Width()
    ensures Pow2(MAX_PROOF_LEN) == U32_MAX + 1
  {
    assert Pow2(4) == 16;
    Pow2Add(4, 4);
    Pow2Add(8, 8);
    Pow2Add(16, 16);
  }

  // ---------------------------------------------------------------------------
  // Sweeps
  // ---------------------------------------------------------------------------

  /** The sweep both handlers share once their accounts are checked: after a
      non-zero deadline has passed, everything above the epoch's reserve goes
      back to the funding treasury and the epoch is marked swept at `now`. */
  function SweepEpoch(e: EpochAccount, fundLamports: u64, now: i64, minBalance: u64): (r: Result<(EpochAccount, u64)>)
    ensures !e.state.HasDeadline() ==> r == Err(RewardsEpochNoDeadline)
    ensures e.state.HasDeadline() && now < e.state.claimDeadline ==> r == Err(ClaimWindowOpen)
    ensures e.state.HasDeadline() && now >= e.state.claimDeadline && e.state.IsSwept() ==> r == Err(RewardsEpochSwept)
    ensures r.Ok? ==> e.lamports >= minBalance
    ensures r.Ok? ==> var (e', fund) := r.value;
              e'.lamports == minBalance && fund == fundLamports + (e.lamports - minBalance)
              && e'.state == e.state.(sweptAt := now) && e'.key == e.key && e'.receipts == e.receipts
    ensures r.Ok? ==> r.value.0.lamports + r.value.1 == e.lamports + fundLamports
    ensures r.Err? ==> r.error in {RewardsEpochNoDeadline, ClaimWindowOpen, RewardsEpochSwept,
                                   InsufficientRewardsBalance, ArithmeticOverflow}
  {
    if !e.state.HasDeadline() then Err(RewardsEpochNoDeadline) else
    :- Need(now >= e.state.claimDeadline, ClaimWindowOpen);
    :- Need(!e.state.IsSwept(), RewardsEpochSwept);
    :- Need(e.lamports >= minBalance, InsufficientRewardsBalance);
    var sweep := e.lamports - minBalance;
    var fund :- if sweep > 0 then CheckedAddU64(fundLamports, sweep, ArithmeticOverflow) else Ok(fundLamports);
    Ok((e.(state := e.state.(sweptAt := now), lamports := minBalance), fund))
  }

  /** `sweep_unclaimed_rewards`: back to the enclave's treasury. */
  function SweepUnclaimedRewards(enclaveKey: Pubkey, treasury: EnclaveTreasury, treasuryLamports: u64,
                                 e: EpochAccount, now: i64, minBalance: u64): (r: Result<(EpochAccount, u64)>)
    ensures treasury.enclave != enclaveKey ==> r == Err(InvalidEnclaveTreasury)
    ensures treasury.enclave == enclaveKey && e.state.enclave != enclaveKey ==> r == Err(InvalidRewardsEpoch)
    ensures r.Ok? ==> r == SweepEpoch(e, treasuryLamports, now, minBalance)
  {
    if treasury.enclave != enclaveKey then Err(InvalidEnclaveTreasury) else
    :- Need(e.state.enclave == enclaveKey, InvalidRewardsEpoch);
    SweepEpoch(e, treasuryLamports, now, minBalance)
  }

  /** `sweep_unclaimed_global_rewards`: back to the global treasury, for epochs
      carrying the system-program sentinel. */
  function SweepUnclaimedGlobalRewards(config: ProgramConfig, treasury: TreasuryAccount, e: EpochAccount,
                                       now: i64, minBalance: u64): (r: Result<(EpochAccount, TreasuryAccount)>)
    ensures treasury.state.authority != config.authority ==> r == Err(UnauthorizedAuthority)
    ensures treasury.state.authority == config.authority && e.state.enclave != SYSTEM_PROGRAM_ID
            ==> r == Err(InvalidRewardsEpoch)
    ensures r.Ok? ==> var swept := SweepEpoch(e, treasury.lamports, now, minBalance);
              swept.Ok? && r.value.0 == swept.value.0
              && r.value.1 == treasury.(lamports := swept.value.1)
  {
    if treasury.state.authority != config.authority then Err(UnauthorizedAuthority) else
    :- Need(e.state.enclave == SYSTEM_PROGRAM_ID, InvalidRewardsEpoch);
    var swept :- SweepEpoch(e, treasury.lamports, now, minBalance);
    Ok((swept.0, treasury.(lamports := swept.1)))
  }

  /** A swept epoch is closed for good: no claim and no second sweep succeeds.
      This needs `now != 0`, since `swept_at == 0` is what "not swept" means. */
  lemma SweptEpochIsClosed(e: EpochAccount, fundLamports: u64, now: i64, minBalance: u64,
                           hash: Bytes -> Bytes32, agentKey: Pubkey, vault: AgentVault, vaultLamports: u64,
                           index: u32, amount: u64, proof: seq<Bytes32>, later: i64, fundLamports2: u64)
    requires now != 0
    requires SweepEpoch(e, fundLamports, now, minBalance).Ok?
    ensures var e' := SweepEpoch(e, fundLamports, now, minBalance).value.0;
            ClaimRewards(hash, e', agentKey, vault, vaultLamports, index, amount, proof, later, minBalance).Err?
    ensures var e' := SweepEpoch(e, fundLamports, now, minBalance).value.0;
            SweepEpoch(e', fundLamports2, later, minBalance).Err?
  {
  }
}

=== FILE: social.dfy ===
/** Agent-authored social entries: enclaves (topic spaces), posts, comments and
    reputation votes.

    Each handler is authorised by an ed25519 signature of the agent's signer
    over a domain-separated message whose payload is specific to the action;
    the payload encoders here are injective, so a signature binds every field
    the handler then writes.
 */
module Social {
  import opened Ints
  import opened Errors
  import opened State
  import opened Auth

  // ---------------------------------------------------------------------------
  // Payloads
  // ---------------------------------------------------------------------------

  const ENTRY_KIND_POST: u8 := 0
  const ENTRY_KIND_COMMENT: u8 := 1

  /** Both entry payloads have the same length. */
  const ENTRY_PAYLOAD_LEN: nat := 32 + 1 + 32 + 4 + 32 + 32

  /** enclave, kind 0, an all-zero reply-to, entry index (u32 LE), content hash,
      manifest hash. */
  function PostPayload(enclave: Pubkey, index: u32, content: Bytes32, manifest: Bytes32): (p: Bytes)
    ensures |p| == ENTRY_PAYLOAD_LEN
  {
    enclave + [ENTRY_KIND_POST] + DEFAULT_PUBKEY + U32Le(index) + content + manifest
  }

  /** enclave, parent entry, kind 1, entry index (u32 LE), content hash,
      manifest hash. */
  function CommentPayload(enclave: Pubkey, parent: Pubkey, index: u32, content: Bytes32, manifest: Bytes32): (p: Bytes)
    ensures |p| == ENTRY_PAYLOAD_LEN
  {
    enclave + parent + [ENTRY_KIND_COMMENT] + U32Le(index) + content + manifest
  }

  lemma PostPayloadInjective(e1: Pubkey, i1: u32, c1: Bytes32, m1: Bytes32,
                             e2: Pubkey, i2: u32, c2: Bytes32, m2: Bytes32)
    requires PostPayload(e1, i1, c1, m1) == PostPayload(e2, i2, c2, m2)
    ensures e1 == e2 && i1 == i2 && c1 == c2 && m1 == m2
  {
    var p, q := PostPayload(e1, i1, c1, m1), PostPayload(e2, i2, c2, m2);
    assert p[..32] == e1 && p[65..69] == U32Le(i1) && p[69..101] == c1 && p[101..] == m1;
    assert q[..32] == e2 && q[65..69] == U32Le(i2) && q[69..101] == c2 && q[101..] == m2;
    Pow256Widths();
    LeBytesInjective(i1, i2, 4);
  }

  lemma CommentPayloadInjective(e1: Pubkey, r1: Pubkey, i1: u32, c1: Bytes32, m1: Bytes32,
                                e2: Pubkey, r2: Pubkey, i2: u32, c2: Bytes32, m2: Bytes32)
    requires CommentPayload(e1, r1, i1, c1, m1) == CommentPayload(e2, r2, i2, c2, m2)
    ensures e1 == e2 && r1 == r2 && i1 == i2 && c1 == c2 && m1 == m2
  {
    var p, q := CommentPayload(e1, r1, i1, c1, m1), CommentPayload(e2, r2, i2, c2, m2);
    assert p[..32] == e1 && p[32..64] == r1 && p[65..69] == U32Le(i1) && p[69..101] == c1 && p[101..] == m1;
    assert q[..32] == e2 && q[32..64] == r2 && q[65..69] == U32Le(i2) && q[69..101] == c2 && q[101..] == m2;
    Pow256Widths();
    LeBytesInjective(i1, i2, 4);
  }

  /** A post payload and a comment payload never coincide: byte 64 is the last
      byte of the zero reply-to in one and the kind byte 1 in the other. */
  lemma PostAndCommentPayloadsDiffer(e1: Pubkey, i1: u32, c1: Bytes32, m1: Bytes32,
                                     e2: Pubkey, r2: Pubkey, i2: u32, c2: Bytes32, m2: Bytes32)
    ensures PostPayload(e1, i1, c1, m1) != CommentPayload(e2, r2, i2, c2, m2)
  {
    assert PostPayload(e1, i1, c1, m1)[64] == 0;
    assert CommentPayload(e2, r2, i2, c2, m2)[64] == 1;
  }

  /** post, then the vote value as its two's-complement byte. */
  function VotePayload(post: Pubkey, value: i8): (p: Bytes)
    ensures |p| == 33
  {
    post + [I8AsByte(value)]
  }

  lemma VotePayloadInjective(p1: Pubkey, v1: i8, p2: Pubkey, v2: i8)
    requires VotePayload(p1, v1) == VotePayload(p2, v2)
    ensures p1 == p2 && v1 == v2
  {
    assert VotePayload(p1, v1)[..32] == p1 && VotePayload(p2, v2)[..32] == p2;
    assert VotePayload(p1, v1)[32] == I8AsByte(v1) && VotePayload(p2, v2)[32] == I8AsByte(v2);
  }

  // ---------------------------------------------------------------------------
  // create_enclave
  // ---------------------------------------------------------------------------

  datatype EnclaveCreation = EnclaveCreation(config: ProgramConfig, enclave: Enclave, treasury: EnclaveTreasury)

  /** The payload signed to create an enclave, name hash then metadata hash,
      determines both hashes. */
  lemma EnclavePayloadInjective(n1: Bytes32, m1: Bytes32, n2: Bytes32, m2: Bytes32)
    requires n1 + m1 == n2 + m2
    ensures n1 == n2 && m1 == m2
  {
    assert (n1 + m1)[..32] == n1 && (n2 + m2)[..32] == n2;
    assert (n1 + m1)[32..] == m1 && (n2 + m2)[32..] == m2;
  }

  /** `create_enclave`. `enclaveTaken`/`treasuryTaken` say whether the derived
      enclave and enclave-treasury addresses already hold accounts. The agent
      signs the name hash followed by the metadata hash. */
  function CreateEnclave(env: Env, config: ProgramConfig, creatorKey: Pubkey, creator: AgentIdentity,
                         enclaveKey: Pubkey, enclaveTaken: bool, treasuryTaken: bool, sysvar: InstructionsSysvar,
                         nameHash: Bytes32, metadataHash: Bytes32, bump: u8, treasuryBump: u8,
                         now: i64): (r: Result<EnclaveCreation>)
    ensures !creator.isActive ==> r == Err(AgentInactive)
    ensures creator.isActive && enclaveTaken ==> r == Err(AccountAlreadyInUse)
    ensures r.Ok? ==> nameHash != ZERO_BYTES32 && !treasuryTaken
    ensures r.Ok? ==> RequireAgentSignature(env, sysvar, creator.agentSigner, ACTION_CREATE_ENCLAVE, creatorKey,
                                            nameHash + metadataHash).Pass?
    ensures r.Ok? ==> r.value.enclave == Enclave(nameHash, creatorKey, creator.owner, metadataHash, now, true, bump)
                      && r.value.treasury == EnclaveTreasury(enclaveKey, treasuryBump)
                      && r.value.config.authority == config.authority
                      && r.value.config.agentCount == config.agentCount
                      && r.value.config.enclaveCount == config.enclaveCount + 1
  {
    if !creator.isActive then Err(AgentInactive) else
    :- Need(!enclaveTaken, AccountAlreadyInUse);
    :- Need(!treasuryTaken, AccountAlreadyInUse);
    :- Need(sysvar.isInstructionsSysvar, ConstraintAddress);
    :- Need(nameHash != ZERO_BYTES32, EmptyEnclaveNameHash);
    :- RequireAgentSignature(env, sysvar, creator.agentSigner, ACTION_CREATE_ENCLAVE, creatorKey,
                             nameHash + metadataHash);
    var count :- CheckedAddU32(config.enclaveCount, 1, ArithmeticOverflow);
    Ok(EnclaveCreation(config.(enclaveCount := count),
                       Enclave(nameHash, creatorKey, creator.owner, metadataHash, now, true, bump),
                       EnclaveTreasury(enclaveKey, treasuryBump)))
  }

  // ---------------------------------------------------------------------------
  // anchor_post / anchor_comment
  // ---------------------------------------------------------------------------

  /** A fresh entry as both handlers write it. */
  function NewEntry(agentKey: Pubkey, enclaveKey: Pubkey, kind: EntryKind, replyTo: Pubkey, index: u32,
                    content: Bytes32, manifest: Bytes32, now: i64, slot: u64): (e: PostAnchor)
    ensures e.upvotes == 0 && e.downvotes == 0 && e.commentCount == 0
  {
    PostAnchor(agentKey, enclaveKey, kind, replyTo, index, content, manifest, 0, 0, 0, now, slot)
  }

  /** The entry counter after one more entry; only the counter and
      `updated_at` change. */
  function CountEntry(agent: AgentIdentity, now: i64): (r: Result<AgentIdentity>)
    ensures r.Ok? <==> agent.totalEntries < U32_MAX
    ensures r.Err? ==> r.error == PostCountOverflow
    ensures r.Ok? ==> r.value.totalEntries == agent.totalEntries + 1
                      && r.value.(totalEntries := agent.totalEntries, updatedAt := agent.updatedAt) == agent
  {
    var n :- CheckedAddU32(agent.totalEntries, 1, PostCountOverflow);
    Ok(agent.(totalEntries := n, updatedAt := now))
  }

  /** `anchor_post`. `postTaken` says whether the entry address derived from
      the agent and its current entry counter already holds an account. */
  function AnchorPost(env: Env, agentKey: Pubkey, agent: AgentIdentity, enclaveKey: Pubkey, enclave: Enclave,
                      postTaken: bool, sysvar: InstructionsSysvar, content: Bytes32, manifest: Bytes32,
                      now: i64, slot: u64): (r: Result<(PostAnchor, AgentIdentity)>)
    ensures postTaken ==> r == Err(AccountAlreadyInUse)
    ensures r.Ok? ==> agent.isActive && enclave.isActive
    ensures !postTaken && (!agent.isActive || !enclave.isActive) ==> r.Err?
    ensures r.Ok? ==> RequireAgentSignature(env, sysvar, agent.agentSigner, ACTION_ANCHOR_POST, agentKey,
                                            PostPayload(enclaveKey, agent.totalEntries, content, manifest)).Pass?
    ensures r.Ok? ==> var (post, agent') := r.value;
              post == NewEntry(agentKey, enclaveKey, Post, DEFAULT_PUBKEY, agent.totalEntries, content, manifest, now, slot)
              && agent'.totalEntries == agent.totalEntries + 1
              && agent'.(totalEntries := agent.totalEntries, updatedAt := agent.updatedAt) == agent
  {
    if postTaken then Err(AccountAlreadyInUse) else
    :- Need(agent.isActive, AgentInactive);
    :- Need(enclave.isActive, EnclaveInactive);
    :- Need(sysvar.isInstructionsSysvar, ConstraintAddress);
    var index := agent.totalEntries;
    :- RequireAgentSignature(env, sysvar, agent.agentSigner, ACTION_ANCHOR_POST, agentKey,
                             PostPayload(enclaveKey, index, content, manifest));
    var counted :- CountEntry(agent, now);
    Ok((NewEntry(agentKey, enclaveKey, Post, DEFAULT_PUBKEY, index, content, manifest, now, slot), counted))
  }

  datatype CommentResult = CommentResult(comment: PostAnchor, parent: PostAnchor, agent: AgentIdentity)

  /** `anchor_comment`: like a post, but replying to an entry of the same
      enclave, whose comment counter rises. */
  function AnchorComment(env: Env, agentKey: Pubkey, agent: AgentIdentity, enclaveKey: Pubkey, enclave: Enclave,
                         parentKey: Pubkey, parent: PostAnchor, commentTaken: bool, sysvar: InstructionsSysvar,
                         content: Bytes32, manifest: Bytes32, now: i64, slot: u64): (r: Result<CommentResult>)
    ensures commentTaken ==> r == Err(AccountAlreadyInUse)
    ensures !commentTaken && agent.isActive && enclave.isActive && parent.enclave != enclaveKey
            ==> r == Err(InvalidReplyTarget)
    ensures r.Ok? ==> agent.isActive && enclave.isActive && parent.enclave == enclaveKey
    ensures r.Ok? ==> RequireAgentSignature(env, sysvar, agent.agentSigner, ACTION_ANCHOR_COMMENT, agentKey,
                                            CommentPayload(enclaveKey, parentKey, agent.totalEntries, content,
                                                           manifest)).Pass?
    ensures r.Ok? ==> r.value.comment == NewEntry(agentKey, enclaveKey, Comment, parentKey, agent.totalEntries,
                                                  content, manifest, now, slot)
    ensures r.Ok? ==> r.value.parent.commentCount == parent.commentCount + 1
                      && r.value.parent.(commentCount := parent.commentCount) == parent
    ensures r.Ok? ==> r.value.agent.totalEntries == agent.totalEntries + 1
                      && r.value.agent.(totalEntries := agent.totalEntries, updatedAt := agent.updatedAt) == agent
  {
    if commentTaken then Err(AccountAlreadyInUse) else
    :- Need(agent.isActive, AgentInactive);
    :- Need(enclave.isActive, EnclaveInactive);
    :- Need(parent.enclave == enclaveKey, InvalidReplyTarget);
    :- Need(sysvar.isInstructionsSysvar, ConstraintAddress);
    var index := agent.totalEntries;
    :- RequireAgentSignature(env, sysvar, agent.agentSigner, ACTION_ANCHOR_COMMENT, agentKey,
                             CommentPayload(enclaveKey, parentKey, index, content, manifest));
    var replies :- CheckedAddU32(parent.commentCount, 1, VoteCountOverflow);
    var counted :- CountEntry(agent, now);
    Ok(CommentResult(NewEntry(agentKey, enclaveKey, Comment, parentKey, index, content, manifest, now, slot),
                     parent.(commentCount := replies), counted))
  }

  /** Entries by one agent are numbered consecutively: the entry anchored after
      a post carries the next index, whether it is a post or a comment. */
  lemma EntryIndicesAdvance(env: Env, agentKey: Pubkey, agent: AgentIdentity, enclaveKey: Pubkey, enclave: Enclave,
                            sysvar: InstructionsSysvar, c1: Bytes32, m1: Bytes32, now: i64, slot: u64,
                            parentKey: Pubkey, parent: PostAnchor, sysvar2: InstructionsSysvar,
                            c2: Bytes32, m2: Bytes32, now2: i64, slot2: u64)
    requires AnchorPost(env, agentKey, agent, enclaveKey, enclave, false, sysvar, c1, m1, now, slot).Ok?
    ensures var (first, agent') := AnchorPost(env, agentKey, agent, enclaveKey, enclave, false, sysvar, c1, m1, now, slot).value;
            var next := AnchorPost(env, agentKey, agent', enclaveKey, enclave, false, sysvar2, c2, m2, now2, slot2);
            var reply := AnchorComment(env, agentKey, agent', enclaveKey, enclave, parentKey, parent, false, sysvar2,
                                       c2, m2, now2, slot2);
            (next.Ok? ==> next.value.0.postIndex == first.postIndex + 1)
            && (reply.Ok? ==> reply.value.comment.postIndex == first.postIndex + 1)
  {
  }

  // ---------------------------------------------------------------------------
  // cast_vote
  // ---------------------------------------------------------------------------

  datatype VoteResult = VoteResult(vote: ReputationVote, post: PostAnchor, author: AgentIdentity)

  /** `cast_vote`. `voteTaken` says whether the vote address derived from the
      entry and the voter already holds an account (one vote per pair). */
  function CastVote(env: Env, voteTaken: bool, postKey: Pubkey, post: PostAnchor, authorKey: Pubkey,
                    author: AgentIdentity, voterKey: Pubkey, voter: AgentIdentity, sysvar: InstructionsSysvar,
                    value: i8, now: i64): (r: Result<VoteResult>)
    ensures voteTaken ==> r == Err(AccountAlreadyInUse)
    ensures r.Ok? ==> authorKey == post.agent && voter.isActive && voterKey != authorKey
    ensures r.Ok? ==> value == 1 || value == -1
    ensures (!voteTaken && authorKey == post.agent && voter.isActive && sysvar.isInstructionsSysvar
             && value != 1 && value != -1) ==> r == Err(InvalidVoteValue)
    ensures (!voteTaken && authorKey == post.agent && voter.isActive && sysvar.isInstructionsSysvar
             && (value == 1 || value == -1) && voterKey == authorKey) ==> r == Err(SelfVote)
    ensures r.Ok? ==> RequireAgentSignature(env, sysvar, voter.agentSigner, ACTION_CAST_VOTE, voterKey,
                                            VotePayload(postKey, value)).Pass?
    ensures r.Ok? ==> r.value.vote == ReputationVote(voterKey, postKey, value, now)
    ensures r.Ok? ==> r.value.post.upvotes - r.value.post.downvotes == post.upvotes - post.downvotes + value
                      && r.value.post.upvotes + r.value.post.downvotes == post.upvotes + post.downvotes + 1
                      && r.value.post.(upvotes := post.upvotes, downvotes := post.downvotes) == post
    ensures r.Ok? ==> r.value.author.reputationScore == author.reputationScore + value
                      && r.value.author.(reputationScore := author.reputationScore, updatedAt := author.updatedAt) == author
  {
    if voteTaken then Err(AccountAlreadyInUse) else
    :- Need(authorKey == post.agent, ConstraintRaw);
    :- Need(voter.isActive, AgentInactive);
    :- Need(sysvar.isInstructionsSysvar, ConstraintAddress);
    :- Need(value == 1 || value == -1, InvalidVoteValue);
    :- Need(voterKey != authorKey, SelfVote);
    :- RequireAgentSignature(env, sysvar, voter.agentSigner, ACTION_CAST_VOTE, voterKey, VotePayload(postKey, value));
    var post' :- Tally(post, value);
    var score :- CheckedAddI64(author.reputationScore, value, ReputationOverflow);
    Ok(VoteResult(ReputationVote(voterKey, postKey, value, now), post', author.(reputationScore := score, updatedAt := now)))
  }

  /** The counter a vote raises: upvotes for +1, downvotes for -1. */
  function Tally(post: PostAnchor, value: i8): (r: Result<PostAnchor>)
    requires value == 1 || value == -1
    ensures value == 1 ==> (r.Ok? <==> post.upvotes < U32_MAX)
    ensures value == -1 ==> (r.Ok? <==> post.downvotes < U32_MAX)
    ensures r.Err? ==> r.error == VoteCountOverflow
    ensures r.Ok? && value == 1 ==> r.value.upvotes == post.upvotes + 1 && r.value.downvotes == post.downvotes
    ensures r.Ok? && value == -1 ==> r.value.downvotes == post.downvotes + 1 && r.value.upvotes == post.upvotes
    ensures r.Ok? ==> r.value.(upvotes := post.upvotes, downvotes := post.downvotes) == post
  {
    if value == 1 then
      var n :- CheckedAddU32(post.upvotes, 1, VoteCountOverflow);
      Ok(post.(upvotes := n))
    else
      var n :- CheckedAddU32(post.downvotes, 1, VoteCountOverflow);
      Ok(post.(downvotes := n))
  }
}

=== FILE: state.dfy ===
/** Account records of the program, their enums and discriminants, the policy
    constants, and the byte layouts the handlers rely on: the Anchor account
    encoding of `Enclave` and `EnclaveTreasury` (read back by tip submission and
    settlement) and the space reserved for `JobPosting`.

    Bump seeds are kept only where they are part of a modelled byte layout.
 */
module State {
  import opened Ints
  import opened Errors

  // ---------------------------------------------------------------------------
  // Keys, hashes and raw accounts
  // ---------------------------------------------------------------------------

  const ZERO_BYTES32: Bytes := [
    0, 0, 0, 0, 0, 0, 0, 0, 0, 0, 0, 0, 0, 0, 0, 0,
    0, 0, 0, 0, 0, 0, 0, 0, 0, 0, 0, 0, 0, 0, 0, 0]

  /** A 32-byte value: a public key or a SHA-256 digest. */
  type Bytes32 = b: Bytes | |b| == 32 witness ZERO_BYTES32

  type Pubkey = Bytes32

  /** `Pubkey::default()`; also the system program's id, which the program uses
      as the "no enclave" sentinel. */
  const DEFAULT_PUBKEY: Pubkey := ZERO_BYTES32
  const SYSTEM_PROGRAM_ID: Pubkey := DEFAULT_PUBKEY

  /** Anchor's 8-byte account discriminator. */
  type Discriminator = d: Bytes | |d| == 8 witness [0, 0, 0, 0, 0, 0, 0, 0]

  /** An account as a handler sees it before deserialising it. */
  datatype AccountInfo = AccountInfo(key: Pubkey, owner: Pubkey, lamports: u64, data: Bytes)

  /** Fixed identities a handler relies on: this program's id, the ed25519
      precompile's id, the discriminators Anchor derives for the account types
      some handlers read from raw data, and the address derivation
      `find_program_address([b"enclave_treasury", enclave], program_id)`. */
  datatype Env = Env(
    programId: Pubkey,
    ed25519ProgramId: Pubkey,
    enclaveTag: Discriminator,
    treasuryTag: Discriminator,
    enclaveTreasuryAddress: Pubkey -> Pubkey)

  /** A wallet or other system account: only its key and balance matter. */
  datatype Wallet = Wallet(key: Pubkey, lamports: u64)

  // ---------------------------------------------------------------------------
  // Policy constants
  // ---------------------------------------------------------------------------

  const TIP_MIN_AMOUNT: u64 := 15_000_000
  const MAX_TIPS_PER_MINUTE: u16 := 3
  const MAX_TIPS_PER_HOUR: u16 := 20
  const MINUTE_WINDOW: i64 := 60
  const HOUR_WINDOW: i64 := 3600

  const ENCLAVE_LEN: nat := 8 + 32 + 32 + 32 + 32 + 8 + 1 + 1
  const ENCLAVE_TREASURY_LEN: nat := 8 + 32 + 1
  const JOB_POSTING_LEN: nat := 8 + 32 + 8 + 32 + 8 + 9 + 1 + 32 + 32 + 8 + 8 + 1

  // ---------------------------------------------------------------------------
  // Enums
  // ---------------------------------------------------------------------------

  datatype EntryKind = Post | Comment
  datatype TipStatus = Pending | Settled | Refunded
  datatype TipSourceType = Text | Url
  datatype TipPriority = Low | Normal | High | Breaking
  datatype JobStatus = Open | Assigned | Submitted | Completed | Cancelled
  datatype JobBidStatus = Active | Withdrawn | Accepted | Rejected

  /** The `#[repr(u8)]` discriminant of a job status. */
  function JobStatusCode(s: JobStatus): u8
  {
    match s
    case Open => 0
    case Assigned => 1
    case Submitted => 2
    case Completed => 3
    case Cancelled => 4
  }

  /** Borsh decoding of a job status byte: defined exactly on the discriminants. */
  function JobStatusFromCode(c: u8): (r: Option<JobStatus>)
    ensures r.Some? <==> c <= 4
    ensures r.Some? ==> JobStatusCode(r.value) == c
    ensures forall s: JobStatus :: JobStatusCode(s) == c ==> r == Some(s)
  {
    if c == 0 then Some(Open)
    else if c == 1 then Some(Assigned)
    else if c == 2 then Some(Submitted)
    else if c == 3 then Some(Completed)
    else if c == 4 then Some(Cancelled)
    else None
  }

  function JobBidStatusCode(s: JobBidStatus): u8
  {
    match s
    case Active => 0
    case Withdrawn => 1
    case Accepted => 2
    case Rejected => 3
  }

  function JobBidStatusFromCode(c: u8): (r: Option<JobBidStatus>)
    ensures r.Some? <==> c <= 3
    ensures r.Some? ==> JobBidStatusCode(r.value) == c
    ensures forall s: JobBidStatus :: JobBidStatusCode(s) == c ==> r == Some(s)
  {
    if c == 0 then Some(Active)
    else if c == 1 then Some(Withdrawn)
    else if c == 2 then Some(Accepted)
    else if c == 3 then Some(Rejected)
    else None
  }

  /** Position of a priority in the order Low < Normal < High < Breaking. */
  function PriorityRank(p: TipPriority): nat
  {
    match p
    case Low => 0
    case Normal => 1
    case High => 2
    case Breaking => 3
  }

  /** `TipAnchor::derive_priority`: the priority band of a tip amount. */
  function DerivePriority(amount: u64): (p: TipPriority)
    ensures p == Low <==> amount < 25_000_000
    ensures p == Normal <==> 25_000_000 <= amount < 35_000_000
    ensures p == High <==> 35_000_000 <= amount < 45_000_000
    ensures p == Breaking <==> 45_000_000 <= amount
  {
    if amount < 15_000_000 then Low
    else if amount < 25_000_000 then Low
    else if amount < 35_000_000 then Normal
    else if amount < 45_000_000 then High
    else Breaking
  }

  /** A larger tip never gets a lower priority. */
  lemma DerivePriorityMonotone(a: u64, b: u64)
    requires a <= b
    ensures PriorityRank(DerivePriority(a)) <= PriorityRank(DerivePriority(b))
  {
  }

  // ---------------------------------------------------------------------------
  // Account records
  // ---------------------------------------------------------------------------

  datatype ProgramConfig = ProgramConfig(authority: Pubkey, agentCount: u32, enclaveCount: u32)

  /** The six HEXACO personality scores an agent carries (`[u16; 6]`). */
  type HexacoTraits = t: seq<u16> | |t| == 6 witness [0, 0, 0, 0, 0, 0]

  datatype AgentIdentity = AgentIdentity(
    owner: Pubkey,
    agentId: Bytes32,
    agentSigner: Pubkey,
    displayName: Bytes32,
    hexacoTraits: HexacoTraits,
    citizenLevel: u8,
    xp: u64,
    totalEntries: u32,
    reputationScore: i64,
    metadataHash: Bytes32,
    createdAt: i64,
    updatedAt: i64,
    isActive: bool)

  datatype AgentVault = AgentVault(agent: Pubkey)

  datatype PostAnchor = PostAnchor(
    agent: Pubkey,
    enclave: Pubkey,
    kind: EntryKind,
    replyTo: Pubkey,
    postIndex: u32,
    contentHash: Bytes32,
    manifestHash: Bytes32,
    upvotes: u32,
    downvotes: u32,
    commentCount: u32,
    timestamp: i64,
    createdSlot: u64)

  datatype ReputationVote = ReputationVote(voterAgent: Pubkey, post: Pubkey, value: i8, timestamp: i64)

  datatype Enclave = Enclave(
    nameHash: Bytes32,
    creatorAgent: Pubkey,
    creatorOwner: Pubkey,
    metadataHash: Bytes32,
    createdAt: i64,
    isActive: bool,
    bump: u8)

  datatype EnclaveTreasury = EnclaveTreasury(enclave: Pubkey, bump: u8)

  /** A Merkle-claim distribution. `claimDeadline == 0` means no deadline and
      `sweptAt == 0` means not yet swept. */
  datatype RewardsEpoch = RewardsEpoch(
    enclave: Pubkey,
    epoch: u64,
    merkleRoot: Bytes32,
    totalAmount: u64,
    claimedAmount: u64,
    publishedAt: i64,
    claimDeadline: i64,
    sweptAt: i64)
  {
    predicate HasDeadline() { claimDeadline != 0 }
    predicate IsSwept() { sweptAt != 0 }
  }

  datatype RewardsClaimReceipt = RewardsClaimReceipt(
    rewardsEpoch: Pubkey, index: u32, agent: Pubkey, amount: u64, claimedAt: i64)

  datatype TipAnchor = TipAnchor(
    tipper: Pubkey,
    contentHash: Bytes32,
    amount: u64,
    priority: TipPriority,
    sourceType: TipSourceType,
    targetEnclave: Pubkey,
    tipNonce: u64,
    createdAt: i64,
    status: TipStatus)

  datatype TipEscrow = TipEscrow(tip: Pubkey, amount: u64)

  datatype TipperRateLimit = TipperRateLimit(
    tipper: Pubkey,
    tipsThisMinute: u16,
    tipsThisHour: u16,
    minuteResetAt: i64,
    hourResetAt: i64)

  /** The zero-initialised record `init_if_needed` hands over for a new tipper. */
  const FRESH_RATE_LIMIT: TipperRateLimit := TipperRateLimit(DEFAULT_PUBKEY, 0, 0, 0, 0)

  datatype GlobalTreasury = GlobalTreasury(authority: Pubkey, totalCollected: u64)

  /** The global treasury record together with the lamports its account holds. */
  datatype TreasuryAccount = TreasuryAccount(state: GlobalTreasury, lamports: u64)

  datatype JobPosting = JobPosting(
    creator: Pubkey,
    jobNonce: u64,
    metadataHash: Bytes32,
    budgetLamports: u64,
    buyItNowLamports: Option<u64>,
    status: JobStatus,
    assignedAgent: Pubkey,
    acceptedBid: Pubkey,
    createdAt: i64,
    updatedAt: i64,
    bump: u8)

  datatype JobEscrow = JobEscrow(job: Pubkey, amount: u64)

  datatype JobBid = JobBid(
    job: Pubkey,
    bidderAgent: Pubkey,
    bidLamports: u64,
    messageHash: Bytes32,
    status: JobBidStatus,
    createdAt: i64)

  datatype JobSubmission = JobSubmission(job: Pubkey, agent: Pubkey, submissionHash: Bytes32, createdAt: i64)

  datatype EconomicsConfig = EconomicsConfig(
    authority: Pubkey,
    agentMintFeeLamports: u64,
    maxAgentsPerWallet: u16,
    recoveryTimelockSeconds: i64)

  datatype OwnerAgentCounter = OwnerAgentCounter(owner: Pubkey, mintedCount: u16)

  datatype AgentSignerRecovery = AgentSignerRecovery(
    agent: Pubkey, owner: Pubkey, newAgentSigner: Pubkey, requestedAt: i64, readyAt: i64)

  // ---------------------------------------------------------------------------
  // Anchor account encoding (discriminator, then Borsh fields in order)
  // ---------------------------------------------------------------------------

  function BoolByte(b: bool): u8
  {
    if b then 1 else 0
  }

  /** Offset of `Enclave.creator_owner` in the account data. */
  const ENCLAVE_CREATOR_OWNER_OFFSET: nat := 8 + 32 + 32

  function EncodeEnclave(tag: Discriminator, e: Enclave): (data: Bytes)
    ensures |data| == ENCLAVE_LEN
    ensures data[..8] == tag
    ensures data[ENCLAVE_CREATOR_OWNER_OFFSET..ENCLAVE_CREATOR_OWNER_OFFSET + 32] == e.creatorOwner
  {
    tag + e.nameHash + e.creatorAgent + e.creatorOwner + e.metadataHash
      + I64Le(e.createdAt) + [BoolByte(e.isActive), e.bump]
  }

  /** `Enclave::try_deserialize`: the discriminator must match, the fields must
      fit, and the bool byte must be 0 or 1. Trailing bytes are ignored. */
  function DecodeEnclave(tag: Discriminator, data: Bytes): (r: Option<Enclave>)
    ensures r.Some? ==> |data| >= ENCLAVE_LEN && data[..8] == tag
    ensures r.Some? ==> EncodeEnclave(tag, r.value) == data[..ENCLAVE_LEN]
  {
    if |data| < ENCLAVE_LEN || data[..8] != tag || data[144] > 1 then None
    else
      Pow256Widths();
      var e := Enclave(data[8..40], data[40..72], data[72..104], data[104..136],
                       I64FromBits(FromLe(data[136..144])), data[144] == 1, data[145]);
      EnclaveFieldsReencode(tag, data, e);
      Some(e)
  }

  lemma EnclaveFieldsReencode(tag: Discriminator, data: Bytes, e: Enclave)
    requires |data| >= ENCLAVE_LEN && data[..8] == tag && data[144] <= 1
    requires e.nameHash == data[8..40] && e.creatorAgent == data[40..72]
    requires e.creatorOwner == data[72..104] && e.metadataHash == data[104..136]
    requires I64Bits(e.createdAt) == FromLe(data[136..144])
    requires e.isActive == (data[144] == 1) && e.bump == data[145]
    ensures EncodeEnclave(tag, e) == data[..ENCLAVE_LEN]
  {
    LeBytesOfFromLe(data[136..144]);
    Pow256Widths();
    assert I64Le(e.createdAt) == data[136..144];
    PrefixExtend(data, 8, 40);
    PrefixExtend(data, 40, 72);
    PrefixExtend(data, 72, 104);
    PrefixExtend(data, 104, 136);
    PrefixExtend(data, 136, 144);
    PrefixExtend(data, 144, 146);
    assert data[144..146] == [BoolByte(e.isActive), e.bump];
  }

  lemma PrefixExtend(s: Bytes, i: nat, j: nat)
    requires i <= j <= |s|
    ensures s[..j] == s[..i] + s[i..j]
  {
  }

  /** Decoding what was encoded gives the record back. */
  lemma DecodeEncodeEnclave(tag: Discriminator, e: Enclave, trailing: Bytes)
    ensures DecodeEnclave(tag, EncodeEnclave(tag, e) + trailing) == Some(e)
  {
    var data := EncodeEnclave(tag, e) + trailing;
    assert data[..8] == tag;
    assert data[144] == BoolByte(e.isActive);
    var d := DecodeEnclave(tag, data);
    assert d.Some?;
    assert EncodeEnclave(tag, d.value) == EncodeEnclave(tag, e);
    EncodeEnclaveInjective(tag, d.value, e);
  }

  lemma EncodeEnclaveInjective(tag: Discriminator, a: Enclave, b: Enclave)
    requires EncodeEnclave(tag, a) == EncodeEnclave(tag, b)
    ensures a == b
  {
    EnclaveFieldsAt(tag, a);
    EnclaveFieldsAt(tag, b);
    assert I64Le(a.createdAt) == I64Le(b.createdAt);
    assert I64Bits(a.createdAt) == I64Bits(b.createdAt);
  }

  /** Where each field of an encoded `Enclave` sits. */
  lemma EnclaveFieldsAt(tag: Discriminator, e: Enclave)
    ensures var d := EncodeEnclave(tag, e);
            d[8..40] == e.nameHash && d[40..72] == e.creatorAgent && d[72..104] == e.creatorOwner
            && d[104..136] == e.metadataHash && d[136..144] == I64Le(e.createdAt)
            && d[144] == BoolByte(e.isActive) && d[145] == e.bump
  {
    var p1 := tag + e.nameHash;
    var p2 := p1 + e.creatorAgent;
    var p3 := p2 + e.creatorOwner;
    var p4 := p3 + e.metadataHash;
    var p5 := p4 + I64Le(e.createdAt);
    var tail := [BoolByte(e.isActive), e.bump];
    var d := p5 + tail;
    assert d == EncodeEnclave(tag, e);
    ConcatSliceRight(tag, e.nameHash, 0, 32);
    ConcatSliceLeft(p1, e.creatorAgent, 8, 40);
    ConcatSliceLeft(p2, e.creatorOwner, 8, 40);
    ConcatSliceLeft(p3, e.metadataHash, 8, 40);
    ConcatSliceLeft(p4, I64Le(e.createdAt), 8, 40);
    ConcatSliceLeft(p5, tail, 8, 40);
    ConcatSliceRight(p1, e.creatorAgent, 0, 32);
    ConcatSliceLeft(p2, e.creatorOwner, 40, 72);
    ConcatSliceLeft(p3, e.metadataHash, 40, 72);
    ConcatSliceLeft(p4, I64Le(e.createdAt), 40, 72);
    ConcatSliceLeft(p5, tail, 40, 72);
    ConcatSliceRight(p2, e.creatorOwner, 0, 32);
    ConcatSliceLeft(p3, e.metadataHash, 72, 104);
    ConcatSliceLeft(p4, I64Le(e.createdAt), 72, 104);
    ConcatSliceLeft(p5, tail, 72, 104);
    ConcatSliceRight(p3, e.metadataHash, 0, 32);
    ConcatSliceLeft(p4, I64Le(e.createdAt), 104, 136);
    ConcatSliceLeft(p5, tail, 104, 136);
    ConcatSliceRight(p4, I64Le(e.createdAt), 0, 8);
    ConcatSliceLeft(p5, tail, 136, 144);
  }

  function EncodeEnclaveTreasury(tag: Discriminator, t: EnclaveTreasury): (data: Bytes)
    ensures |data| == ENCLAVE_TREASURY_LEN
  {
    tag + t.enclave + [t.bump]
  }

  /** `EnclaveTreasury::try_deserialize` */
  function DecodeEnclaveTreasury(tag: Discriminator, data: Bytes): (r: Option<EnclaveTreasury>)
    ensures r.Some? ==> |data| >= ENCLAVE_TREASURY_LEN
    ensures r.Some? ==> EncodeEnclaveTreasury(tag, r.value) == data[..ENCLAVE_TREASURY_LEN]
  {
    if |data| < ENCLAVE_TREASURY_LEN || data[..8] != tag then None
    else
      var t := EnclaveTreasury(data[8..40], data[40]);
      assert EncodeEnclaveTreasury(tag, t) == data[..ENCLAVE_TREASURY_LEN];
      Some(t)
  }

  lemma DecodeEncodeEnclaveTreasury(tag: Discriminator, t: EnclaveTreasury, trailing: Bytes)
    ensures DecodeEnclaveTreasury(tag, EncodeEnclaveTreasury(tag, t) + trailing) == Some(t)
  {
    var data := EncodeEnclaveTreasury(tag, t) + trailing;
    assert data[..8] == tag;
    assert data[8..40] == t.enclave;
  }

  /** Borsh encoding of `Option<u64>`: a presence byte, then the value if any. */
  function EncodeOptionU64(o: Option<u64>): (bs: Bytes)
    ensures |bs| == if o.Some? then 9 else 1
  {
    match o
    case None => [0]
    case Some(v) => [1] + U64Le(v)
  }

  /** Account data of a job posting. Anchor allocates `JobPosting::LEN` bytes;
      the encoding always fits and fills them exactly when a buy-it-now price
      is set, since `Option<u64>` is reserved at its larger, 9-byte size. */
  function EncodeJobPosting(tag: Discriminator, j: JobPosting): (data: Bytes)
    ensures |data| <= JOB_POSTING_LEN
    ensures |data| == JOB_POSTING_LEN <==> j.buyItNowLamports.Some?
  {
    tag + j.creator + U64Le(j.jobNonce) + j.metadataHash + U64Le(j.budgetLamports)
      + EncodeOptionU64(j.buyItNowLamports) + [JobStatusCode(j.status)]
      + j.assignedAgent + j.acceptedBid + I64Le(j.createdAt) + I64Le(j.updatedAt) + [j.bump]
  }
}

=== FILE: tips.dfy ===
/** Paid tips: submission into an escrow under a two-window rate limit,
    settlement to the treasuries (100% global, or 70/30 between the global
    treasury and the target enclave's treasury), refund by the authority, and
    the older program tree's settlement and tipper timeout refund.
 */
module Tips {
  import opened Ints
  import opened Errors
  import opened State
  import opened Ledger

  // ---------------------------------------------------------------------------
  // Rate limiting
  // ---------------------------------------------------------------------------

  /** The window bookkeeping `submit_tip` does before checking the ceilings:
      a zeroed record is taken over by the tipper, and each window whose reset
      time has come is emptied and re-anchored at `now` (not advanced on a
      fixed grid). The unchecked `now + 60` / `now + 3600` abort on overflow. */
  function RefreshWindows(rl: TipperRateLimit, tipper: Pubkey, now: i64): (r: Result<TipperRateLimit>)
    ensures r.Ok? ==> r.value.tipper == (if rl.tipper == DEFAULT_PUBKEY then tipper else rl.tipper)
    ensures r.Ok? && rl.tipper == DEFAULT_PUBKEY ==>
              r.value.tipsThisMinute == 0 && r.value.tipsThisHour == 0
    ensures r.Ok? && rl.tipper != DEFAULT_PUBKEY && now < rl.minuteResetAt ==>
              r.value.tipsThisMinute == rl.tipsThisMinute && r.value.minuteResetAt == rl.minuteResetAt
    ensures r.Ok? && rl.tipper != DEFAULT_PUBKEY && now < rl.hourResetAt ==>
              r.value.tipsThisHour == rl.tipsThisHour && r.value.hourResetAt == rl.hourResetAt
    ensures r.Ok? && rl.tipper != DEFAULT_PUBKEY && now >= rl.minuteResetAt ==>
              r.value.tipsThisMinute == 0 && r.value.minuteResetAt == now + MINUTE_WINDOW
    ensures r.Ok? && rl.tipper != DEFAULT_PUBKEY && now >= rl.hourResetAt ==>
              r.value.tipsThisHour == 0 && r.value.hourResetAt == now + HOUR_WINDOW
    ensures r.Ok? ==> now < r.value.minuteResetAt && now < r.value.hourResetAt
    ensures r.Err? ==> r.error == Panic && now + HOUR_WINDOW > I64_MAX
  {
    var taken :- TakeOver(rl, tipper, now);
    var minuteDone :- ResetMinuteWindow(taken, now);
    ResetHourWindow(minuteDone, now)
  }

  function TakeOver(rl: TipperRateLimit, tipper: Pubkey, now: i64): (r: Result<TipperRateLimit>)
    ensures rl.tipper != DEFAULT_PUBKEY ==> r == Ok(rl)
    ensures rl.tipper == DEFAULT_PUBKEY && now + HOUR_WINDOW <= I64_MAX ==>
              r == Ok(TipperRateLimit(tipper, 0, 0, now + MINUTE_WINDOW, now + HOUR_WINDOW))
    ensures r.Err? ==> r.error == Panic && now + HOUR_WINDOW > I64_MAX
  {
    if rl.tipper != DEFAULT_PUBKEY then Ok(rl)
    else
      var minuteReset :- PanickingAddI64(now, MINUTE_WINDOW);
      var hourReset :- PanickingAddI64(now, HOUR_WINDOW);
      Ok(TipperRateLimit(tipper, 0, 0, minuteReset, hourReset))
  }

  function ResetMinuteWindow(rl: TipperRateLimit, now: i64): (r: Result<TipperRateLimit>)
    ensures now < rl.minuteResetAt ==> r == Ok(rl)
    ensures now >= rl.minuteResetAt && now + MINUTE_WINDOW <= I64_MAX ==>
              r == Ok(rl.(tipsThisMinute := 0, minuteResetAt := now + MINUTE_WINDOW))
    ensures r.Err? ==> r.error == Panic && now + MINUTE_WINDOW > I64_MAX
  {
    if now < rl.minuteResetAt then Ok(rl)
    else
      var minuteReset :- PanickingAddI64(now, MINUTE_WINDOW);
      Ok(rl.(tipsThisMinute := 0, minuteResetAt := minuteReset))
  }

  function ResetHourWindow(rl: TipperRateLimit, now: i64): (r: Result<TipperRateLimit>)
    ensures now < rl.hourResetAt ==> r == Ok(rl)
    ensures now >= rl.hourResetAt && now + HOUR_WINDOW <= I64_MAX ==>
              r == Ok(rl.(tipsThisHour := 0, hourResetAt := now + HOUR_WINDOW))
    ensures r.Err? ==> r.error == Panic && now + HOUR_WINDOW > I64_MAX
  {
    if now < rl.hourResetAt then Ok(rl)
    else
      var hourReset :- PanickingAddI64(now, HOUR_WINDOW);
      Ok(rl.(tipsThisHour := 0, hourResetAt := hourReset))
  }

  predicate WithinCeilings(rl: TipperRateLimit)
  {
    rl.tipsThisMinute <= MAX_TIPS_PER_MINUTE && rl.tipsThisHour <= MAX_TIPS_PER_HOUR
  }

  /** The rate-limit part of `submit_tip`: refresh the windows, refuse when a
      ceiling is reached, otherwise count the tip in both windows. */
  function AdmitTip(rl: TipperRateLimit, tipper: Pubkey, now: i64): (r: Result<TipperRateLimit>)
    ensures r.Ok? ==> WithinCeilings(r.value) && 1 <= r.value.tipsThisMinute && 1 <= r.value.tipsThisHour
    ensures r.Ok? ==> now < r.value.minuteResetAt && now < r.value.hourResetAt
    ensures r.Ok? && rl.tipper != DEFAULT_PUBKEY ==>
              r.value.tipper == rl.tipper
              && r.value.tipsThisMinute == (if now < rl.minuteResetAt then rl.tipsThisMinute else 0) + 1
              && r.value.tipsThisHour == (if now < rl.hourResetAt then rl.tipsThisHour else 0) + 1
    ensures r.Ok? && rl.tipper == DEFAULT_PUBKEY ==>
              r.value.tipper == tipper && r.value.tipsThisMinute == 1 && r.value.tipsThisHour == 1
              && r.value.minuteResetAt == now + MINUTE_WINDOW && r.value.hourResetAt == now + HOUR_WINDOW
    ensures rl.tipper != DEFAULT_PUBKEY && now < rl.minuteResetAt && rl.tipsThisMinute >= MAX_TIPS_PER_MINUTE
              && (now < rl.hourResetAt || now + HOUR_WINDOW <= I64_MAX)
            ==> r == Err(RateLimitMinuteExceeded)
    ensures rl.tipper != DEFAULT_PUBKEY && now < rl.hourResetAt && rl.tipsThisHour >= MAX_TIPS_PER_HOUR
              && (now < rl.minuteResetAt ==> rl.tipsThisMinute < MAX_TIPS_PER_MINUTE)
              && now + MINUTE_WINDOW <= I64_MAX
            ==> r == Err(RateLimitHourExceeded)
    ensures r.Err? ==> r.error in {Panic, RateLimitMinuteExceeded, RateLimitHourExceeded}
  {
    var w :- RefreshWindows(rl, tipper, now);
    :- Need(w.tipsThisMinute < MAX_TIPS_PER_MINUTE, RateLimitMinuteExceeded);
    :- Need(w.tipsThisHour < MAX_TIPS_PER_HOUR, RateLimitHourExceeded);
    Ok(w.(tipsThisMinute := w.tipsThisMinute + 1, tipsThisHour := w.tipsThisHour + 1))
  }

  /** Three tips admitted inside one minute window fill it: a fourth inside the
      same window is refused, whatever the hour count. */
  lemma {:induction false} FourthTipInMinuteRefused(rl: TipperRateLimit, tipper: Pubkey, t1: i64, t2: i64, t3: i64, t4: i64)
    requires tipper != DEFAULT_PUBKEY
    requires rl.tipper == DEFAULT_PUBKEY || t1 >= rl.minuteResetAt
    requires t1 <= t2 <= t3 <= t4 < t1 + MINUTE_WINDOW
    requires t4 + HOUR_WINDOW <= I64_MAX
    requires AdmitTip(rl, tipper, t1).Ok?
    requires AdmitTip(AdmitTip(rl, tipper, t1).value, tipper, t2).Ok?
    requires AdmitTip(AdmitTip(AdmitTip(rl, tipper, t1).value, tipper, t2).value, tipper, t3).Ok?
    ensures AdmitTip(AdmitTip(AdmitTip(AdmitTip(rl, tipper, t1).value, tipper, t2).value, tipper, t3).value, tipper, t4)
              == Err(RateLimitMinuteExceeded)
  {
    var a := AdmitTip(rl, tipper, t1).value;
    assert a.minuteResetAt == t1 + MINUTE_WINDOW && a.tipsThisMinute == 1;
    var b := AdmitTip(a, tipper, t2).value;
    assert b.minuteResetAt == a.minuteResetAt && b.tipsThisMinute == 2;
    var c := AdmitTip(b, tipper, t3).value;
    assert c.minuteResetAt == a.minuteResetAt && c.tipsThisMinute == 3;
  }

  /** Once both reset times have passed, a tipper is admitted again, with both
      windows restarted at `now`. */
  lemma WindowsReopen(rl: TipperRateLimit, tipper: Pubkey, now: i64)
    requires rl.tipper != DEFAULT_PUBKEY
    requires now >= rl.minuteResetAt && now >= rl.hourResetAt
    requires now + HOUR_WINDOW <= I64_MAX
    ensures AdmitTip(rl, tipper, now)
              == Ok(rl.(tipsThisMinute := 1, tipsThisHour := 1,
                        minuteResetAt := now + MINUTE_WINDOW, hourResetAt := now + HOUR_WINDOW))
  {
  }

  // ---------------------------------------------------------------------------
  // Submission
  // ---------------------------------------------------------------------------

  /** `source_type` as `submit_tip` maps it: 1 is a URL, anything else text. */
  function SourceTypeOf(code: u8): (t: TipSourceType)
  {
    if code == 1 then Url else Text
  }

  /** The target check of `submit_tip`: either the system program (a global
      tip) or a program-owned account holding an active `Enclave`. */
  function CheckTipTarget(env: Env, target: AccountInfo): (o: Outcome)
    ensures o.Pass? <==>
              target.key == SYSTEM_PROGRAM_ID
              || (target.owner == env.programId
                  && DecodeEnclave(env.enclaveTag, target.data).Some?
                  && DecodeEnclave(env.enclaveTag, target.data).value.isActive)
    ensures o.Fail? ==> o.error in {InvalidTargetEnclave, EnclaveInactive}
  {
    if target.key == SYSTEM_PROGRAM_ID then Pass
    else if target.owner != env.programId then Fail(InvalidTargetEnclave)
    else
      var enclave := DecodeEnclave(env.enclaveTag, target.data);
      if enclave.None? then Fail(InvalidTargetEnclave)
      else Need(enclave.value.isActive, EnclaveInactive)
  }

  /** A program-owned account holding an encoded enclave is accepted exactly
      when the enclave is active; any account another program owns is refused. */
  lemma TipTargetFromEnclave(env: Env, key: Pubkey, owner: Pubkey, lamports: u64, e: Enclave, trailing: Bytes)
    requires key != SYSTEM_PROGRAM_ID
    ensures var target := AccountInfo(key, owner, lamports, EncodeEnclave(env.enclaveTag, e) + trailing);
            CheckTipTarget(env, target)
              == if owner != env.programId then Fail(InvalidTargetEnclave)
                 else if e.isActive then Pass
                 else Fail(EnclaveInactive)
  {
    DecodeEncodeEnclave(env.enclaveTag, e, trailing);
  }

  datatype TipSubmission = TipSubmission(
    rateLimit: TipperRateLimit,
    tip: TipAnchor,
    escrow: TipEscrow,
    tipperLamports: u64,
    escrowLamports: u64)

  /** `submit_tip`. `tipTaken` says whether an account already lives at the tip
      address derived from (tipper, nonce), which makes `init` fail;
      `escrowLamports` is what the freshly created escrow holds before the
      deposit. */
  function SubmitTip(env: Env, tipper: Wallet, rateLimit: TipperRateLimit, tipKey: Pubkey, tipTaken: bool,
                     escrowLamports: u64, target: AccountInfo, contentHash: Bytes32, amount: u64,
                     sourceType: u8, tipNonce: u64, now: i64): (r: Result<TipSubmission>)
    ensures tipTaken ==> r == Err(AccountAlreadyInUse)
    ensures !tipTaken && amount < TIP_MIN_AMOUNT ==> r == Err(TipBelowMinimum)
    // The rate limit is consulted before the target is looked at.
    ensures !tipTaken && amount >= TIP_MIN_AMOUNT && AdmitTip(rateLimit, tipper.key, now).Err?
            ==> r == Err(AdmitTip(rateLimit, tipper.key, now).error)
    ensures !tipTaken && amount >= TIP_MIN_AMOUNT && AdmitTip(rateLimit, tipper.key, now).Ok?
            && CheckTipTarget(env, target).Fail?
            ==> r == Err(CheckTipTarget(env, target).error)
    ensures (!tipTaken && amount >= TIP_MIN_AMOUNT && AdmitTip(rateLimit, tipper.key, now).Ok?
             && CheckTipTarget(env, target).Pass? && amount > tipper.lamports)
            ==> r == Err(InsufficientFunds)
    ensures r.Err? ==> r.error in {AccountAlreadyInUse, TipBelowMinimum, RateLimitMinuteExceeded,
                                   RateLimitHourExceeded, Panic, InvalidTargetEnclave, EnclaveInactive,
                                   InsufficientFunds, LamportsOverflow}
    ensures r.Ok? ==> amount >= TIP_MIN_AMOUNT && CheckTipTarget(env, target).Pass?
    ensures r.Ok? ==> r.value.tip == TipAnchor(tipper.key, contentHash, amount, DerivePriority(amount),
                                               SourceTypeOf(sourceType), target.key, tipNonce, now, Pending)
    ensures r.Ok? ==> r.value.escrow == TipEscrow(tipKey, amount)
    ensures r.Ok? ==> r.value.tipperLamports == tipper.lamports - amount
                      && r.value.escrowLamports == escrowLamports + amount
    ensures r.Ok? ==> AdmitTip(rateLimit, tipper.key, now) == Ok(r.value.rateLimit)
  {
    if tipTaken then Err(AccountAlreadyInUse) else
    :- Need(amount >= TIP_MIN_AMOUNT, TipBelowMinimum);
    var rl :- AdmitTip(rateLimit, tipper.key, now);
    :- CheckTipTarget(env, target);
    var tip := TipAnchor(tipper.key, contentHash, amount, DerivePriority(amount),
                         SourceTypeOf(sourceType), target.key, tipNonce, now, Pending);
    var moved :- SystemTransfer(tipper.lamports, escrowLamports, amount);
    Ok(TipSubmission(rl, tip, TipEscrow(tipKey, amount), moved.0, moved.1))
  }

  // ---------------------------------------------------------------------------
  // Settlement and refunds
  // ---------------------------------------------------------------------------

  /** A tip with its escrow account. */
  datatype EscrowedTip = EscrowedTip(key: Pubkey, tip: TipAnchor, escrow: TipEscrow, escrowLamports: u64)

  /** The account constraints every release of a tip shares. */
  function CheckReleasable(t: EscrowedTip): (o: Outcome)
    ensures o.Pass? <==> t.tip.status == Pending && t.escrow.tip == t.key && t.escrow.amount == t.tip.amount
    ensures t.tip.status != Pending ==> o == Fail(TipNotPending)
    ensures t.tip.status == Pending && t.escrow.tip != t.key ==> o == Fail(ConstraintRaw)
    ensures t.tip.status == Pending && t.escrow.tip == t.key && t.escrow.amount != t.tip.amount
            ==> o == Fail(EscrowAmountMismatch)
  {
    if t.tip.status != Pending then Fail(TipNotPending)
    else if t.escrow.tip != t.key then Fail(ConstraintRaw)
    else Need(t.escrow.amount == t.tip.amount, EscrowAmountMismatch)
  }

  /** The tip after a release: final status, escrow record emptied. */
  function Closed(t: EscrowedTip, status: TipStatus, escrowLamports: u64): EscrowedTip
  {
    t.(tip := t.tip.(status := status), escrow := t.escrow.(amount := 0), escrowLamports := escrowLamports)
  }

  /** `after` is `before` released with final status `status`: the whole tip
      amount has left the escrow account and the escrow record is emptied. */
  predicate ClosedAs(before: EscrowedTip, after: EscrowedTip, status: TipStatus)
  {
    after.key == before.key
    && after.tip == before.tip.(status := status)
    && after.escrow == before.escrow.(amount := 0)
    && after.escrowLamports == before.escrowLamports - before.tip.amount
  }

  /** The enclave-tip split: `amount * 70 / 100` (truncating, with the
      multiplication checked) to the global treasury and the rest to the
      enclave side, which is therefore 30% rounded up. */
  function SplitShares(amount: u64): (r: Result<(u64, u64)>)
    ensures r.Ok? <==> amount * 70 <= U64_MAX
    ensures r.Err? ==> r.error == ArithmeticOverflow
    ensures r.Ok? ==> r.value.0 + r.value.1 == amount
    ensures r.Ok? ==> 100 * r.value.0 <= 70 * amount < 100 * r.value.0 + 100
    ensures r.Ok? ==> 100 * r.value.1 >= 30 * amount > 100 * r.value.1 - 100
  {
    if amount * 70 > U64_MAX then Err(ArithmeticOverflow) else
    var treasuryShare := amount * 70 / 100;
    Ok((treasuryShare, amount - treasuryShare))
  }

  /** Balances after a settlement: the tip side, the global treasury, and the
      account that received the enclave share (unchanged for a global tip). */
  datatype Settlement = Settlement(escrowed: EscrowedTip, treasury: TreasuryAccount, recipientLamports: u64)

  /** The treasury-share leg common to both settlement paths: move lamports
      from the escrow and count them in `total_collected`. */
  function PayTreasury(escrowLamports: u64, treasury: TreasuryAccount, share: u64): (r: Result<(u64, TreasuryAccount)>)
    ensures r.Ok? ==> r.value.0 == escrowLamports - share && r.value.1.lamports == treasury.lamports + share
    ensures r.Ok? ==> r.value.1.state.authority == treasury.state.authority
                      && r.value.1.state.totalCollected == treasury.state.totalCollected + share
    ensures r.Err? ==> r.error == ArithmeticOverflow
  {
    var moved :- MoveLamports(escrowLamports, treasury.lamports, share);
    var total :- CheckedAddU64(treasury.state.totalCollected, share, ArithmeticOverflow);
    Ok((moved.0, TreasuryAccount(treasury.state.(totalCollected := total), moved.1)))
  }

  /** `settle_tip` (newer tree). */
  function SettleTip(env: Env, config: ProgramConfig, authority: Pubkey, t: EscrowedTip,
                     treasury: TreasuryAccount, target: AccountInfo, enclaveTreasury: AccountInfo): (r: Result<Settlement>)
    ensures authority != config.authority ==> r == Err(UnauthorizedAuthority)
    ensures authority == config.authority && t.tip.status != Pending ==> r == Err(TipNotPending)
    ensures authority == config.authority && CheckReleasable(t).Pass? && target.key != t.tip.targetEnclave
            ==> r == Err(InvalidTargetEnclave)
    ensures r.Ok? ==> CheckReleasable(t).Pass? && target.key == t.tip.targetEnclave
    // where the money goes
    ensures r.Ok? && t.tip.targetEnclave == SYSTEM_PROGRAM_ID ==>
              r.value.treasury.lamports == treasury.lamports + t.tip.amount
              && r.value.treasury.state.totalCollected == treasury.state.totalCollected + t.tip.amount
              && r.value.recipientLamports == enclaveTreasury.lamports
    ensures r.Ok? && t.tip.targetEnclave != SYSTEM_PROGRAM_ID ==>
              var shares := SplitShares(t.tip.amount);
              shares.Ok?
              && r.value.treasury.lamports == treasury.lamports + shares.value.0
              && r.value.treasury.state.totalCollected == treasury.state.totalCollected + shares.value.0
              && r.value.recipientLamports == enclaveTreasury.lamports + shares.value.1
    // and that it goes to the enclave the tip was made for
    ensures r.Ok? && t.tip.targetEnclave != SYSTEM_PROGRAM_ID ==>
              target.owner == env.programId
              && DecodeEnclave(env.enclaveTag, target.data).Some?
              && DecodeEnclave(env.enclaveTag, target.data).value.isActive
              && enclaveTreasury.key == env.enclaveTreasuryAddress(t.tip.targetEnclave)
              && enclaveTreasury.owner == env.programId
              && DecodeEnclaveTreasury(env.treasuryTag, enclaveTreasury.data).Some?
              && DecodeEnclaveTreasury(env.treasuryTag, enclaveTreasury.data).value.enclave == t.tip.targetEnclave
    ensures r.Ok? ==> ClosedAs(t, r.value.escrowed, Settled)
    ensures r.Ok? ==> r.value.treasury.state.authority == treasury.state.authority
    ensures r.Ok? ==> t.escrowLamports + treasury.lamports + enclaveTreasury.lamports
                      == r.value.escrowed.escrowLamports + r.value.treasury.lamports + r.value.recipientLamports
  {
    if authority != config.authority then Err(UnauthorizedAuthority) else
    :- CheckReleasable(t);
    var amount := t.escrow.amount;
    :- Need(target.key == t.tip.targetEnclave, InvalidTargetEnclave);
    if t.tip.targetEnclave == SYSTEM_PROGRAM_ID then
      var paid :- PayTreasury(t.escrowLamports, treasury, amount);
      Ok(Settlement(Closed(t, Settled, paid.0), paid.1, enclaveTreasury.lamports))
    else
      var shares :- SplitShares(amount);
      :- Need(target.owner == env.programId, InvalidTargetEnclave);
      var enclave := DecodeEnclave(env.enclaveTag, target.data);
      :- Need(enclave.Some?, InvalidTargetEnclave);
      :- Need(enclave.value.isActive, EnclaveInactive);
      :- Need(enclaveTreasury.key == env.enclaveTreasuryAddress(target.key), InvalidEnclaveTreasury);
      :- Need(enclaveTreasury.owner == env.programId, InvalidEnclaveTreasury);
      var record := DecodeEnclaveTreasury(env.treasuryTag, enclaveTreasury.data);
      :- Need(record.Some?, InvalidEnclaveTreasury);
      :- Need(record.value.enclave == target.key, InvalidEnclaveTreasury);
      var paid :- PayTreasury(t.escrowLamports, treasury, shares.0);
      var moved :- MoveLamports(paid.0, enclaveTreasury.lamports, shares.1);
      Ok(Settlement(Closed(t, Settled, moved.0), paid.1, moved.1))
  }

  /** `settle_tip` of the older program tree: signed by the registrar, and the
      30% goes to a creator wallet checked only against bytes 72..104 of
      whatever account is passed as the target enclave. */
  function SettleTipOld(configRegistrar: Pubkey, registrar: Pubkey, t: EscrowedTip, treasury: TreasuryAccount,
                        target: AccountInfo, creator: Wallet): (r: Result<Settlement>)
    ensures registrar != configRegistrar ==> r == Err(UnauthorizedRegistrar)
    ensures r.Ok? ==> CheckReleasable(t).Pass?
    ensures r.Ok? && t.tip.targetEnclave != SYSTEM_PROGRAM_ID ==>
              |target.data| >= ENCLAVE_CREATOR_OWNER_OFFSET + 32
              && creator.key == target.data[ENCLAVE_CREATOR_OWNER_OFFSET..ENCLAVE_CREATOR_OWNER_OFFSET + 32]
    ensures r.Ok? ==> ClosedAs(t, r.value.escrowed, Settled)
    ensures r.Ok? ==> t.escrowLamports + treasury.lamports + creator.lamports
                      == r.value.escrowed.escrowLamports + r.value.treasury.lamports + r.value.recipientLamports
  {
    if registrar != configRegistrar then Err(UnauthorizedRegistrar) else
    :- CheckReleasable(t);
    var amount := t.escrow.amount;
    if t.tip.targetEnclave == SYSTEM_PROGRAM_ID then
      var paid :- PayTreasury(t.escrowLamports, treasury, amount);
      Ok(Settlement(Closed(t, Settled, paid.0), paid.1, creator.lamports))
    else
      var shares :- SplitShares(amount);
      :- Need(|target.data| >= ENCLAVE_CREATOR_OWNER_OFFSET + 32, InvalidTargetEnclave);
      :- Need(creator.key == target.data[ENCLAVE_CREATOR_OWNER_OFFSET..ENCLAVE_CREATOR_OWNER_OFFSET + 32],
              InvalidTargetEnclave);
      var paid :- PayTreasury(t.escrowLamports, treasury, shares.0);
      var moved :- MoveLamports(paid.0, creator.lamports, shares.1);
      Ok(Settlement(Closed(t, Settled, moved.0), paid.1, moved.1))
  }

  /** `refund_tip`: the authority returns the whole escrow to the tipper. */
  function RefundTip(config: ProgramConfig, authority: Pubkey, t: EscrowedTip, tipper: Wallet): (r: Result<(EscrowedTip, Wallet)>)
    ensures authority != config.authority ==> r == Err(UnauthorizedAuthority)
    ensures authority == config.authority && t.tip.status != Pending ==> r == Err(TipNotPending)
    ensures r.Ok? ==> CheckReleasable(t).Pass? && tipper.key == t.tip.tipper
    ensures r.Ok? ==> ClosedAs(t, r.value.0, Refunded)
    ensures r.Ok? ==> r.value.1.key == tipper.key && r.value.1.lamports == tipper.lamports + t.tip.amount
  {
    if authority != config.authority then Err(UnauthorizedAuthority) else
    :- CheckReleasable(t);
    :- Need(tipper.key == t.tip.tipper, ConstraintRaw);
    var moved :- MoveLamports(t.escrowLamports, tipper.lamports, t.escrow.amount);
    Ok((Closed(t, Refunded, moved.0), tipper.(lamports := moved.1)))
  }

  const TIP_TIMEOUT_SECONDS: i64 := 30 * 60

  /** `claim_timeout_refund` (older tree): the tipper takes the escrow back
      once the tip has been pending for 30 minutes. */
  function ClaimTimeoutRefund(tipper: Wallet, t: EscrowedTip, now: i64): (r: Result<(EscrowedTip, Wallet)>)
    ensures t.tip.tipper != tipper.key ==> r == Err(ConstraintRaw)
    ensures t.tip.tipper == tipper.key && CheckReleasable(t).Fail? ==> r == Err(CheckReleasable(t).error)
    ensures t.tip.tipper == tipper.key && t.tip.status != Pending ==> r == Err(TipNotPending)
    ensures (t.tip.tipper == tipper.key && CheckReleasable(t).Pass? && I64_MIN <= now - t.tip.createdAt <= I64_MAX
             && now - t.tip.createdAt < TIP_TIMEOUT_SECONDS)
            ==> r == Err(TipNotTimedOut)
    ensures r.Err? ==> r.error in {ConstraintRaw, TipNotPending, EscrowAmountMismatch, ArithmeticOverflow,
                                   TipNotTimedOut}
    ensures r.Ok? ==> tipper.key == t.tip.tipper && CheckReleasable(t).Pass?
    ensures r.Ok? ==> now - t.tip.createdAt >= TIP_TIMEOUT_SECONDS
    ensures r.Ok? ==> ClosedAs(t, r.value.0, Refunded)
    ensures r.Ok? ==> r.value.1.key == tipper.key && r.value.1.lamports == tipper.lamports + t.tip.amount
  {
    if t.tip.tipper != tipper.key then Err(ConstraintRaw) else
    :- CheckReleasable(t);
    var elapsed :- CheckedSubI64(now, t.tip.createdAt, ArithmeticOverflow);
    :- Need(elapsed >= TIP_TIMEOUT_SECONDS, TipNotTimedOut);
    var moved :- MoveLamports(t.escrowLamports, tipper.lamports, t.escrow.amount);
    Ok((Closed(t, Refunded, moved.0), tipper.(lamports := moved.1)))
  }

  /** What `submit_tip` creates is exactly what the release handlers accept: a
      Pending tip whose escrow records it and holds its amount. */
  lemma SubmittedTipIsReleasable(env: Env, tipper: Wallet, rateLimit: TipperRateLimit, tipKey: Pubkey,
                                 tipTaken: bool, escrowLamports: u64, target: AccountInfo, contentHash: Bytes32,
                                 amount: u64, sourceType: u8, tipNonce: u64, now: i64)
    requires SubmitTip(env, tipper, rateLimit, tipKey, tipTaken, escrowLamports, target, contentHash, amount,
                       sourceType, tipNonce, now).Ok?
    ensures var s := SubmitTip(env, tipper, rateLimit, tipKey, tipTaken, escrowLamports, target, contentHash,
                               amount, sourceType, tipNonce, now).value;
            CheckReleasable(EscrowedTip(tipKey, s.tip, s.escrow, s.escrowLamports)).Pass?
            && s.escrowLamports - s.escrow.amount == escrowLamports
  {
  }

  /** The timeout is a sharp boundary: for a claimable tip, a claim before
      1800 s have elapsed is refused with `TipNotTimedOut`, and one at or after
      it is not refused for time. */
  lemma TimeoutBoundary(tipper: Wallet, t: EscrowedTip, now: i64)
    requires t.tip.tipper == tipper.key && CheckReleasable(t).Pass?
    requires I64_MIN <= now - t.tip.createdAt <= I64_MAX
    ensures ClaimTimeoutRefund(tipper, t, now) == Err(TipNotTimedOut) <==> now - t.tip.createdAt < TIP_TIMEOUT_SECONDS
  {
  }

  /** A tip is released at most once: after a settlement or a refund (by the
      authority or by timeout), every further settlement, refund or timeout
      claim of it fails. */
  lemma {:induction false} ReleasedTipIsFinal(env: Env, config: ProgramConfig, authority: Pubkey, released: EscrowedTip,
                                              treasury: TreasuryAccount, target: AccountInfo, enclaveTreasury: AccountInfo,
                                              wallet: Wallet, now: i64)
    requires released.tip.status != Pending
    ensures !SettleTip(env, config, authority, released, treasury, target, enclaveTreasury).Ok?
    ensures !RefundTip(config, authority, released, wallet).Ok?
    ensures !ClaimTimeoutRefund(wallet, released, now).Ok?
  {
  }

  /** Every successful release leaves the tip non-pending. */
  lemma ReleasesFinalize(env: Env, config: ProgramConfig, authority: Pubkey, t: EscrowedTip,
                         treasury: TreasuryAccount, target: AccountInfo, enclaveTreasury: AccountInfo,
                         wallet: Wallet, now: i64)
    ensures SettleTip(env, config, authority, t, treasury, target, enclaveTreasury).Ok? ==>
              SettleTip(env, config, authority, t, treasury, target, enclaveTreasury).value.escrowed.tip.status != Pending
    ensures RefundTip(config, authority, t, wallet).Ok? ==> RefundTip(config, authority, t, wallet).value.0.tip.status != Pending
    ensures ClaimTimeoutRefund(wallet, t, now).Ok? ==> ClaimTimeoutRefund(wallet, t, now).value.0.tip.status != Pending
  {
  }

  // ---------------------------------------------------------------------------
  // The older settlement pays whoever the target's bytes name
  // ---------------------------------------------------------------------------

  /** Whatever account is passed as the target enclave, whatever its key,
      owner or type, the older settlement pays the creator share to the wallet
      named by its bytes 72..104 as long as the balances allow it. */
  lemma OldSettleTrustsAnyTarget(configRegistrar: Pubkey, t: EscrowedTip, treasury: TreasuryAccount,
                                 target: AccountInfo, creator: Wallet)
    requires CheckReleasable(t).Pass? && t.tip.targetEnclave != SYSTEM_PROGRAM_ID
    requires t.tip.amount * 70 <= U64_MAX
    requires t.tip.amount <= t.escrowLamports
    requires treasury.lamports + t.tip.amount <= U64_MAX
    requires treasury.state.totalCollected + t.tip.amount <= U64_MAX
    requires creator.lamports + t.tip.amount <= U64_MAX
    requires |target.data| >= ENCLAVE_CREATOR_OWNER_OFFSET + 32
    requires creator.key == target.data[ENCLAVE_CREATOR_OWNER_OFFSET..ENCLAVE_CREATOR_OWNER_OFFSET + 32]
    ensures SettleTipOld(configRegistrar, configRegistrar, t, treasury, target, creator).Ok?
    ensures SettleTipOld(configRegistrar, configRegistrar, t, treasury, target, creator).value.recipientLamports
              == creator.lamports + SplitShares(t.tip.amount).value.1
  {
  }

  /** A concrete instance: a tip made for enclave E is settled with an unrelated,
      system-owned account as "target"; the older handler pays the wallet that
      account names, the newer one refuses. */
  lemma OldSettleMisroutesCreatorShare(env: Env, config: ProgramConfig)
    ensures
      var e: Pubkey := seq(32, i => 1);
      var w: Pubkey := seq(32, i => 3);
      var stranger := AccountInfo(seq(32, i => 2), SYSTEM_PROGRAM_ID, 0, seq(72, i => 0) + w);
      var tip := TipAnchor(seq(32, i => 4), ZERO_BYTES32, TIP_MIN_AMOUNT, Low, Text, e, 0, 0, Pending);
      var t := EscrowedTip(seq(32, i => 5), tip, TipEscrow(seq(32, i => 5), TIP_MIN_AMOUNT), TIP_MIN_AMOUNT);
      var treasury := TreasuryAccount(GlobalTreasury(config.authority, 0), 0);
      var legacy := SettleTipOld(config.authority, config.authority, t, treasury, stranger, Wallet(w, 0));
      legacy.Ok? && legacy.value.recipientLamports == 4_500_000 && stranger.key != tip.targetEnclave
      && SettleTip(env, config, config.authority, t, treasury, stranger, stranger) == Err(InvalidTargetEnclave)
  {
    var e: Pubkey := seq(32, i => 1);
    var w: Pubkey := seq(32, i => 3);
    var stranger := AccountInfo(seq(32, i => 2), SYSTEM_PROGRAM_ID, 0, seq(72, i => 0) + w);
    var tip := TipAnchor(seq(32, i => 4), ZERO_BYTES32, TIP_MIN_AMOUNT, Low, Text, e, 0, 0, Pending);
    var t := EscrowedTip(seq(32, i => 5), tip, TipEscrow(seq(32, i => 5), TIP_MIN_AMOUNT), TIP_MIN_AMOUNT);
    var treasury := TreasuryAccount(GlobalTreasury(config.authority, 0), 0);
    assert stranger.key[0] == 2 && e[0] == 1 && SYSTEM_PROGRAM_ID[0] == 0;
    assert stranger.data[72..104] == w;
    assert CheckReleasable(t).Pass?;
    OldSettleTrustsAnyTarget(config.authority, t, treasury, stranger, Wallet(w, 0));
    assert SplitShares(TIP_MIN_AMOUNT).value.1 == 4_500_000;
  }
}
